=== FILE: README.md ===
# BLF to PCAPNG converter: a Dafny model of the conversion core

The converter reads a vehicle-bus log in Vector's BLF format and writes a
PCAPNG capture. This project models the part that decides what gets written:

- the per-bus encoders of `src/app.cpp`:
  - the 72-byte `CanFrame` buffer and the CAN, CAN FD and CAN error writers;
  - the Ethernet writers, including the trailing frame check sequence of `ETHERNET_FRAME_EX`;
  - the FlexRay writers, with their measurement header, error flags and the 5-byte FlexRay frame header;
  - the LIN writers.
- the timestamp normaliser: the resolution by object flags, the 63-bit masks and the split into seconds and nanoseconds.
- `calculate_startdate`.
- the channel resolver of `src/channels.cpp`:
  - `split`, `std::stoi` and the two bus-name tables;
  - inline database-channel records;
  - XML channel metadata, including Ethernet port descriptions;
  - the fragment accumulator.
- the dispatch loop of `main`, which sends each record to its writer or to the resolver.

Every writer is a pure function from a decoded record to a `Written` outcome:
a frame, or the reason nothing was written. Each frame contract states two things:
- what a reader of the output recovers. For each bus there is an independent parser (`CanFrame.Decode`, `EthernetEncoders.ParseEthernet`, `FlexRayEncoders.ReadFrame`), and the contract is stated as a round trip through it.
- which channel key, link layer and time the frame is stamped with.

The resolver is a pure function on a `Resolver` value: the mapping list plus the pending metadata text, keyed by metadata id. Its faults (exceptions and undefined behaviour in the original) are `Err` results that end the run.

Modules, in dependency order:
- `Wrappers`, `Bits`.
- `CanFrame`, `FlexRayLayout`.
- `Timestamps`, `Frames` (output records), `Blf` (input records).
- `CanEncoders`, `EthernetEncoders`, `FlexRayEncoders`, `LinEncoders`.
- `Text`, `Xml`, `Channels`.
- `Dispatch`.

Two behaviours of the code that a reader might not expect are modelled as written:

- **Accumulator entries are never erased.** A later metadata block with the same id continues the old text (`Channels.StaleBlockContinues`).
- **The 64-bit CAN FD direction is dropped.** The direction computed for `CAN_FD_MESSAGE_64` is not passed to the writer, so those frames carry flags 0 (`CanEncoders.CanFd64DirectionDropped`).

One behaviour is not modelled as written. The LIN writers divide by the time resolution before they test it for zero (see "## Findings"). The dispatch loop calls the corrected LIN writers, which skip such a record. `Dispatch.LinUnknownFormatSkipped` states where the loop and the program part ways.

## Model

| member | source | states |
|---|---|---|
| CanFrame.SetId | src/app.cpp:47-55 | the id read back is the value masked to 29 bits; the three flag bits of byte 0 are the old flags OR'd with the value's top bits; bytes 4.. are unchanged |
| CanFrame.SetExt | src/app.cpp:57-63 | the extended flag reads back as set; every other field and byte is unchanged |
| CanFrame.SetRtr | src/app.cpp:65-71 | the remote-request flag reads back as set; every other field is unchanged |
| CanFrame.SetErr | src/app.cpp:73-79 | the error flag reads back as set; every other field is unchanged |
| CanFrame.SetBrs | src/app.cpp:81-87 | the bit-rate-switch flag in byte 5 reads back as set; ESI and every other field are unchanged |
| CanFrame.SetEsi | src/app.cpp:89-95 | the ESI flag in byte 5 reads back as set; BRS and every other field are unchanged |
| CanFrame.SetLen | src/app.cpp:97-102 | byte 4 reads back as the length; id and all flags are unchanged |
| CanFrame.SetData | src/app.cpp:104-109 | the copied bytes land at offset 8; the header and the bytes after the copy are unchanged |
| CanFrame.Size | src/app.cpp:115-117 | the size is length + 8 taken modulo 256 (an 8-bit result), so lengths above 247 wrap |
| CanFrame.Bytes | src/app.cpp:111-117 | the written bytes are the first `size()` bytes of the buffer |
| CanFrame.DecodeBytes | src/app.cpp:42-119 | for lengths up to 64, decoding the written bytes gives back every field that was set: id, the five flags, the length and the data |
| CanFrame.ErrorFrame | src/app.cpp:236-243 | the error frame has only the error flag, length 8, size 16 and all-zero id and data |
| CanEncoders.CanDirection | src/app.cpp:218 | the direction is out exactly when bit 0 of the flags is set, and in otherwise |
| CanEncoders.BuildFrame | src/app.cpp:210-234 | the buffer reports the id, RTR, ESI, BRS and length that were set, and holds the data zero-padded to the length |
| CanEncoders.ReadBackExpected | src/app.cpp:42-119 | any buffer that reports those fields decodes to exactly the expected fields |
| CanEncoders.EncodeCanMessage | src/app.cpp:210-234 | nothing is written iff the time format is unknown; a written packet is on the record's channel with the RTR flag from bit 7 and the direction from bit 0; it decodes to the record's id, RTR, length and data |
| CanEncoders.EncodeCanFdMessage | src/app.cpp:258-275 | as for CAN, plus ESI from FD flag bit 2 and BRS from FD flag bit 1, read back by decoding |
| CanEncoders.EncodeCanFdMessage64 | src/app.cpp:278-297 | RTR from bit 4, ESI from bit 14 and BRS from bit 13 read back by decoding; the packet's direction flags are 0 |
| CanEncoders.CanFd64DirectionDropped | src/app.cpp:294-296 | a transmitted record (bit 6) has a computed direction of out, but the written packet does not carry it |
| CanEncoders.EncodeCanError | src/app.cpp:236-255 | the error packet is the fixed 16-byte error frame, which decodes to id 0, error flag, length 8 and zero data |
| CanEncoders.ClassicRoundTrip | src/app.cpp:210-220 | a classic 8-byte message with id 0x123 decodes back to id 0x123, length 8 and no RTR |
| Timestamps.Resolution | src/app.cpp:121-137 | the resolution is 0 exactly for an unknown time format; 10 µs ticks give 100000 and ns ticks give 10^9, both dividing 10^9 |
| Timestamps.Resolve | src/app.cpp:174-183 | no timestamp iff the resolution is 0; otherwise nanoseconds below 10^9 and a total equal to the masked relative time plus the masked start date |
| Timestamps.ResolveExact | src/app.cpp:178-183 | while both terms stay below 2^63, the stamp is exactly ticks × scale + start date |
| Timestamps.ResolveMonotone | src/app.cpp:178-183 | while no mask applies, a later tick never gets an earlier stamp |
| Timestamps.StartDateNs | src/app.cpp:784-803 | the start date is seconds × 10^9 + milliseconds × 10^6, wrapped to 64 bits when negative |
| Timestamps.StartDateSplit | src/app.cpp:784-803 | the start date splits back into its seconds and its milliseconds |
| Timestamps.ZeroTicksAtStartDate | src/app.cpp:178-183 | a record at tick 0 is stamped exactly at the measurement's start |
| Frames.ChannelKey | src/app.cpp:167 | hardware channel 0 keeps the channel number; otherwise the key is 100000 × hardware channel + channel, modulo 2^32 |
| Frames.EmitPacket | src/app.cpp:154-207 | nothing is written iff the time format is unknown; otherwise one packet with the channel key, link layer, resolved time, direction flags and payload |
| EthernetEncoders.EthernetDirection | src/app.cpp:308-317 | direction 0 is in, 1 is out, anything else is unknown (0) |
| EthernetEncoders.EthernetRoundTrip | src/app.cpp:305-342 | parsing the built frame gives back destination, source, the VLAN tag only when TPID ≠ 0, the EtherType and the payload |
| EthernetEncoders.EncodeEthernetFrame | src/app.cpp:344-366 | written iff the time format is known; an Ethernet packet on the record's channel whose parse gives back the record's fields |
| EthernetEncoders.Le32RoundTrip | src/app.cpp:347-351 | the appended checksum reads back as the record's checksum |
| EthernetEncoders.EncodeEthernetFrameEx | src/app.cpp:344-378 | the key combines hardware channel and channel; the payload starts with the frame data; 4 more bytes, holding the checksum, appear exactly when flag bit 3 is set |
| FlexRayLayout.MeasurementHeader | src/app.cpp:380-407 | the low 7 bits give the packet type; the channel bit is set exactly for channel masks 2 and 3 |
| FlexRayLayout.HeaderCrc | src/app.cpp:409-424 | mask 1 selects CRC 1; masks 2 and 3 select CRC 2; any other mask gives 0 |
| FlexRayLayout.SetHeaderFlags | src/app.cpp:426-448 | each indicator bit is set iff it was already set or its frame-state bit is set; input bits are kept |
| FlexRayLayout.SetHeaderFlagsRcvMsg | src/app.cpp:450-472 | as above for receive flags; the null-frame indicator is set when bit 0 is clear (it is inverted) |
| FlexRayLayout.PackRoundTrip | src/app.cpp:474-492 | unpacking the 5 header bytes gives back the flags (5 bits), payload length (7), cycle (6), frame id (11) and CRC (11) |
| FlexRayLayout.FramePacket | src/app.cpp:474-492 | the packet is measurement byte, error byte, the 5 header bytes, then the data |
| FlexRayEncoders.FrameBytes | src/app.cpp:474-523 | reading the built packet gives back every header field and the data |
| FlexRayEncoders.EncodeFlexRayData | src/app.cpp:494-523 | written iff the time format is known; reads back as a frame with the null-frame indicator, no cycle, the message id and CRC, and payload length in words |
| FlexRayEncoders.EncodeFlexRaySync | src/app.cpp:525-557 | as for data frames, plus the sync flag and the record's cycle |
| FlexRayEncoders.EncodeFlexRayCycle | src/app.cpp:559-588 | reads back with no cycle, frame id or CRC |
| FlexRayEncoders.EncodeFlexRayMessage | src/app.cpp:590-617 | the flags come from the frame state; the cycle, frame id and CRC come from the record |
| FlexRayEncoders.EncodeFrError | src/app.cpp:619-646 | reads back with the coding-error flag, the channel bit and the cycle, and no data |
| FlexRayEncoders.EncodeFrStatus | src/app.cpp:648-669 | a 2-byte symbol packet; the length comes from the tag-specific status word and is 0 for other tags |
| FlexRayEncoders.EncodeFrStartCycle | src/app.cpp:671-700 | reads back with the channel bit, the cycle and the data |
| FlexRayEncoders.ReceiveErrorFlags | src/app.cpp:716-719 | the CRC-error flag is set exactly when frame flag bit 6 is set |
| FlexRayEncoders.EncodeFrReceiveMsg | src/app.cpp:702-738 | reads back as the receive view: flags, CRC chosen by channel mask, frame id, cycle and data |
| FlexRayEncoders.EncodeFrReceiveMsgEx | src/app.cpp:740-782 | the same view, for up to 2^16 data bytes |
| FlexRayEncoders.ReceiveEncodersAgree | src/app.cpp:702-782 | for data that fits the buffer, the two receive writers write the same packet |
| FlexRayEncoders.ReceiveHeaderExample | src/app.cpp:702-738 | a frame-id 17, cycle 3 receive record gives the 7 expected bytes |
| LinEncoders.GenerateHeader | src/app.cpp:139-152 | the header has a time exactly when the resolution is non-zero, and it is the resolved time |
| LinEncoders.MessageFrame | src/app.cpp:820-835 | pid = id; the payload length is the data size; the data are zero-padded to 8; the checksum is the CRC's low byte; no error bits |
| LinEncoders.ErrorFrame | src/app.cpp:805-818 | only the error bits are set |
| LinEncoders.ErrorsFor | src/app.cpp:983-1026 | CRC errors map to checksum, slave timeouts to no-slave, and every other LIN error record to framing |
| LinEncoders.WriteLinMessageAsWritten | src/app.cpp:820-835 | as the code is written, an unknown time format divides by zero; otherwise the LIN frame is written |
| LinEncoders.WriteLinErrorAsWritten | src/app.cpp:805-818 | the same division by zero for LIN error records |
| LinEncoders.LinGuardUnreachable | src/app.cpp:146-147 | whenever the resolution is zero, both as-written LIN writers end in the division by zero, so their own zero-resolution guard is never reached |
| LinEncoders.LinDivisionByZeroWitness | src/app.cpp:146-147 | an empty LIN message with an unknown time format reaches the division |
| LinEncoders.WriteLinMessage | src/app.cpp:820-835 | corrected: an unknown time format is skipped; otherwise the LIN frame is written at the resolved time |
| LinEncoders.WriteLinError | src/app.cpp:805-818 | corrected: the same guard for error records |
| LinEncoders.CorrectedAgreesWhenKnown | src/app.cpp:805-835 | the corrected and as-written writers agree except where the original divides by zero |
| LinEncoders.DlcIgnored | src/app.cpp:820-835 | the record's DLC never affects the output |
| Text.Split | src/channels.cpp:14-24 | no piece holds the delimiter; an empty text has no pieces |
| Text.JoinSplit | src/channels.cpp:14-24 | joining the pieces gives the text back, minus one trailing delimiter |
| Text.SplitJoin | src/channels.cpp:14-24 | splitting joined pieces gives them back, provided none holds the delimiter and the last is not empty |
| Text.SplitHasTwoPieces | src/channels.cpp:14-24 | there are at least two pieces iff a delimiter occurs before the last character |
| Text.SplitExamples | src/channels.cpp:14-24 | `getline` edge cases: no piece for "", no empty piece after a trailing delimiter, a leading empty piece kept |
| Text.Stoi | src/channels.cpp:103 | a parsed value always fits in a 32-bit int |
| Text.StoiDecimal | src/channels.cpp:103 | any int written in decimal, followed by non-digits, parses back to itself |
| Text.StoiOutOfRange | src/channels.cpp:103 | a decimal outside the int range is out_of_range |
| Text.StoiNoDigits | src/channels.cpp:103 | blank text, and text whose first non-blank character is neither a digit nor a sign followed by a digit, is invalid_argument |
| Xml.IntAttribute | src/channels.cpp:66 | a missing or non-numeric attribute reads as 0; otherwise as its parsed value |
| Xml.ChildrenNamed | src/channels.cpp:81 | every child with that name is visited, and nothing else; the order is fixed by `ChildrenNamedAppend` and `ChildrenNamedOne` |
| Xml.ChildrenNamedAppend | src/channels.cpp:81 | the loop over two runs of siblings visits the named ones of the first run, then those of the second: document order |
| Xml.ChildrenNamedOne | src/channels.cpp:81 | a single sibling is visited iff it has the name |
| Xml.FirstNamed | src/channels.cpp:77 | the result is absent iff no child has the name; otherwise it is the child with that name that no earlier child shares |
| Xml.FirstNamedStartsLoop | src/channels.cpp:81 | the first child with that name is where the sibling loop starts |
| Channels.BusTypeToLinkLayer | src/channels.cpp:26-35 | exactly the codes 1, 5, 7 and 0x0B are known |
| Channels.BusTypeCodes | src/channels.cpp:26-35 | a code maps to a link layer iff it is that layer's code |
| Channels.BusNameToLinkLayer | src/channels.cpp:37-43 | exactly the four names are known, case-sensitively |
| Channels.BusNames | src/channels.cpp:37-43 | a name maps to a link layer iff it is that layer's name |
| Channels.DbChannelMapping | src/channels.cpp:45-60 | a mapping exists iff a `;` precedes the last character and the bus type is known; it maps channel byte 1 of `reservedAppText1` and the link layer to the second field |
| Channels.DbChannelNamed | src/channels.cpp:45-60 | `<db>;<name>` on a known bus maps to `name` |
| Channels.DbChannelExample | src/channels.cpp:45-60 | `A;eth0` on CAN channel 1 gives exactly one mapping, to `eth0` |
| Channels.DbChannelIgnored | src/channels.cpp:49-53 | a text with no second field, or an unknown bus type, adds nothing |
| Channels.KeyValueRoundTrip | src/channels.cpp:95-97 | `key=value` splits back into its key and value |
| Channels.KeyValueOddCases | src/channels.cpp:95-97 | a property without `=`, or with a trailing one, has its key also as its value |
| Channels.ApplyProperty | src/channels.cpp:94-106 | one property succeeds iff it is non-empty and, for `hwchannel`, parses to an id that fits |
| Channels.ApplyProperties | src/channels.cpp:94-107 | the loop succeeds iff every property does |
| Channels.PropertiesTakeLastValue | src/channels.cpp:94-107 | the port takes its name from its last `name` property and its id from its last `hwchannel` property |
| Channels.PortMapping | src/channels.cpp:86-111 | only `port` elements count; no text is a fault; a mapping is added iff both a name and a hardware channel were given, with id = hw × 100000 + number and name = network::name |
| Channels.PortKeyIsChannelKey | src/channels.cpp:103-105 | a port's id equals the key the packet writer computes for that hardware channel and channel |
| Channels.Collect | src/channels.cpp:81-90 | the walk succeeds iff every element succeeds; when every element adds nothing, the walk adds nothing |
| Channels.CollectAppend | src/channels.cpp:81-90 | walking `a + b` gives `a`'s mappings followed by `b`'s; a fault in `a` ends the walk there, one in `b` after `a` succeeded is `b`'s fault |
| Channels.CollectOne | src/channels.cpp:81-90 | walking one element gives exactly that element's contribution |
| Channels.CollectMiddle | src/channels.cpp:81-90 | when the walk over `before + [x] + after` succeeds, it is `before`'s mappings, then `x`'s, then `after`'s |
| Channels.PortsElistAddsPort | src/channels.cpp:83-88 | every `eli` child of a `ports` elist contributes its port mapping, in document order between those of its siblings |
| Channels.PropertiesAddElist | src/channels.cpp:81-84 | every `elist` child of the properties contributes its mappings, in document order between those of its siblings |
| Channels.ElistMappings | src/channels.cpp:81-84 | an `elist` whose `name` is not `ports` adds nothing |
| Channels.ElistOtherThanPortsIgnored | src/channels.cpp:81-84 | removing a non-`ports` `elist` from anywhere among the properties leaves the resulting mappings and faults unchanged |
| Channels.DirectMappings | src/channels.cpp:65-75 | the channel's own mapping is present iff both type and network are non-empty; it maps the number and the bus link to the network |
| Channels.ConfigureXmlChannel | src/channels.cpp:63-114 | the direct mapping (when there is one) comes first; without `channel_properties` it is all the channel adds; with them, the channel faults exactly when its properties do, and otherwise adds the direct mapping followed by exactly the properties' mappings |
| Channels.PortMappingComplete | src/channels.cpp:92-111 | every port mapping has an id, the channel's link layer and a name under the network |
| Channels.ElistMappingsArePorts | src/channels.cpp:81-111 | everything an `elist` adds is a complete port mapping named `<network>::<name>` |
| Channels.PropertiesMappingsArePorts | src/channels.cpp:81-111 | everything a `channel_properties` element adds is a complete port mapping named `<network>::<name>` |
| Channels.OnePortChannel | src/channels.cpp:63-114 | a channel whose properties hold one `ports` elist with one port adds its direct mapping followed by that port's mapping, and faults when the port does |
| Channels.PortTextSplit | src/channels.cpp:94 | `name=<n>;hwchannel=<v>` splits at `;` into its two properties |
| Channels.PortPropertiesRead | src/channels.cpp:95-106 | the two properties read as the keys `name` and `hwchannel` with the values `<n>` and `<v>` |
| Channels.NamedPortMapping | src/channels.cpp:90-111 | a port named `port` with text `name=<n>;hwchannel=<h>` maps `h * 100000 + number` and the channel's link layer to `<network>::<n>` |
| Channels.EthernetPortExample | src/channels.cpp:63-114 | Ethernet channel 2 on network `N` with port `name=p;hwchannel=3` maps 2 to `N` and then 300002 to `N::p` |
| Channels.ChannelMappingsComplete | src/channels.cpp:63-114 | when the channel element resolves, every mapping it adds has an id, a name and the channel's link layer, and is either the direct mapping or a port mapping under the network |
| Channels.DirectMappingOnlyWhenNamed | src/channels.cpp:69-75 | the channel's own number is mapped iff both type and network are non-empty |
| Channels.ChannelsInDocumentOrder | src/channels.cpp:140-143 | the mappings of earlier `channel` children come before those of later ones; the first fault ends the walk |
| Channels.ChannelsOneChild | src/channels.cpp:140-143 | a lone `channel` child adds what `configure_xml_channel` gives for it; a child with another name adds nothing |
| Channels.DocumentMappings | src/channels.cpp:131-143 | text that does not parse, or has no `channels` root, adds nothing; otherwise the first `channels` root's channels are resolved |
| Channels.ConfigureXmlChannels | src/channels.cpp:116-144 | the fragment is appended to its block's text; only the last fragment resolves, and then over the whole collected text |
| Channels.ConfigureChannels | src/channels.cpp:146-153 | database records add their mapping; metadata goes to the accumulator; other texts change nothing |
| Channels.ConfigureChannelsAppends | src/channels.cpp:116-153 | mappings are only appended; no block's text is lost or shortened; other blocks are unchanged |
| Channels.TwoFragments | src/channels.cpp:116-144 | in a fresh block, the first fragment adds nothing and the second resolves the two texts joined |
| Channels.StaleBlockContinues | src/channels.cpp:121-125 | a completed block with a reused id resolves the old text followed by the new one |
| Channels.DbChannelTwice | src/channels.cpp:45-60 | the same inline record fed twice adds its mapping twice |
| Dispatch.Encode | src/app.cpp:889-1034 | each bus record goes to its bus's writer: a frame is written iff the time format is known, on that bus's link layer, at the record's resolved time, and it reads back (`Carries`) as that record's content: the decoded CAN fields and direction, the fixed error frame for the three CAN error records, the parsed Ethernet frame or the Ex data and checksum on `ChannelKey(hw, channel)`, the FlexRay frame view, or the LIN frame `MessageFrame(m)` / `ErrorFrame(ErrorsFor(kind))`; FLEXRAY_STATUS, APP_TEXT and unknown types write nothing |
| Dispatch.Step | src/app.cpp:889-1034 | bus records never change the resolver and add at most one frame; APP_TEXT changes only the resolver and faults exactly when it does |
| Dispatch.RunFrom | src/app.cpp:874-1038 | the run only appends frames and mappings, at most one frame per record |
| Dispatch.StopsAtReadFailure | src/app.cpp:874-886 | nothing after a failed read is processed |
| Dispatch.SkippedRecordsWriteNothing | src/app.cpp:889-1034 | records of unknown time format, and records the loop does not convert, leave the state unchanged |
| Dispatch.Convert | src/app.cpp:874-1038 | the loop computes the run's result and writes no more frames than records read |
| Dispatch.LinUnknownFormatSkipped | src/app.cpp:975-977 | a LIN message of unknown time format divides by zero in the writer as written, while the loop step skips it and leaves the state unchanged |
| Dispatch.InlineMappingThenMessage | src/app.cpp:874-1038 | an inline `A;can0` record for CAN channel 1, then a CAN message at tick 0, gives one mapping and one CAN frame on channel 1 at the start date that decodes to the message's identifier, RTR bit, length and data |

## Left out

- File and argument handling in `main` (argument parsing, opening files, closing them). The exporter's own writing of PCAPNG blocks and interface descriptions is also left out. The model stops at the `Written` frame handed to the exporter.
- Interface naming and lookup in the exporter: how a mapping is applied to a packet lives in the exporter library, which is not part of this model. The resolver's output is the mapping list.
- Standard-output logging in `write_packet`, and the messages printed to stderr: they do not affect the output.
- The BLF reader: a read is a decoded record or a failure (`ReadFailure` covers end of data and the caught exception alike). Record field widths beyond those the writers read are not modelled.
- XML parsing: a parser is a table from text to document. Text that is not in the table does not parse. tinyxml2's own parsing rules are not modelled.
- Xml.IntAttribute: uses the `std::stoi` rules. tinyxml2 also accepts hexadecimal, and its out-of-range behaviour differs; neither is modelled.
- `mktime` and the local time zone: `calculate_startdate` takes the epoch seconds that `mktime` returns as an input (`Timestamps.StartDateNs`).
- Memory-safety preconditions instead of undefined behaviour:
  - CAN writers: a record's data must fit the 64-byte area, and the `size()` read must stay in the 72-byte buffer.
  - FlexRay frames: data of at most 254 bytes.
  - FR_STARTCYCLE: at most 12 bytes.
  - FR_STATUS: two status words.
  - LIN: at most 8 data bytes.
- FR_RCVMESSAGE_EX: the record's data count is 16 bits wide, so its data is shorter than 2^16 bytes. This is a record-format assumption; the writer builds the frame in a growable vector and has no buffer to overflow.
- Host byte order: the model assumes a little-endian host for the Ethernet checksum.
- Channels.ApplyProperty: `std::string(nullptr)` and `front()` of an empty vector are undefined behaviour in the original. They are modelled as faults (`NullPortText`, `EmptyPortProperty`), like the `std::stoi` exceptions and the `int` overflow of the combined id. Each fault ends the run.
- Dispatch.Encode: LIN records go to the corrected writers (`LinEncoders.WriteLinMessage`, `LinEncoders.WriteLinError`), so a LIN record of unknown time format is skipped. The program divides by zero on it instead (see "## Findings" and `Dispatch.LinUnknownFormatSkipped`).
- Dispatch.Step: the same LIN record leaves the state unchanged, where the program would stop.
- Dispatch.RunFrom: the run carries on past such a LIN record; the program does not.
- Dispatch.SkippedRecordsWriteNothing: counts such a LIN record as skipped, for the same reason.
- Dispatch.Convert: computes `RunFrom`, so it carries the same corrected LIN routing.
- Timestamps.StartDateNs: requires `(t * 1000 + ms) * 10^6` to fit in `int64`. The signed `time_t` overflow for dates past the year 2262 is undefined behaviour and is not modelled.
- LinEncoders.MessageFrame: takes the low byte of the record's CRC as the frame checksum. This assumes `lin_frame::checksum` is 8 bits wide; the type is declared in the exporter's header, which is not part of this model.
- Channels.PortMapping: reads `mapping.when.chl_id` as a `std::optional`, so `if (mapping.change.inf_name && mapping.when.chl_id)` tests presence. The declaration is in the exporter's header, which is not part of this model. If it were a plain integer, a port with hardware channel 0 on channel number 0 would add nothing.
- The `write_lin_*` and `write_packet` return codes are never read by `main`, so they appear only as the `Written` variants.

## Findings

| source | as written | input that shows it | evidently intended | confidence | as-written member | corrected member |
|---|---|---|---|---|---|---|
| src/app.cpp:146-147, 813, 827 | `generate_header` divides `NANOS_PER_SEC` by the resolution before `write_lin_error` / `write_lin_message` test that resolution for 0, so the guard can never fire | a LIN message whose object flags are neither 10 µs nor 1 ns (resolution 0) | skip the record, as `write_packet` does for every other bus | high; not executed | LinEncoders.WriteLinMessageAsWritten | LinEncoders.WriteLinMessage |

=== FILE: bits.dfy ===
/** Fixed-width integer ranges and single-bit tests shared by the codecs. */
module Bits {

  type byte = bv8

  const TWO_16: int := 0x1_0000
  const TWO_24: int := 0x100_0000
  const TWO_31: int := 0x8000_0000
  const TWO_32: int := 0x1_0000_0000
  const TWO_63: int := 0x8000_0000_0000_0000
  const TWO_64: int := 0x1_0000_0000_0000_0000

  type u8 = x: int | 0 <= x < 256
  type u16 = x: int | 0 <= x < TWO_16
  type u32 = x: int | 0 <= x < TWO_32
  type u64 = x: int | 0 <= x < TWO_64

  /** The `HAS_FLAG(var, pos)` test: bit `pos` of `v` is set. */
  predicate HasFlag(v: bv32, pos: nat)
    requires pos < 32
  {
    (v & (1 << pos)) != 0
  }

  /** The low eight bits of a 32-bit value, as a byte. */
  function Lo8(x: bv32): byte
  {
    (x & 0xFF) as byte
  }

  /** The low eight bits of a 64-bit value, as a byte. */
  function Lo8Of64(x: bv64): byte
  {
    (x & 0xFF) as byte
  }
}

=== FILE: blf.dfy ===
/**
 * The decoded records of the vehicle-bus log, as the reader hands them to
 * the dispatch loop. Only the fields the converter reads are kept. Narrow
 * integer flag fields are zero-extended to 32 bits; byte arrays are
 * sequences whose fixed sizes appear as well-formedness conditions.
 */
module Blf {
  import opened Bits
  import opened Timestamps

  /** `channel`, `objectFlags` and `objectTimeStamp` of the object header. */
  datatype ObjectHeader = ObjectHeader(channel: u16, objectFlags: ObjectFlags, objectTimeStamp: u64)

  /** CAN_MESSAGE and CAN_MESSAGE2. */
  datatype CanMessage = CanMessage(header: ObjectHeader, id: bv32, flags: bv32, dlc: byte, data: seq<byte>)

  /** CAN_FD_MESSAGE. */
  datatype CanFdMessage = CanFdMessage(header: ObjectHeader, id: bv32, flags: bv32, canFdFlags: bv32,
                                       validDataBytes: byte, data: seq<byte>)

  /** CAN_FD_MESSAGE_64. */
  datatype CanFdMessage64 = CanFdMessage64(header: ObjectHeader, id: bv32, flags: bv32,
                                           validDataBytes: byte, data: seq<byte>)

  /** A six-byte hardware address. */
  type MacAddress = s: seq<byte> | |s| == 6 witness [0, 0, 0, 0, 0, 0]

  /** ETHERNET_FRAME. */
  datatype EthernetFrame = EthernetFrame(header: ObjectHeader, sourceAddress: MacAddress,
                                         destinationAddress: MacAddress, dir: u16, ethType: bv16,
                                         tpid: bv16, tci: bv16, payLoad: seq<byte>)

  /** ETHERNET_FRAME_EX and ETHERNET_FRAME_FORWARDED. */
  datatype EthernetFrameEx = EthernetFrameEx(header: ObjectHeader, hardwareChannel: u16, dir: u16,
                                             flags: bv32, frameData: seq<byte>, frameChecksum: bv32)

  /** FLEXRAY_DATA. */
  datatype FlexRayData = FlexRayData(header: ObjectHeader, messageId: bv16, crc: bv16, dataBytes: seq<byte>)

  /** FLEXRAY_SYNC. */
  datatype FlexRaySync = FlexRaySync(header: ObjectHeader, messageId: bv16, crc: bv16, cycle: byte,
                                     dataBytes: seq<byte>)

  /** FLEXRAY_CYCLE. */
  datatype FlexRayV6StartCycleEvent = FlexRayV6StartCycleEvent(header: ObjectHeader, dataBytes: seq<byte>)

  /** FLEXRAY_MESSAGE. */
  datatype FlexRayV6Message = FlexRayV6Message(header: ObjectHeader, frameState: bv16, frameId: bv16,
                                               headerCrc: bv16, cycle: byte, dataBytes: seq<byte>)

  /** FR_ERROR. */
  datatype FlexRayVFrError = FlexRayVFrError(header: ObjectHeader, channelMask: bv16, cycle: byte)

  /** FR_STATUS: `tag` names the interface family that filled `data`. */
  datatype FlexRayVFrStatus = FlexRayVFrStatus(header: ObjectHeader, channelMask: bv16, tag: nat, data: seq<bv32>)

  /** FR_STARTCYCLE. */
  datatype FlexRayVFrStartCycle = FlexRayVFrStartCycle(header: ObjectHeader, channelMask: bv16, cycle: byte,
                                                       dataBytes: seq<byte>)

  /** FR_RCVMESSAGE and FR_RCVMESSAGE_EX. */
  datatype FlexRayVFrReceiveMsg = FlexRayVFrReceiveMsg(header: ObjectHeader, channelMask: bv16, frameFlags: bv32,
                                                       headerCrc1: bv16, headerCrc2: bv16, frameId: bv16,
                                                       cycle: byte, dataBytes: seq<byte>)

  /** LIN_MESSAGE and LIN_MESSAGE2. `dlc` is carried but never read. */
  datatype LinMessage = LinMessage(header: ObjectHeader, id: byte, dlc: byte, data: seq<byte>, crc: u16)

  /** The LIN error records; each selects one `LIN_ERROR_*` bit. */
  datatype LinErrorKind =
    | LinCrcError | LinCrcError2 | LinReceiveError | LinReceiveError2 | LinSlaveTimeout
    | LinSendError | LinSendError2 | LinSyncError | LinSyncError2

  /** `AppText::Source`. */
  datatype AppTextSource = MeasurementComment | DbChannelInfo | MetaData | OtherSource

  /** APP_TEXT: metadata for the channel resolver. */
  datatype AppText = AppText(source: AppTextSource, reservedAppText1: u32, textLength: u32, text: string)

  /** One decoded record, discriminated by its object type. */
  datatype BlfObject =
    | CanMessageObject(canMessage: CanMessage)                  // CAN_MESSAGE
    | CanMessage2Object(canMessage: CanMessage)                 // CAN_MESSAGE2
    | CanErrorObject(errorHeader: ObjectHeader)                 // CAN_ERROR
    | CanErrorExtObject(errorHeader: ObjectHeader)              // CAN_ERROR_EXT
    | CanFdMessageObject(canFd: CanFdMessage)                   // CAN_FD_MESSAGE
    | CanFdMessage64Object(canFd64: CanFdMessage64)             // CAN_FD_MESSAGE_64
    | CanFdError64Object(errorHeader: ObjectHeader)             // CAN_FD_ERROR_64
    | EthernetFrameObject(ethernet: EthernetFrame)              // ETHERNET_FRAME
    | EthernetFrameExObject(ethernetEx: EthernetFrameEx)        // ETHERNET_FRAME_EX
    | EthernetFrameForwardedObject(ethernetEx: EthernetFrameEx) // ETHERNET_FRAME_FORWARDED
    | FlexRayDataObject(frData: FlexRayData)                    // FLEXRAY_DATA
    | FlexRaySyncObject(frSync: FlexRaySync)                    // FLEXRAY_SYNC
    | FlexRayCycleObject(frCycle: FlexRayV6StartCycleEvent)     // FLEXRAY_CYCLE
    | FlexRayMessageObject(frMessage: FlexRayV6Message)         // FLEXRAY_MESSAGE
    | FlexRayStatusObject(statusHeader: ObjectHeader)           // FLEXRAY_STATUS
    | FrErrorObject(frError: FlexRayVFrError)                   // FR_ERROR
    | FrStatusObject(frStatus: FlexRayVFrStatus)                // FR_STATUS
    | FrStartCycleObject(frStartCycle: FlexRayVFrStartCycle)    // FR_STARTCYCLE
    | FrRcvMessageObject(frReceive: FlexRayVFrReceiveMsg)       // FR_RCVMESSAGE
    | FrRcvMessageExObject(frReceive: FlexRayVFrReceiveMsg)     // FR_RCVMESSAGE_EX
    | AppTextObject(appText: AppText)                           // APP_TEXT
    | LinMessageObject(linMessage: LinMessage)                  // LIN_MESSAGE
    | LinMessage2Object(linMessage: LinMessage)                 // LIN_MESSAGE2
    | LinErrorObject(linErrorKind: LinErrorKind, linHeader: ObjectHeader)
    | OtherObject(objectType: nat)                              // any other object type
}

=== FILE: can_encoders.dfy ===
/**
 * The CAN `write` overloads (src/app.cpp:209-303): each fills a fresh
 * 72-byte `CanFrame` through its setters and hands `size()` bytes of it to
 * the writer under the CAN link type.
 */
module CanEncoders {
  import opened Wrappers
  import opened Bits
  import opened Timestamps
  import opened Frames
  import opened Blf
  import CanFrame

  /**
   * The source copies the record's data into the 64-byte data area and
   * later reads `size()` bytes of the 72-byte buffer; both must stay in
   * bounds. `size()` is `(len + 8) mod 256`.
   */
  predicate FrameFits(len: byte, data: seq<byte>)
  {
    |data| <= CanFrame.MAX_DATA && (len as int + CanFrame.HEADER_SIZE) % 256 <= CanFrame.RAW_SIZE
  }

  /** The first `len` bytes of a data area that received `data` and was zero elsewhere. */
  function DataArea(data: seq<byte>, len: nat): seq<byte>
    requires |data| <= CanFrame.MAX_DATA && len <= CanFrame.MAX_DATA
  {
    (data + seq(CanFrame.MAX_DATA - |data|, _ => 0))[..len]
  }

  /** `HAS_FLAG(flags, 0) ? DIR_OUT : DIR_IN`, the classic and FD CAN direction. */
  function CanDirection(flags: bv32): (d: nat)
    ensures d == DIR_OUT <==> HasFlag(flags, 0)
    ensures d == DIR_IN <==> !HasFlag(flags, 0)
  {
    if HasFlag(flags, 0) then DIR_OUT else DIR_IN
  }

  /** Copying data into a frame whose data area is still zero leaves `data` then zeros there. */
  lemma DataAreaAfterCopy(f: CanFrame.Raw, data: seq<byte>, len: nat)
    requires f[CanFrame.HEADER_SIZE..] == seq(CanFrame.MAX_DATA, _ => 0)
    requires |data| <= CanFrame.MAX_DATA
    ensures len <= CanFrame.MAX_DATA ==>
              CanFrame.SetData(f, data)[CanFrame.HEADER_SIZE..CanFrame.HEADER_SIZE + len] == DataArea(data, len)
  {
    var g := CanFrame.SetData(f, data);
    assert g[CanFrame.HEADER_SIZE..] == data + seq(CanFrame.MAX_DATA - |data|, _ => 0);
  }

  /**
   * The header the CAN encoders set up: `id`, then the flag setters, then
   * `len`, on a zeroed buffer. The identifier's top three bits land in
   * EXT/RTR/ERR before RTR is overwritten.
   */
  function HeaderFrame(id: bv32, rtr: bool, esi: bool, brs: bool, len: byte): (f: CanFrame.Raw)
    ensures HeaderReports(f, id, rtr, esi, brs, len)
    ensures f[CanFrame.HEADER_SIZE..] == seq(CanFrame.MAX_DATA, _ => 0)
  {
    var z := CanFrame.Zero();
    assert z[0] == 0;
    assert !CanFrame.Ext(z) && !CanFrame.Err(z);
    var f1 := CanFrame.SetId(z, id);
    assert CanFrame.Ext(f1) == ((id & 0x8000_0000) != 0) && CanFrame.Err(f1) == ((id & 0x2000_0000) != 0);
    var f2 := CanFrame.SetRtr(f1, rtr);
    var f3 := CanFrame.SetEsi(f2, esi);
    var f4 := CanFrame.SetBrs(f3, brs);
    var f5 := CanFrame.SetLen(f4, len);
    assert CanFrame.Id(f5) == (id & CanFrame.ID_MASK);
    assert CanFrame.Ext(f5) == ((id & 0x8000_0000) != 0) && CanFrame.Err(f5) == ((id & 0x2000_0000) != 0);
    assert CanFrame.Rtr(f5) == rtr && CanFrame.Esi(f5) == esi && CanFrame.Brs(f5) == brs;
    assert f5[CanFrame.HEADER_SIZE..] == z[CanFrame.HEADER_SIZE..];
    assert z[CanFrame.HEADER_SIZE..] == seq(CanFrame.MAX_DATA, _ => 0);
    f5
  }

  /**
   * What the header accessors of frame `f` report after the encoders'
   * setter calls: the identifier and its top flag bits, RTR/ESI/BRS as
   * given, and the length.
   */
  predicate HeaderReports(f: CanFrame.Raw, id: bv32, rtr: bool, esi: bool, brs: bool, len: byte)
  {
    && CanFrame.Id(f) == (id & CanFrame.ID_MASK)
    && CanFrame.Ext(f) == ((id & 0x8000_0000) != 0)
    && CanFrame.Rtr(f) == rtr
    && CanFrame.Err(f) == ((id & 0x2000_0000) != 0)
    && CanFrame.Esi(f) == esi && CanFrame.Brs(f) == brs
    && CanFrame.Len(f) == len
  }

  /** The header accessors read only the first eight bytes. */
  lemma HeaderKept(h: CanFrame.Raw, f: CanFrame.Raw, id: bv32, rtr: bool, esi: bool, brs: bool, len: byte)
    requires f[..CanFrame.HEADER_SIZE] == h[..CanFrame.HEADER_SIZE]
    requires HeaderReports(h, id, rtr, esi, brs, len)
    ensures HeaderReports(f, id, rtr, esi, brs, len)
  {
    assert f[0] == h[0] && f[1] == h[1] && f[2] == h[2] && f[3] == h[3] && f[4] == h[4] && f[5] == h[5];
  }

  /** `HeaderReports`, and the data area holding `data` then zeros. */
  predicate Reports(f: CanFrame.Raw, id: bv32, rtr: bool, esi: bool, brs: bool, len: byte, data: seq<byte>)
    requires |data| <= CanFrame.MAX_DATA
  {
    && HeaderReports(f, id, rtr, esi, brs, len)
    && (len as int <= CanFrame.MAX_DATA ==>
          f[CanFrame.HEADER_SIZE..CanFrame.HEADER_SIZE + len as int] == DataArea(data, len as int))
  }

  /** The frame the CAN encoders build: the header, then `data` copied into the data area. */
  function BuildFrame(id: bv32, rtr: bool, esi: bool, brs: bool, len: byte, data: seq<byte>): (f: CanFrame.Raw)
    requires |data| <= CanFrame.MAX_DATA
    ensures Reports(f, id, rtr, esi, brs, len, data)
  {
    var h := HeaderFrame(id, rtr, esi, brs, len);
    DataAreaAfterCopy(h, data, len as int);
    var f := CanFrame.SetData(h, data);
    HeaderKept(h, f, id, rtr, esi, brs, len);
    f
  }

  /** What a reader of the written frame sees. */
  function Expected(id: bv32, rtr: bool, esi: bool, brs: bool, len: byte, data: seq<byte>): CanFrame.Fields
    requires |data| <= CanFrame.MAX_DATA && len as int <= CanFrame.MAX_DATA
  {
    CanFrame.Fields(id & CanFrame.ID_MASK, (id & 0x8000_0000) != 0, rtr, (id & 0x2000_0000) != 0,
                    brs, esi, len, DataArea(data, len as int))
  }

  /** A frame whose accessors report these values reads back as `Expected`. */
  lemma ReadBackExpected(f: CanFrame.Raw, id: bv32, rtr: bool, esi: bool, brs: bool, len: byte, data: seq<byte>)
    requires FrameFits(len, data) && Reports(f, id, rtr, esi, brs, len, data)
    ensures CanFrame.SizeInBounds(f)
    ensures len as int <= CanFrame.MAX_DATA ==>
              CanFrame.Decode(CanFrame.Bytes(f)) == Some(Expected(id, rtr, esi, brs, len, data))
  {
    if len as int <= CanFrame.MAX_DATA {
      CanFrame.DecodeBytes(f);
    }
  }

  /**
   * The packet a CAN encoder writes for record header `h`: the CAN link
   * type, the record's channel, the resolved timestamp, the given direction
   * and `size()` bytes of payload.
   */
  predicate IsCanPacket(p: Frame, h: ObjectHeader, dateNs: u64, direction: nat, len: byte)
  {
    CanPacketOf(p, h, dateNs, direction) && |p.payload| == (len as int + CanFrame.HEADER_SIZE) % 256
  }

  /** A CAN packet stamped with the record header's channel and resolved time. */
  predicate CanPacketOf(p: Frame, h: ObjectHeader, dateNs: u64, direction: nat)
  {
    h.objectFlags != OtherFlags
    && p.Packet? && p.link == LinkCan && p.channelKey == h.channel
    && p.ts == Resolve(h.objectFlags, h.objectTimeStamp, dateNs).value
    && p.flags == direction
  }

  /** Writes `payload` as one CAN packet for record header `h`. */
  function EmitCan(h: ObjectHeader, direction: nat, dateNs: u64, payload: seq<byte>): (w: Written)
    ensures w.UnknownResolution? <==> h.objectFlags == OtherFlags
    ensures !w.DivisionByZero?
    ensures w.Written? ==> CanPacketOf(w.frame, h, dateNs, direction) && w.frame.payload == payload
  {
    EmitPacket(LinkCan, h.channel, h.objectFlags, h.objectTimeStamp, dateNs, direction, payload)
  }

  /** Builds a frame and writes `size()` bytes of it as one CAN packet. */
  function EncodeFrame(h: ObjectHeader, id: bv32, rtr: bool, esi: bool, brs: bool, len: byte, data: seq<byte>,
                       direction: nat, dateNs: u64): (w: Written)
    requires FrameFits(len, data)
    ensures w.UnknownResolution? <==> h.objectFlags == OtherFlags
    ensures !w.DivisionByZero?
    ensures w.Written? ==> IsCanPacket(w.frame, h, dateNs, direction, len)
    ensures w.Written? && len as int <= CanFrame.MAX_DATA ==>
              CanFrame.Decode(w.frame.payload) == Some(Expected(id, rtr, esi, brs, len, data))
  {
    var f := BuildFrame(id, rtr, esi, brs, len, data);
    ReadBackExpected(f, id, rtr, esi, brs, len, data);
    EmitCan(h, direction, dateNs, CanFrame.Bytes(f))
  }

  /**
   * CAN_MESSAGE and CAN_MESSAGE2 (the two overloads are identical): RTR
   * from flag bit 7, direction from flag bit 0; the frame reads back with
   * the record's identifier, length and data.
   */
  function EncodeCanMessage(m: CanMessage, dateNs: u64): (w: Written)
    requires FrameFits(m.dlc, m.data)
    ensures w.UnknownResolution? <==> m.header.objectFlags == OtherFlags
    ensures !w.DivisionByZero?
    ensures w.Written? ==> IsCanPacket(w.frame, m.header, dateNs, CanDirection(m.flags), m.dlc)
    ensures w.Written? && m.dlc as int <= CanFrame.MAX_DATA ==>
              CanFrame.Decode(w.frame.payload) == Some(Expected(m.id, HasFlag(m.flags, 7), false, false, m.dlc, m.data))
  {
    EncodeFrame(m.header, m.id, HasFlag(m.flags, 7), false, false, m.dlc, m.data, CanDirection(m.flags), dateNs)
  }

  /**
   * CAN_FD_MESSAGE: RTR from flag bit 7, ESI from FD flag bit 2, BRS from
   * FD flag bit 1, length from `validDataBytes`, direction from flag bit 0.
   */
  function EncodeCanFdMessage(m: CanFdMessage, dateNs: u64): (w: Written)
    requires FrameFits(m.validDataBytes, m.data)
    ensures w.UnknownResolution? <==> m.header.objectFlags == OtherFlags
    ensures !w.DivisionByZero?
    ensures w.Written? ==> IsCanPacket(w.frame, m.header, dateNs, CanDirection(m.flags), m.validDataBytes)
    ensures w.Written? && m.validDataBytes as int <= CanFrame.MAX_DATA ==>
              CanFrame.Decode(w.frame.payload)
              == Some(Expected(m.id, HasFlag(m.flags, 7), HasFlag(m.canFdFlags, 2), HasFlag(m.canFdFlags, 1),
                               m.validDataBytes, m.data))
  {
    EncodeFrame(m.header, m.id, HasFlag(m.flags, 7), HasFlag(m.canFdFlags, 2), HasFlag(m.canFdFlags, 1),
                m.validDataBytes, m.data, CanDirection(m.flags), dateNs)
  }

  /** The direction CAN_FD_MESSAGE_64 computes from flag bits 6 and 7. */
  function CanFd64Direction(flags: bv32): nat
  {
    if HasFlag(flags, 6) || HasFlag(flags, 7) then DIR_OUT else DIR_IN
  }

  /**
   * CAN_FD_MESSAGE_64: RTR from flag bit 4, ESI from bit 14, BRS from bit
   * 13. The computed direction is not passed on: the packet carries
   * direction flags 0.
   */
  function EncodeCanFdMessage64(m: CanFdMessage64, dateNs: u64): (w: Written)
    requires FrameFits(m.validDataBytes, m.data)
    ensures w.UnknownResolution? <==> m.header.objectFlags == OtherFlags
    ensures !w.DivisionByZero?
    ensures w.Written? ==> IsCanPacket(w.frame, m.header, dateNs, 0, m.validDataBytes)
    ensures w.Written? && m.validDataBytes as int <= CanFrame.MAX_DATA ==>
              CanFrame.Decode(w.frame.payload)
              == Some(Expected(m.id, HasFlag(m.flags, 4), HasFlag(m.flags, 14), HasFlag(m.flags, 13),
                               m.validDataBytes, m.data))
  {
    var unused := CanFd64Direction(m.flags);
    EncodeFrame(m.header, m.id, HasFlag(m.flags, 4), HasFlag(m.flags, 14), HasFlag(m.flags, 13),
                m.validDataBytes, m.data, 0, dateNs)
  }

  /** A transmitted CAN_FD_MESSAGE_64 is still written with unknown direction. */
  lemma CanFd64DirectionDropped(m: CanFdMessage64, dateNs: u64)
    requires FrameFits(m.validDataBytes, m.data)
    requires HasFlag(m.flags, 6) && m.header.objectFlags != OtherFlags
    ensures CanFd64Direction(m.flags) == DIR_OUT
    ensures EncodeCanFdMessage64(m, dateNs).Written?
    ensures EncodeCanFdMessage64(m, dateNs).frame.flags != CanFd64Direction(m.flags)
  {
  }

  /**
   * `write_can_error` for CAN_ERROR, CAN_ERROR_EXT and CAN_FD_ERROR_64: a
   * 16-byte frame with only ERR and length 8 set, direction flags 0.
   */
  function EncodeCanError(h: ObjectHeader, dateNs: u64): (w: Written)
    ensures w.UnknownResolution? <==> h.objectFlags == OtherFlags
    ensures !w.DivisionByZero?
    ensures w.Written? ==> w.frame.Packet? && w.frame.link == LinkCan && w.frame.channelKey == h.channel
    ensures w.Written? ==> w.frame.ts == Resolve(h.objectFlags, h.objectTimeStamp, dateNs).value
    ensures w.Written? ==> w.frame.flags == 0
    ensures w.Written? ==> w.frame.payload == [0x20, 0, 0, 0, 8] + seq(11, _ => 0)
    ensures w.Written? ==> CanFrame.Decode(w.frame.payload)
                           == Some(CanFrame.Fields(0, false, false, true, false, false, 8, seq(8, _ => 0)))
  {
    var f := CanFrame.ErrorFrame();
    CanFrame.DecodeBytes(f);
    assert f[CanFrame.HEADER_SIZE..16] == seq(8, _ => 0);
    assert CanFrame.Bytes(f) == [0x20, 0, 0, 0, 8] + seq(11, _ => 0);
    EmitCan(h, 0, dateNs, CanFrame.Bytes(f))
  }

  /**
   * The classic round trip: a CAN_MESSAGE with identifier 0x123, length 8,
   * zero data and RTR clear reads back as identifier 0x123, length 8, RTR
   * clear.
   */
  lemma ClassicRoundTrip(h: ObjectHeader, dateNs: u64)
    requires h.objectFlags != OtherFlags
    ensures var w := EncodeCanMessage(CanMessage(h, 0x123, 0, 8, seq(8, _ => 0)), dateNs);
            w.Written? && CanFrame.Decode(w.frame.payload).Some?
            && CanFrame.Decode(w.frame.payload).value.id == 0x123
            && CanFrame.Decode(w.frame.payload).value.len == 8
            && !CanFrame.Decode(w.frame.payload).value.rtr
  {
    var m := CanMessage(h, 0x123, 0, 8, seq(8, _ => 0));
    assert !HasFlag(m.flags, 7);
    assert (m.id & CanFrame.ID_MASK) == 0x123;
  }
}

=== FILE: can_frame.dfy ===
/**
 * The 72-byte SocketCAN-style buffer behind the `CanFrame` class
 * (src/app.cpp:42-119): an 8-byte header followed by up to 64 data bytes.
 * Byte 0-3 hold the 29-bit identifier in network byte order with the
 * EXT/RTR/ERR flags in the top three bits of byte 0, byte 4 holds the raw
 * data length and byte 5 holds the BRS (bit 0) and ESI (bit 1) flags.
 * Every accessor is a pure function from buffer to buffer.
 */
module CanFrame {
  import opened Wrappers
  import opened Bits

  const RAW_SIZE := 72
  const HEADER_SIZE := 8
  const MAX_DATA := 64
  const ID_MASK: bv32 := 0x1FFF_FFFF

  /** The buffer always has exactly 72 bytes. */
  type Raw = s: seq<byte> | |s| == 72 witness seq(72, _ => 0 as byte)

  /** A freshly constructed frame: `uint8_t raw[72] = { 0 }`. */
  function Zero(): (f: Raw)
    ensures forall i :: 0 <= i < |f| ==> f[i] == 0
  {
    seq(RAW_SIZE, _ => 0)
  }

  /** Four bytes read as a big-endian 32-bit word. */
  function Word(b0: byte, b1: byte, b2: byte, b3: byte): bv32
  {
    ((b0 as bv32) << 24) | ((b1 as bv32) << 16) | ((b2 as bv32) << 8) | (b3 as bv32)
  }

  /** Bytes 0-3 read as a big-endian 32-bit word. */
  function Be32(f: Raw): bv32
  {
    Word(f[0], f[1], f[2], f[3])
  }

  /** The first byte `id(value)` stores: the value's top byte with the old flag bits OR'd in. */
  function IdByte0(v: bv32, old0: byte): byte
  {
    Lo8(v >> 24) | (old0 & 0xE0)
  }

  /** Whatever the old flag bits were, the identifier reads back as written. */
  lemma IdWordRoundTrip(v: bv32, old0: byte)
    ensures (Word(IdByte0(v, old0), Lo8(v >> 16), Lo8(v >> 8), Lo8(v)) & ID_MASK) == (v & ID_MASK)
  {
  }

  /** The flag bits of the stored first byte: old flags OR the value's top three bits. */
  lemma IdByte0Flags(v: bv32, old0: byte)
    ensures (IdByte0(v, old0) & 0xE0) == ((old0 & 0xE0) | (Lo8(v >> 24) & 0xE0))
    ensures ((IdByte0(v, old0) & 0x80) != 0) == ((old0 & 0x80) != 0 || (v & 0x8000_0000) != 0)
    ensures ((IdByte0(v, old0) & 0x40) != 0) == ((old0 & 0x40) != 0 || (v & 0x4000_0000) != 0)
    ensures ((IdByte0(v, old0) & 0x20) != 0) == ((old0 & 0x20) != 0 || (v & 0x2000_0000) != 0)
  {
  }

  /** `id()`: the 29-bit identifier without the flag bits. */
  function Id(f: Raw): bv32
  {
    Be32(f) & ID_MASK
  }

  /**
   * `id(value)`: writes `value` big-endian into bytes 0-3 and ORs the
   * previous flag bits back into byte 0. The top three bits of `value`
   * therefore end up OR'd into the flags as well.
   */
  function SetId(f: Raw, v: bv32): (g: Raw)
    ensures Id(g) == (v & ID_MASK)
    ensures (g[0] & 0xE0) == ((f[0] & 0xE0) | (Lo8(v >> 24) & 0xE0))
    ensures Ext(g) == (Ext(f) || (v & 0x8000_0000) != 0)
    ensures Rtr(g) == (Rtr(f) || (v & 0x4000_0000) != 0)
    ensures Err(g) == (Err(f) || (v & 0x2000_0000) != 0)
    ensures g[4..] == f[4..]
  {
    IdWordRoundTrip(v, f[0]);
    IdByte0Flags(v, f[0]);
    var g: Raw := [IdByte0(v, f[0]), Lo8(v >> 16), Lo8(v >> 8), Lo8(v)] + f[4..];
    assert g[0] == IdByte0(v, f[0]) && g[1] == Lo8(v >> 16) && g[2] == Lo8(v >> 8) && g[3] == Lo8(v);
    g
  }

  predicate Ext(f: Raw) { (f[0] & 0x80) != 0 }
  predicate Rtr(f: Raw) { (f[0] & 0x40) != 0 }
  predicate Err(f: Raw) { (f[0] & 0x20) != 0 }
  predicate Brs(f: Raw) { (f[5] & 0x01) != 0 }
  predicate Esi(f: Raw) { (f[5] & 0x02) != 0 }

  /** `ext(value)`: only bit 7 of byte 0 changes. */
  function SetExt(f: Raw, value: bool): (g: Raw)
    ensures Ext(g) == value
    ensures (g[0] & 0x7F) == (f[0] & 0x7F) && g[1..] == f[1..]
    ensures Id(g) == Id(f) && Rtr(g) == Rtr(f) && Err(g) == Err(f)
    ensures Brs(g) == Brs(f) && Esi(g) == Esi(f) && Len(g) == Len(f)
  {
    f[0 := (f[0] & 0x7F) | (if value then 0x80 else 0)]
  }

  /** `rtr(value)`: only bit 6 of byte 0 changes. */
  function SetRtr(f: Raw, value: bool): (g: Raw)
    ensures Rtr(g) == value
    ensures (g[0] & 0xBF) == (f[0] & 0xBF) && g[1..] == f[1..]
    ensures Id(g) == Id(f) && Ext(g) == Ext(f) && Err(g) == Err(f)
    ensures Brs(g) == Brs(f) && Esi(g) == Esi(f) && Len(g) == Len(f)
  {
    f[0 := (f[0] & 0xBF) | (if value then 0x40 else 0)]
  }

  /** `err(value)`: only bit 5 of byte 0 changes. */
  function SetErr(f: Raw, value: bool): (g: Raw)
    ensures Err(g) == value
    ensures (g[0] & 0xDF) == (f[0] & 0xDF) && g[1..] == f[1..]
    ensures Id(g) == Id(f) && Ext(g) == Ext(f) && Rtr(g) == Rtr(f)
    ensures Brs(g) == Brs(f) && Esi(g) == Esi(f) && Len(g) == Len(f)
  {
    f[0 := (f[0] & 0xDF) | (if value then 0x20 else 0)]
  }

  /** `brs(value)`: only bit 0 of byte 5 changes. */
  function SetBrs(f: Raw, value: bool): (g: Raw)
    ensures Brs(g) == value
    ensures (g[5] & 0xFE) == (f[5] & 0xFE) && g[..5] == f[..5] && g[6..] == f[6..]
    ensures Esi(g) == Esi(f)
    ensures Id(g) == Id(f) && Ext(g) == Ext(f) && Rtr(g) == Rtr(f) && Err(g) == Err(f) && Len(g) == Len(f)
  {
    f[5 := (f[5] & 0xFE) | (if value then 0x01 else 0)]
  }

  /** `esi(value)`: only bit 1 of byte 5 changes. */
  function SetEsi(f: Raw, value: bool): (g: Raw)
    ensures Esi(g) == value
    ensures (g[5] & 0xFD) == (f[5] & 0xFD) && g[..5] == f[..5] && g[6..] == f[6..]
    ensures Brs(g) == Brs(f)
    ensures Id(g) == Id(f) && Ext(g) == Ext(f) && Rtr(g) == Rtr(f) && Err(g) == Err(f) && Len(g) == Len(f)
  {
    f[5 := (f[5] & 0xFD) | (if value then 0x02 else 0)]
  }

  /** `len()`: the raw data length byte. */
  function Len(f: Raw): byte { f[4] }

  /** `len(value)`: only byte 4 changes. */
  function SetLen(f: Raw, value: byte): (g: Raw)
    ensures Len(g) == value
    ensures g[..4] == f[..4] && g[5..] == f[5..]
    ensures Id(g) == Id(f) && Ext(g) == Ext(f) && Rtr(g) == Rtr(f) && Err(g) == Err(f)
    ensures Brs(g) == Brs(f) && Esi(g) == Esi(f)
  {
    f[4 := value]
  }

  /**
   * `data(value, size)`: a memcpy into the data area. The source copies
   * without a bound check, so a copy longer than the 64-byte data area
   * would write past the buffer; the model demands it fits.
   */
  function SetData(f: Raw, value: seq<byte>): (g: Raw)
    requires |value| <= MAX_DATA
    ensures g[HEADER_SIZE..HEADER_SIZE + |value|] == value
    ensures g[..HEADER_SIZE] == f[..HEADER_SIZE]
    ensures g[HEADER_SIZE + |value|..] == f[HEADER_SIZE + |value|..]
    ensures Id(g) == Id(f) && Ext(g) == Ext(f) && Rtr(g) == Rtr(f) && Err(g) == Err(f)
    ensures Brs(g) == Brs(f) && Esi(g) == Esi(f) && Len(g) == Len(f)
  {
    f[..HEADER_SIZE] + value + f[HEADER_SIZE + |value|..]
  }

  /**
   * `size()`: the number of bytes handed to the writer. The source returns
   * it as `uint8_t`, so `len() + 8` wraps for lengths above 247.
   */
  function Size(f: Raw): (n: nat)
    ensures n < 256
    ensures Len(f) as int <= 247 ==> n == Len(f) as int + HEADER_SIZE
    ensures Len(f) as int > 247 ==> n == Len(f) as int + HEADER_SIZE - 256
  {
    (Len(f) as int + HEADER_SIZE) % 256
  }

  /** The reported size stays inside the 72-byte buffer. */
  predicate SizeInBounds(f: Raw)
  {
    Size(f) <= RAW_SIZE
  }

  /** `bytes()` read for `size()` bytes: the frame as written. */
  function Bytes(f: Raw): (p: seq<byte>)
    requires SizeInBounds(f)
    ensures |p| == Size(f)
    ensures p == f[..Size(f)]
  {
    f[..Size(f)]
  }

  /** The logical content of a written CAN frame. */
  datatype Fields = Fields(id: bv32, ext: bool, rtr: bool, err: bool,
                           brs: bool, esi: bool, len: byte, data: seq<byte>)

  /**
   * Reads a written frame back: the 8-byte header followed by exactly
   * `len` data bytes. Any other shape is not a frame of this layout.
   */
  function Decode(p: seq<byte>): (r: Option<Fields>)
    ensures r.Some? <==> |p| >= HEADER_SIZE && |p| == p[4] as int + HEADER_SIZE
    ensures r.Some? ==> (r.value.id & ID_MASK) == r.value.id && |r.value.data| == r.value.len as int
  {
    if |p| < HEADER_SIZE || |p| != p[4] as int + HEADER_SIZE then None
    else
      Some(Fields(Word(p[0], p[1], p[2], p[3]) & ID_MASK, (p[0] & 0x80) != 0, (p[0] & 0x40) != 0, (p[0] & 0x20) != 0,
                  (p[5] & 0x01) != 0, (p[5] & 0x02) != 0, p[4], p[HEADER_SIZE..]))
  }

  /**
   * Reading a written frame back gives what the accessors report: the
   * identifier, the five flags, the length and the first `len` data bytes.
   */
  lemma DecodeBytes(f: Raw)
    requires Len(f) as int <= MAX_DATA
    ensures SizeInBounds(f)
    ensures Decode(Bytes(f)) == Some(Fields(Id(f), Ext(f), Rtr(f), Err(f), Brs(f), Esi(f), Len(f),
                                            f[HEADER_SIZE..HEADER_SIZE + Len(f) as int]))
  {
    var p := Bytes(f);
    assert p[0] == f[0] && p[1] == f[1] && p[2] == f[2] && p[3] == f[3];
    assert p[4] == f[4] && p[5] == f[5];
    assert p[HEADER_SIZE..] == f[HEADER_SIZE..HEADER_SIZE + Len(f) as int];
  }

  /** The error frame written by `write_can_error`: ERR set, length 8. */
  function ErrorFrame(): (f: Raw)
    ensures Err(f) && !Ext(f) && !Rtr(f) && Id(f) == 0
    ensures Len(f) == 8 && Size(f) == 16 && SizeInBounds(f)
    ensures f[0] == 0x20
    ensures f[1..4] == [0, 0, 0] && f[5..] == seq(RAW_SIZE - 5, _ => 0)
  {
    SetLen(SetErr(Zero(), true), 8)
  }
}

=== FILE: channels.dfy ===
/**
 * The channel resolver (src/channels.cpp): it turns the channel
 * descriptions a trace carries in its `APP_TEXT` records into interface
 * mappings. A database-channel record names one interface inline; metadata
 * records carry an XML document, possibly in fragments, whose channels and
 * Ethernet ports each name one.
 */
module Channels {
  import opened Wrappers
  import opened Bits
  import opened Text
  import opened Xml
  import opened Frames
  import opened Blf

  /** `channel_mapping`: which records it matches (`when`) and the interface they go to (`change`). */
  datatype Mapping = Mapping(chlId: Option<int>, chlLink: Option<LinkType>, infName: Option<string>)

  /**
   * The exceptions and undefined behaviour the resolver can run into; none
   * is caught, so each ends the conversion.
   */
  datatype Fault =
    | StoiFailed(error: StoiError)   // std::stoi of a port's hardware channel throws
    | NullPortText                   // a port element without text: std::string from a null pointer
    | EmptyPortProperty              // an empty property: front() of an empty split
    | ChannelIdOverflow              // hwchannel * 100000 + number does not fit an int

  /** The exporter's mappings and the metadata fragments collected so far, by metadata id. */
  datatype Resolver = Resolver(pending: map<nat, string>, mappings: seq<Mapping>)

  const INITIAL: Resolver := Resolver(map[], [])

  /** `bus_type_to_linklayer`. */
  function BusTypeToLinkLayer(busType: nat): (l: Option<LinkType>)
    ensures l.Some? <==> busType == 0x01 || busType == 0x05 || busType == 0x07 || busType == 0x0B
  {
    if busType == 0x01 then Some(LinkCan)
    else if busType == 0x05 then Some(LinkLin)
    else if busType == 0x07 then Some(LinkFlexRay)
    else if busType == 0x0B then Some(LinkEthernet)
    else None
  }

  /** The bus type code of each link layer. */
  function BusTypeCode(l: LinkType): nat
  {
    match l
    case LinkCan => 0x01
    case LinkLin => 0x05
    case LinkFlexRay => 0x07
    case LinkEthernet => 0x0B
  }

  /** Each link layer has exactly one bus type code. */
  lemma BusTypeCodes(busType: nat, l: LinkType)
    ensures BusTypeToLinkLayer(busType) == Some(l) <==> busType == BusTypeCode(l)
  {
  }

  /** `bus_name_to_linklayer`. */
  function BusNameToLinkLayer(name: string): (l: Option<LinkType>)
    ensures l.Some? <==> name in {"CAN", "LIN", "FlexRay", "Ethernet"}
  {
    if name == "CAN" then Some(LinkCan)
    else if name == "LIN" then Some(LinkLin)
    else if name == "FlexRay" then Some(LinkFlexRay)
    else if name == "Ethernet" then Some(LinkEthernet)
    else None
  }

  /** The bus name of each link layer. */
  function BusName(l: LinkType): string
  {
    match l
    case LinkCan => "CAN"
    case LinkLin => "LIN"
    case LinkFlexRay => "FlexRay"
    case LinkEthernet => "Ethernet"
  }

  /** Each link layer has exactly one bus name, and names are case sensitive. */
  lemma BusNames(name: string, l: LinkType)
    ensures BusNameToLinkLayer(name) == Some(l) <==> name == BusName(l)
  {
  }

  // ---------------------------------------------------------------------
  // Database channels
  // ---------------------------------------------------------------------

  /** Bits 8-15 of `reservedAppText1`: the channel. */
  function DbChannelId(reserved: u32): nat
  {
    (reserved / 0x100) % 0x100
  }

  /** Bits 16-23 of `reservedAppText1`: the bus type. */
  function DbBusType(reserved: u32): nat
  {
    (reserved / 0x1_0000) % 0x100
  }

  /** The second `;`-separated field of `s`: after the first `;`, up to the next one. */
  function SecondField(s: string): string
    requires FirstIndex(s, ';') < |s|
  {
    var rest := s[FirstIndex(s, ';') + 1..];
    rest[..FirstIndex(rest, ';')]
  }

  /** The piece `split` puts second is the second field. */
  lemma SecondPiece(s: string)
    requires |Split(s, ';')| >= 2
    ensures FirstIndex(s, ';') < |s|
    ensures Split(s, ';')[1] == SecondField(s)
  {
    SplitTail(s, ';');
    var rest := s[FirstIndex(s, ';') + 1..];
    SplitHead(rest, ';');
    assert Split(s, ';')[1] == Split(s, ';')[1..][0];
  }

  /**
   * `configure_db_channel`: the mapping a database-channel record adds, if
   * any. The text is `<database>;<interface>[;...]`; the record is ignored
   * unless the text has a second field and the bus type is known.
   */
  function DbChannelMapping(obj: AppText): (m: Option<Mapping>)
    ensures m.Some? <==> (exists i :: 0 <= i < |obj.text| - 1 && obj.text[i] == ';')
                         && BusTypeToLinkLayer(DbBusType(obj.reservedAppText1)).Some?
    ensures m.Some? ==> m.value == Mapping(Some(DbChannelId(obj.reservedAppText1)),
                                           BusTypeToLinkLayer(DbBusType(obj.reservedAppText1)),
                                           Some(SecondField(obj.text)))
  {
    var channelLink := BusTypeToLinkLayer(DbBusType(obj.reservedAppText1));
    var dbChannels := Split(obj.text, ';');
    SplitHasTwoPieces(obj.text, ';');
    if |dbChannels| < 2 || channelLink.None? then None
    else
      SecondPiece(obj.text);
      Some(Mapping(Some(DbChannelId(obj.reservedAppText1)), channelLink, Some(dbChannels[1])))
  }

  /** A record `<database>;<interface>` of a known bus maps its channel to the interface. */
  lemma DbChannelNamed(obj: AppText, database: string, name: string)
    requires obj.text == database + ";" + name
    requires ';' !in database && ';' !in name && name != []
    requires BusTypeToLinkLayer(DbBusType(obj.reservedAppText1)).Some?
    ensures DbChannelMapping(obj) == Some(Mapping(Some(DbChannelId(obj.reservedAppText1)),
                                                  BusTypeToLinkLayer(DbBusType(obj.reservedAppText1)),
                                                  Some(name)))
  {
    assert Join([database, name], ';') == obj.text by {
      assert [database, name][1..] == [name];
    }
    SplitJoin([database, name], ';');
    assert |obj.text| >= 2;
    SplitHasTwoPieces(obj.text, ';');
    SecondPiece(obj.text);
  }

  /** The inline mapping of a CAN channel 1 record naming interface `eth0`. */
  lemma DbChannelExample()
    ensures DbChannelMapping(AppText(DbChannelInfo, 0x0001_0100, 6, "A;eth0"))
            == Some(Mapping(Some(1), Some(LinkCan), Some("eth0")))
  {
    assert DbChannelId(0x0001_0100) == 1;
    assert DbBusType(0x0001_0100) == 1;
    DbChannelNamed(AppText(DbChannelInfo, 0x0001_0100, 6, "A;eth0"), "A", "eth0");
  }

  /** A record without a second field, or with an unknown bus type, adds nothing. */
  lemma DbChannelIgnored()
    ensures DbChannelMapping(AppText(DbChannelInfo, 0x0001_0100, 2, "A;")) == None
    ensures DbChannelMapping(AppText(DbChannelInfo, 0x0002_0100, 6, "A;eth0")) == None
  {
    assert DbBusType(0x0002_0100) == 2;
    assert Split("A;", ';') == ["A"] by {
      FirstIndexAfter("A", ';', []);
      assert "A" + [';'] + [] == "A;";
      assert "A;"[..1] == "A";
      assert "A;"[2..] == [];
    }
  }

  // ---------------------------------------------------------------------
  // Port properties
  // ---------------------------------------------------------------------

  /** `split(prop, '=').front()`: the text before the first `=`. */
  function KeyOf(prop: string): (k: string)
    requires prop != []
  {
    Split(prop, '=')[0]
  }

  /**
   * `split(prop, '=').back()`: the last piece; for `key=` that is the key
   * itself, since `getline` drops the empty piece after a trailing `=`.
   */
  function ValueOf(prop: string): string
    requires prop != []
  {
    var pair := Split(prop, '=');
    pair[|pair| - 1]
  }

  /** The key is everything up to the first `=`. */
  lemma KeyIsPrefix(prop: string)
    requires prop != []
    ensures KeyOf(prop) == prop[..FirstIndex(prop, '=')]
  {
  }

  /** A well-formed `key=value` property reads back as its key and value. */
  lemma KeyValueRoundTrip(key: string, value: string)
    requires '=' !in key && '=' !in value && value != []
    ensures key + "=" + value != []
    ensures KeyOf(key + "=" + value) == key && ValueOf(key + "=" + value) == value
  {
    assert Join([key, value], '=') == key + "=" + value by {
      assert [key, value][1..] == [value];
    }
    SplitJoin([key, value], '=');
  }

  /** The odd cases: no `=` makes the whole text both key and value, and so does a trailing `=`. */
  lemma KeyValueOddCases()
    ensures KeyOf("name") == "name" && ValueOf("name") == "name"
    ensures KeyOf("name=") == "name" && ValueOf("name=") == "name"
  {
    assert Split("name", '=') == ["name"];
    assert Split("name=", '=') == ["name"] by {
      FirstIndexAfter("name", '=', []);
      assert "name" + ['='] + [] == "name=";
      assert "name="[..4] == "name";
      assert "name="[5..] == [];
    }
  }

  /** What the property loop has gathered for one port. */
  datatype Port = Port(chlId: Option<int>, infName: Option<string>)

  /** The channel id a port with hardware channel `hw` gets on channel `number`. */
  function PortChannelId(hw: int, number: int): int
  {
    hw * 100000 + number
  }

  /** The `int` arithmetic of `hwchannel * 100000 + channel_id` stays in range. */
  predicate PortIdFits(hw: int, number: int)
  {
    IsInt32(hw * 100000) && IsInt32(PortChannelId(hw, number))
  }

  /** A property the loop gets through without a fault. */
  predicate PropertyOk(prop: string, number: int)
  {
    prop != [] &&
    (KeyOf(prop) == "hwchannel" ==> Stoi(ValueOf(prop)).Ok? && PortIdFits(Stoi(ValueOf(prop)).value, number))
  }

  /** One iteration of the property loop. */
  function ApplyProperty(p: Port, prop: string, network: string, number: int): (r: Result<Port, Fault>)
    ensures r.Ok? <==> PropertyOk(prop, number)
  {
    var pair := Split(prop, '=');
    if pair == [] then Err(EmptyPortProperty)
    else if pair[0] == "name" then Ok(p.(infName := Some(network + "::" + pair[|pair| - 1])))
    else if pair[0] == "hwchannel" then
      match Stoi(pair[|pair| - 1])
      case Err(e) => Err(StoiFailed(e))
      case Ok(hw) =>
        if PortIdFits(hw, number) then Ok(p.(chlId := Some(PortChannelId(hw, number))))
        else Err(ChannelIdOverflow)
    else Ok(p)
  }

  /** The property loop over a port's `;`-separated properties, in order, stopping at the first fault. */
  function ApplyProperties(p: Port, props: seq<string>, network: string, number: int): (r: Result<Port, Fault>)
    ensures r.Ok? <==> forall k :: 0 <= k < |props| ==> PropertyOk(props[k], number)
  {
    if props == [] then Ok(p)
    else
      match ApplyProperties(p, props[..|props| - 1], network, number)
      case Err(f) => Err(f)
      case Ok(q) => ApplyProperty(q, props[|props| - 1], network, number)
  }

  /** The value of the last non-empty property with key `key`. */
  function LastValue(props: seq<string>, key: string): (v: Option<string>)
  {
    if props == [] then None
    else
      var last := props[|props| - 1];
      if last != [] && KeyOf(last) == key then Some(ValueOf(last))
      else LastValue(props[..|props| - 1], key)
  }

  /**
   * Later properties override earlier ones: after the loop the port's name
   * comes from its last `name` property and its channel id from its last
   * `hwchannel` property.
   */
  lemma {:induction false} PropertiesTakeLastValue(p: Port, props: seq<string>, network: string, number: int)
    requires ApplyProperties(p, props, network, number).Ok?
    ensures var q := ApplyProperties(p, props, network, number).value;
      && q.infName == (match LastValue(props, "name")
                       case Some(v) => Some(network + "::" + v)
                       case None => p.infName)
      && (LastValue(props, "hwchannel").None? ==> q.chlId == p.chlId)
      && (LastValue(props, "hwchannel").Some? ==>
            && Stoi(LastValue(props, "hwchannel").value).Ok?
            && q.chlId == Some(PortChannelId(Stoi(LastValue(props, "hwchannel").value).value, number)))
  {
    if props != [] {
      var init := props[..|props| - 1];
      PropertiesTakeLastValue(p, init, network, number);
      assert PropertyOk(props[|props| - 1], number);
    }
  }

  /** The mapping of one `eli` element, if it is a port that names both an interface and a hardware channel. */
  function PortMapping(port: Element, channelType: string, network: string, number: int): (r: Result<seq<Mapping>, Fault>)
    ensures !AttributeIs(port, "name", "port") ==> r == Ok([])
    ensures AttributeIs(port, "name", "port") && port.text.None? ==> r == Err(NullPortText)
    ensures AttributeIs(port, "name", "port") && port.text.Some? ==>
      var props := Split(port.text.value, ';');
      && (r.Ok? <==> forall k :: 0 <= k < |props| ==> PropertyOk(props[k], number))
      && (r.Ok? ==>
            if LastValue(props, "name").Some? && LastValue(props, "hwchannel").Some? then
              && Stoi(LastValue(props, "hwchannel").value).Ok?
              && r.value == [Mapping(Some(PortChannelId(Stoi(LastValue(props, "hwchannel").value).value, number)),
                                  BusNameToLinkLayer(channelType),
                                  Some(network + "::" + LastValue(props, "name").value))]
            else r.value == [])
  {
    if !AttributeIs(port, "name", "port") then Ok([])
    else
      match port.text
      case None => Err(NullPortText)
      case Some(t) =>
        match ApplyProperties(Port(None, None), Split(t, ';'), network, number)
        case Err(f) => Err(f)
        case Ok(q) =>
          PropertiesTakeLastValue(Port(None, None), Split(t, ';'), network, number);
          if q.infName.Some? && q.chlId.Some? then Ok([Mapping(q.chlId, BusNameToLinkLayer(channelType), q.infName)])
          else Ok([])
  }

  /** A port `hwchannel=h` on channel `c` resolves to the same key as records on hardware channel `h`, channel `c`. */
  lemma PortKeyIsChannelKey(hw: u32, number: u16)
    requires PortIdFits(hw, number)
    ensures PortChannelId(hw, number) == ChannelKey(hw, number)
  {
  }

  // ---------------------------------------------------------------------
  // XML channels
  // ---------------------------------------------------------------------

  /**
   * The mappings of each element in turn, concatenated; the first fault
   * stops the walk.
   */
  function Collect<T>(xs: seq<T>, f: T -> Result<seq<Mapping>, Fault>): (r: Result<seq<Mapping>, Fault>)
    ensures r.Ok? <==> forall k :: 0 <= k < |xs| ==> f(xs[k]).Ok?
    ensures r.Ok? && (forall k :: 0 <= k < |xs| ==> f(xs[k]).value == []) ==> r.value == []
  {
    if xs == [] then Ok([])
    else
      match f(xs[0])
      case Err(e) => Err(e)
      case Ok(m) =>
        match Collect(xs[1..], f)
        case Err(e) => Err(e)
        case Ok(ms) => Ok(m + ms)
  }

  /** Every mapping collected is one some element contributed. */
  lemma {:induction false} CollectedFrom<T>(xs: seq<T>, f: T -> Result<seq<Mapping>, Fault>, m: Mapping)
    requires Collect(xs, f).Ok? && m in Collect(xs, f).value
    ensures exists k :: 0 <= k < |xs| && m in f(xs[k]).value
  {
    if m in f(xs[0]).value {
    } else {
      CollectedFrom(xs[1..], f, m);
      var k :| 1 <= k + 1 < |xs| && m in f(xs[1..][k]).value;
      assert m in f(xs[k + 1]).value;
    }
  }

  /**
   * The walk over `a + b` is the walk over `a` followed by the walk over
   * `b`: a fault in `a` ends it there, otherwise the mappings of `a` come
   * first and those of `b` after them.
   */
  lemma CollectAppend<T>(a: seq<T>, b: seq<T>, f: T -> Result<seq<Mapping>, Fault>)
    ensures Collect(a, f).Err? ==> Collect(a + b, f) == Collect(a, f)
    ensures Collect(a, f).Ok? && Collect(b, f).Err? ==> Collect(a + b, f) == Collect(b, f)
    ensures Collect(a, f).Ok? && Collect(b, f).Ok? ==> Collect(a + b, f) == Ok(Collect(a, f).value + Collect(b, f).value)
  {
    CollectAppendFault(a, b, f);
    CollectAppendOk(a, b, f);
  }

  /** The fault cases of `CollectAppend`. */
  lemma {:induction false} CollectAppendFault<T>(a: seq<T>, b: seq<T>, f: T -> Result<seq<Mapping>, Fault>)
    ensures Collect(a, f).Err? ==> Collect(a + b, f) == Collect(a, f)
    ensures Collect(a, f).Ok? && Collect(b, f).Err? ==> Collect(a + b, f) == Collect(b, f)
  {
    if a == [] {
      assert a + b == b;
    } else {
      assert (a + b)[0] == a[0];
      assert (a + b)[1..] == a[1..] + b;
      CollectAppendFault(a[1..], b, f);
    }
  }

  /** The success case of `CollectAppend`. */
  lemma {:induction false} CollectAppendOk<T>(a: seq<T>, b: seq<T>, f: T -> Result<seq<Mapping>, Fault>)
    ensures Collect(a, f).Ok? && Collect(b, f).Ok? ==> Collect(a + b, f) == Ok(Collect(a, f).value + Collect(b, f).value)
  {
    if a == [] {
      assert a + b == b;
      if Collect(b, f).Ok? {
        assert [] + Collect(b, f).value == Collect(b, f).value;
      }
    } else if Collect(a, f).Ok? && Collect(b, f).Ok? {
      assert (a + b)[0] == a[0];
      assert (a + b)[1..] == a[1..] + b;
      CollectAppendOk(a[1..], b, f);
      var m := f(a[0]).value;
      assert m + (Collect(a[1..], f).value + Collect(b, f).value) == (m + Collect(a[1..], f).value) + Collect(b, f).value;
    }
  }

  /** The walk over one element is that element's contribution. */
  lemma CollectOne<T>(x: T, f: T -> Result<seq<Mapping>, Fault>)
    ensures Collect([x], f) == f(x)
  {
    assert [x][1..] == [];
    if f(x).Ok? {
      assert f(x).value + [] == f(x).value;
    }
  }

  /** The port mappings of one `elist`: its `eli` ports when it is named `ports`, and nothing otherwise. */
  function ElistMappings(elist: Element, channelType: string, network: string, number: int): (r: Result<seq<Mapping>, Fault>)
    ensures !AttributeIs(elist, "name", "ports") ==> r == Ok([])
  {
    if !AttributeIs(elist, "name", "ports") then Ok([])
    else Collect(ChildrenNamed(elist.children, "eli"), port => PortMapping(port, channelType, network, number))
  }

  /** The port mappings of a `channel_properties` element: those of each of its `elist` children in turn. */
  function PropertiesMappings(properties: Element, channelType: string, network: string, number: int): Result<seq<Mapping>, Fault>
  {
    Collect(ChildrenNamed(properties.children, "elist"), elist => ElistMappings(elist, channelType, network, number))
  }

  /** An `elist` not named `ports` adds nothing, wherever it stands among the properties. */
  lemma ElistOtherThanPortsIgnored(properties: Element, before: seq<Element>, elist: Element, after: seq<Element>,
                                   channelType: string, network: string, number: int)
    requires properties.children == before + [elist] + after
    requires !AttributeIs(elist, "name", "ports")
    ensures PropertiesMappings(properties, channelType, network, number)
         == PropertiesMappings(properties.(children := before + after), channelType, network, number)
  {
    var f := (e: Element) => ElistMappings(e, channelType, network, number);
    var a, x, b := ChildrenNamed(before, "elist"), ChildrenNamed([elist], "elist"), ChildrenNamed(after, "elist");
    ChildrenNamedAppend(before + [elist], after, "elist");
    ChildrenNamedAppend(before, [elist], "elist");
    ChildrenNamedAppend(before, after, "elist");
    ChildrenNamedOne(elist, "elist");
    assert Collect(x, f) == Ok([]) by {
      if elist.name == "elist" { CollectOne(elist, f); }
    }
    CollectAppend(a, x, f);
    CollectAppend(a + x, b, f);
    CollectAppend(a, b, f);
    if Collect(a, f).Ok? {
      assert Collect(a, f).value + [] == Collect(a, f).value;
    }
  }

  /** One element's contribution sits between those of the elements before and after it. */
  lemma CollectMiddle<T>(before: seq<T>, x: T, after: seq<T>, f: T -> Result<seq<Mapping>, Fault>)
    requires Collect(before + [x] + after, f).Ok?
    ensures Collect(before, f).Ok? && f(x).Ok? && Collect(after, f).Ok?
    ensures Collect(before + [x] + after, f).value == Collect(before, f).value + f(x).value + Collect(after, f).value
  {
    CollectAppend(before + [x], after, f);
    CollectAppend(before, [x], f);
    CollectOne(x, f);
  }

  /**
   * Each `eli` child of a `ports` elist adds its port's mappings, in
   * document order: after those of the children before it and before
   * those of the children after it.
   */
  lemma PortsElistAddsPort(elist: Element, before: seq<Element>, port: Element, after: seq<Element>,
                           channelType: string, network: string, number: int)
    requires AttributeIs(elist, "name", "ports") && port.name == "eli"
    requires elist.children == before + [port] + after
    requires ElistMappings(elist, channelType, network, number).Ok?
    ensures PortMapping(port, channelType, network, number).Ok?
    ensures ElistMappings(elist.(children := before), channelType, network, number).Ok?
    ensures ElistMappings(elist.(children := after), channelType, network, number).Ok?
    ensures ElistMappings(elist, channelType, network, number).value
         == ElistMappings(elist.(children := before), channelType, network, number).value
            + PortMapping(port, channelType, network, number).value
            + ElistMappings(elist.(children := after), channelType, network, number).value
  {
    var f := (e: Element) => PortMapping(e, channelType, network, number);
    ChildrenNamedAppend(before + [port], after, "eli");
    ChildrenNamedAppend(before, [port], "eli");
    ChildrenNamedOne(port, "eli");
    assert ChildrenNamed(elist.children, "eli") == ChildrenNamed(before, "eli") + [port] + ChildrenNamed(after, "eli");
    CollectMiddle(ChildrenNamed(before, "eli"), port, ChildrenNamed(after, "eli"), f);
  }

  /**
   * Each `elist` child of a `channel_properties` element adds its mappings,
   * in document order among the other `elist` children.
   */
  lemma PropertiesAddElist(properties: Element, before: seq<Element>, elist: Element, after: seq<Element>,
                           channelType: string, network: string, number: int)
    requires elist.name == "elist"
    requires properties.children == before + [elist] + after
    requires PropertiesMappings(properties, channelType, network, number).Ok?
    ensures ElistMappings(elist, channelType, network, number).Ok?
    ensures PropertiesMappings(properties.(children := before), channelType, network, number).Ok?
    ensures PropertiesMappings(properties.(children := after), channelType, network, number).Ok?
    ensures PropertiesMappings(properties, channelType, network, number).value
         == PropertiesMappings(properties.(children := before), channelType, network, number).value
            + ElistMappings(elist, channelType, network, number).value
            + PropertiesMappings(properties.(children := after), channelType, network, number).value
  {
    var f := (e: Element) => ElistMappings(e, channelType, network, number);
    ChildrenNamedAppend(before + [elist], after, "elist");
    ChildrenNamedAppend(before, [elist], "elist");
    ChildrenNamedOne(elist, "elist");
    assert ChildrenNamed(properties.children, "elist")
        == ChildrenNamed(before, "elist") + [elist] + ChildrenNamed(after, "elist");
    CollectMiddle(ChildrenNamed(before, "elist"), elist, ChildrenNamed(after, "elist"), f);
  }

  /** The mapping a channel with a type and a network adds for its own number. */
  function DirectMapping(channel: Element): Mapping
  {
    Mapping(Some(IntAttribute(channel, "number")),
            BusNameToLinkLayer(AttributeOrEmpty(channel, "type")),
            Some(AttributeOrEmpty(channel, "network")))
  }

  /** That mapping when the channel has both a type and a network, and nothing otherwise. */
  function DirectMappings(channel: Element): (r: seq<Mapping>)
    ensures r == [] || r == [DirectMapping(channel)]
    ensures r != [] <==> AttributeOrEmpty(channel, "type") != "" && AttributeOrEmpty(channel, "network") != ""
  {
    if AttributeOrEmpty(channel, "type") != "" && AttributeOrEmpty(channel, "network") != "" then [DirectMapping(channel)] else []
  }

  /**
   * `configure_xml_channel`: the mappings one `channel` element adds. A
   * channel with a type and a network maps its number to the network; each
   * Ethernet port that names an interface and a hardware channel maps the
   * combined id to `<network>::<name>`.
   */
  function ConfigureXmlChannel(channel: Element): (r: Result<seq<Mapping>, Fault>)
    ensures r.Ok? ==> |DirectMappings(channel)| <= |r.value| && r.value[..|DirectMappings(channel)|] == DirectMappings(channel)
    ensures FirstNamed(channel.children, "channel_properties").None? ==> r == Ok(DirectMappings(channel))
    ensures FirstNamed(channel.children, "channel_properties").Some? ==>
              var properties := FirstNamed(channel.children, "channel_properties").value;
              r.Ok? <==> PropertiesMappings(properties, AttributeOrEmpty(channel, "type"),
                                            AttributeOrEmpty(channel, "network"), IntAttribute(channel, "number")).Ok?
    ensures FirstNamed(channel.children, "channel_properties").Some? && r.Ok? ==>
              var properties := FirstNamed(channel.children, "channel_properties").value;
              r.value == DirectMappings(channel)
                         + PropertiesMappings(properties, AttributeOrEmpty(channel, "type"),
                                              AttributeOrEmpty(channel, "network"), IntAttribute(channel, "number")).value
  {
    var channelType := AttributeOrEmpty(channel, "type");
    var number := IntAttribute(channel, "number");
    var network := AttributeOrEmpty(channel, "network");
    match FirstNamed(channel.children, "channel_properties")
    case None => Ok(DirectMappings(channel))
    case Some(properties) =>
      match PropertiesMappings(properties, channelType, network, number)
      case Err(f) => Err(f)
      case Ok(ms) => Ok(DirectMappings(channel) + ms)
  }

  /** A mapping that matches records: it names a channel id, the channel's link layer and an interface. */
  predicate Complete(m: Mapping, channelType: string)
  {
    m.chlId.Some? && m.infName.Some? && m.chlLink == BusNameToLinkLayer(channelType)
  }

  /** The mapping names an interface under the channel's network: `<network>::<name>`. */
  ghost predicate PortName(m: Mapping, network: string)
  {
    exists v :: m.infName == Some(network + "::" + v)
  }

  /** Every port mapping is complete and names an interface under the channel's network. */
  lemma PortMappingComplete(port: Element, channelType: string, network: string, number: int, m: Mapping)
    requires PortMapping(port, channelType, network, number).Ok?
    requires m in PortMapping(port, channelType, network, number).value
    ensures Complete(m, channelType)
    ensures PortName(m, network)
  {
  }

  /** Every mapping an `elist` adds is a complete port mapping. */
  lemma ElistMappingsArePorts(elist: Element, channelType: string, network: string, number: int)
    ensures ElistMappings(elist, channelType, network, number).Ok? ==>
              forall m :: m in ElistMappings(elist, channelType, network, number).value ==>
                Complete(m, channelType) && PortName(m, network)
  {
    if AttributeIs(elist, "name", "ports") && ElistMappings(elist, channelType, network, number).Ok? {
      var ports := ChildrenNamed(elist.children, "eli");
      var g := (port: Element) => PortMapping(port, channelType, network, number);
      assert ElistMappings(elist, channelType, network, number) == Collect(ports, g);
      forall m | m in Collect(ports, g).value
        ensures Complete(m, channelType) && PortName(m, network)
      {
        CollectedFrom(ports, g, m);
        var j :| 0 <= j < |ports| && m in g(ports[j]).value;
        PortMappingComplete(ports[j], channelType, network, number, m);
      }
    }
  }

  /** Every mapping a `channel_properties` element adds is a complete port mapping. */
  lemma PropertiesMappingsArePorts(properties: Element, channelType: string, network: string, number: int)
    ensures PropertiesMappings(properties, channelType, network, number).Ok? ==>
              forall m :: m in PropertiesMappings(properties, channelType, network, number).value ==>
                Complete(m, channelType) && PortName(m, network)
  {
    var elists := ChildrenNamed(properties.children, "elist");
    var f := (e: Element) => ElistMappings(e, channelType, network, number);
    assert PropertiesMappings(properties, channelType, network, number) == Collect(elists, f);
    forall m | Collect(elists, f).Ok? && m in Collect(elists, f).value
      ensures Complete(m, channelType) && PortName(m, network)
    {
      CollectedFrom(elists, f, m);
      var k :| 0 <= k < |elists| && m in f(elists[k]).value;
      ElistMappingsArePorts(elists[k], channelType, network, number);
    }
  }

  /**
   * Every mapping a channel element adds is complete, and is either the
   * channel's direct mapping or a port mapping under its network.
   */
  lemma ChannelMappingsComplete(channel: Element)
    ensures ConfigureXmlChannel(channel).Ok? ==>
              forall m :: m in ConfigureXmlChannel(channel).value ==> Complete(m, AttributeOrEmpty(channel, "type"))
    ensures ConfigureXmlChannel(channel).Ok? ==>
              forall m :: m in ConfigureXmlChannel(channel).value ==>
                m in DirectMappings(channel) || PortName(m, AttributeOrEmpty(channel, "network"))
  {
    var channelType := AttributeOrEmpty(channel, "type");
    var network := AttributeOrEmpty(channel, "network");
    var number := IntAttribute(channel, "number");
    if FirstNamed(channel.children, "channel_properties").Some? {
      PropertiesMappingsArePorts(FirstNamed(channel.children, "channel_properties").value, channelType, network, number);
    }
  }

  /**
   * A channel's own number is mapped exactly when the channel has both a
   * type and a network: no port mapping can stand in for it.
   */
  lemma DirectMappingOnlyWhenNamed(channel: Element)
    ensures ConfigureXmlChannel(channel).Ok? ==>
              (DirectMapping(channel) in ConfigureXmlChannel(channel).value <==>
                 AttributeOrEmpty(channel, "type") != "" && AttributeOrEmpty(channel, "network") != "")
  {
    ChannelMappingsComplete(channel);
  }

  /**
   * A channel whose properties hold one `ports` elist with one `eli` port
   * adds its direct mapping followed by that port's mapping.
   */
  lemma OnePortChannel(channel: Element, properties: Element, elist: Element, port: Element)
    requires channel.children == [properties] && properties.name == "channel_properties"
    requires properties.children == [elist] && elist.name == "elist" && AttributeIs(elist, "name", "ports")
    requires elist.children == [port] && port.name == "eli"
    ensures var p := PortMapping(port, AttributeOrEmpty(channel, "type"), AttributeOrEmpty(channel, "network"),
                                 IntAttribute(channel, "number"));
      ConfigureXmlChannel(channel) == (match p case Err(f) => Err(f) case Ok(ms) => Ok(DirectMappings(channel) + ms))
  {
    var channelType, network, number := AttributeOrEmpty(channel, "type"), AttributeOrEmpty(channel, "network"),
                                        IntAttribute(channel, "number");
    assert FirstNamed(channel.children, "channel_properties") == Some(properties);
    ChildrenNamedOne(port, "eli");
    ChildrenNamedOne(elist, "elist");
    CollectOne(port, (e: Element) => PortMapping(e, channelType, network, number));
    CollectOne(elist, (e: Element) => ElistMappings(e, channelType, network, number));
  }

  /** A decimal number holds neither separator the port properties use. */
  lemma DecimalHasNoSeparators(v: int)
    ensures Decimal(v) != [] && ';' !in Decimal(v) && '=' !in Decimal(v)
  {
    var d := NatDigits(if v < 0 then -v else v);
    assert forall k :: 0 <= k < |d| ==> d[k] != ';' && d[k] != '=';
  }

  /** The text `name=<name>;hwchannel=<value>` splits into its two properties. */
  lemma PortTextSplit(name: string, value: string)
    requires ';' !in name && ';' !in value && value != []
    ensures Split("name=" + name + ";hwchannel=" + value, ';') == ["name=" + name, "hwchannel=" + value]
  {
    var props := ["name=" + name, "hwchannel=" + value];
    assert Join(props, ';') == "name=" + name + ";hwchannel=" + value by {
      assert props[1..] == ["hwchannel=" + value];
    }
    SplitJoin(props, ';');
  }

  /** The two properties read back as the name and the hardware channel text. */
  lemma PortPropertiesRead(name: string, value: string)
    requires '=' !in name && name != [] && '=' !in value && value != []
    ensures var props := ["name=" + name, "hwchannel=" + value];
      && props[0] != [] && KeyOf(props[0]) == "name" && ValueOf(props[0]) == name
      && props[1] != [] && KeyOf(props[1]) == "hwchannel" && ValueOf(props[1]) == value
      && LastValue(props, "name") == Some(name) && LastValue(props, "hwchannel") == Some(value)
  {
    var props := ["name=" + name, "hwchannel=" + value];
    KeyValueRoundTrip("name", name);
    KeyValueRoundTrip("hwchannel", value);
    assert props[..1] == ["name=" + name];
    assert props[..1][..0] == [];
  }

  /** What the property loop reads from the text `name=<name>;hwchannel=<hw>`. */
  lemma NamedPortProperties(name: string, hw: int, number: int)
    requires ';' !in name && '=' !in name && name != []
    requires IsInt32(hw) && PortIdFits(hw, number)
    ensures var props := Split("name=" + name + ";hwchannel=" + Decimal(hw), ';');
      && props == ["name=" + name, "hwchannel=" + Decimal(hw)]
      && (forall k :: 0 <= k < |props| ==> PropertyOk(props[k], number))
      && LastValue(props, "name") == Some(name) && LastValue(props, "hwchannel") == Some(Decimal(hw))
      && Stoi(Decimal(hw)) == Ok(hw)
  {
    var value := Decimal(hw);
    var props := ["name=" + name, "hwchannel=" + value];
    DecimalHasNoSeparators(hw);
    assert Split("name=" + name + ";hwchannel=" + value, ';') == props by {
      PortTextSplit(name, value);
    }
    assert Stoi(value) == Ok(hw) by {
      StoiDecimal(hw, []);
      assert value + [] == value;
    }
    PortPropertiesRead(name, value);
  }

  /**
   * A port whose text is `name=<name>;hwchannel=<hw>` maps the combined id
   * of `hw` and the channel number to `<network>::<name>`, whenever that id
   * fits an `int`.
   */
  lemma NamedPortMapping(port: Element, channelType: string, network: string, number: int, name: string, hw: int)
    requires AttributeIs(port, "name", "port")
    requires ';' !in name && '=' !in name && name != []
    requires IsInt32(hw) && PortIdFits(hw, number)
    requires port.text == Some("name=" + name + ";hwchannel=" + Decimal(hw))
    ensures PortMapping(port, channelType, network, number)
         == Ok([Mapping(Some(PortChannelId(hw, number)), BusNameToLinkLayer(channelType), Some(network + "::" + name))])
  {
    NamedPortProperties(name, hw, number);
  }

  /**
   * An Ethernet channel 2 on network `N` with one port `name=p;hwchannel=3`
   * maps channel 2 to `N` and the combined id 300002 to `N::p`.
   */
  lemma EthernetPortExample(channel: Element, properties: Element, elist: Element, port: Element)
    requires port == Element("eli", map["name" := "port"], Some("name=p;hwchannel=3"), [])
    requires elist == Element("elist", map["name" := "ports"], None, [port])
    requires properties == Element("channel_properties", map[], None, [elist])
    requires channel == Element("channel", map["type" := "Ethernet", "network" := "N", "number" := "2"], None, [properties])
    ensures ConfigureXmlChannel(channel)
         == Ok([Mapping(Some(2), Some(LinkEthernet), Some("N")), Mapping(Some(300002), Some(LinkEthernet), Some("N::p"))])
  {
    ExampleChannelParts(channel, properties, elist, port);
    var direct := Mapping(Some(2), Some(LinkEthernet), Some("N"));
    var ethernet := Mapping(Some(300002), Some(LinkEthernet), Some("N::p"));
    PairConcat(direct, ethernet);
  }

  /** Two one-element sequences concatenate to the pair. */
  lemma PairConcat<T>(a: T, b: T)
    ensures [a] + [b] == [a, b]
  {
  }

  /** The example channel's direct mapping followed by its port's mapping. */
  lemma ExampleChannelParts(channel: Element, properties: Element, elist: Element, port: Element)
    requires port == Element("eli", map["name" := "port"], Some("name=p;hwchannel=3"), [])
    requires elist == Element("elist", map["name" := "ports"], None, [port])
    requires properties == Element("channel_properties", map[], None, [elist])
    requires channel == Element("channel", map["type" := "Ethernet", "network" := "N", "number" := "2"], None, [properties])
    ensures ConfigureXmlChannel(channel)
         == Ok([Mapping(Some(2), Some(LinkEthernet), Some("N"))] + [Mapping(Some(300002), Some(LinkEthernet), Some("N::p"))])
  {
    ExampleChannelAttributes(channel);
    ExampleDirectMapping(channel);
    ExamplePort(port);
    OnePortChannel(channel, properties, elist, port);
  }

  /** The example's port maps the combined id 300002 to `N::p`. */
  lemma ExamplePort(port: Element)
    requires port == Element("eli", map["name" := "port"], Some("name=p;hwchannel=3"), [])
    ensures PortMapping(port, "Ethernet", "N", 2) == Ok([Mapping(Some(300002), Some(LinkEthernet), Some("N::p"))])
  {
    ExamplePortText();
    NamedPortMapping(port, "Ethernet", "N", 2, "p", 3);
    ExampleNames();
  }

  /** The example port's text is `name=p;hwchannel=` followed by the decimal 3. */
  lemma ExamplePortText()
    ensures "name=p;hwchannel=3" == "name=" + "p" + ";hwchannel=" + Decimal(3)
    ensures ';' !in "p" && '=' !in "p" && IsInt32(3) && PortIdFits(3, 2)
  {
    assert Decimal(3) == "3";
  }

  /** The example port's id, link layer and interface name. */
  lemma ExampleNames()
    ensures PortChannelId(3, 2) == 300002
    ensures BusNameToLinkLayer("Ethernet") == Some(LinkEthernet)
    ensures "N" + "::" + "p" == "N::p"
  {
  }

  /** The attributes of the example channel: type `Ethernet`, network `N`, number 2. */
  lemma ExampleChannelAttributes(channel: Element)
    requires channel.attributes == map["type" := "Ethernet", "network" := "N", "number" := "2"]
    ensures AttributeOrEmpty(channel, "type") == "Ethernet" && AttributeOrEmpty(channel, "network") == "N"
    ensures IntAttribute(channel, "number") == 2
  {
    assert Decimal(2) == "2";
    StoiDecimal(2, []);
    assert "2" + [] == "2";
  }

  /** The example channel's own mapping: number 2, Ethernet, to `N`. */
  lemma ExampleDirectMapping(channel: Element)
    requires channel.attributes == map["type" := "Ethernet", "network" := "N", "number" := "2"]
    ensures DirectMappings(channel) == [Mapping(Some(2), Some(LinkEthernet), Some("N"))]
  {
    ExampleChannelAttributes(channel);
  }

  /** The mappings of a `channels` element: those of each `channel` child in document order. */
  function ChannelsMappings(channels: Element): Result<seq<Mapping>, Fault>
  {
    Collect(ChildrenNamed(channels.children, "channel"), ConfigureXmlChannel)
  }

  /**
   * The channels are resolved in document order: the mappings of the
   * earlier children come first, and a fault among them ends the walk.
   */
  lemma ChannelsInDocumentOrder(channels: Element, before: seq<Element>, after: seq<Element>)
    requires channels.children == before + after
    ensures var x := ChannelsMappings(channels.(children := before));
      x.Err? ==> ChannelsMappings(channels) == x
    ensures var x, y := ChannelsMappings(channels.(children := before)), ChannelsMappings(channels.(children := after));
      x.Ok? && y.Err? ==> ChannelsMappings(channels) == y
    ensures var x, y := ChannelsMappings(channels.(children := before)), ChannelsMappings(channels.(children := after));
      x.Ok? && y.Ok? ==> ChannelsMappings(channels) == Ok(x.value + y.value)
  {
    ChildrenNamedAppend(before, after, "channel");
    CollectAppend(ChildrenNamed(before, "channel"), ChildrenNamed(after, "channel"), ConfigureXmlChannel);
  }

  /** A `channel` child adds what `configure_xml_channel` gives for it; any other child adds nothing. */
  lemma ChannelsOneChild(channels: Element, child: Element)
    requires channels.children == [child]
    ensures child.name == "channel" ==> ChannelsMappings(channels) == ConfigureXmlChannel(child)
    ensures child.name != "channel" ==> ChannelsMappings(channels) == Ok([])
  {
    ChildrenNamedOne(child, "channel");
    if child.name == "channel" {
      CollectOne(child, ConfigureXmlChannel);
    }
  }

  /**
   * The mappings a complete metadata text adds: nothing unless it parses
   * and its first `channels` root exists; then those of that root's channels.
   */
  function DocumentMappings(parser: Parser, text: string): (r: Result<seq<Mapping>, Fault>)
    ensures Parse(parser, text).None? ==> r == Ok([])
    ensures Parse(parser, text).Some? && FirstNamed(Parse(parser, text).value.roots, "channels").None? ==> r == Ok([])
    ensures Parse(parser, text).Some? && FirstNamed(Parse(parser, text).value.roots, "channels").Some? ==>
              r == ChannelsMappings(FirstNamed(Parse(parser, text).value.roots, "channels").value)
  {
    match Parse(parser, text)
    case None => Ok([])
    case Some(doc) =>
      match FirstNamed(doc.roots, "channels")
      case None => Ok([])
      case Some(channels) => ChannelsMappings(channels)
  }

  // ---------------------------------------------------------------------
  // The metadata accumulator
  // ---------------------------------------------------------------------

  /** Bits 24-31 of `reservedAppText1`: which metadata block a fragment belongs to. */
  function MetadataId(reserved: u32): nat
  {
    reserved / TWO_24
  }

  /** Bits 0-23 of `reservedAppText1`: the length still to come, counting this fragment. */
  function RemainingLength(reserved: u32): nat
  {
    reserved % TWO_24
  }

  /** The text collected so far for metadata block `id`. */
  function Pending(r: Resolver, id: nat): string
  {
    if id in r.pending then r.pending[id] else ""
  }

  /** A fragment is the last of its block when its text length equals the remaining length. */
  predicate IsLastFragment(obj: AppText)
  {
    obj.textLength as nat == RemainingLength(obj.reservedAppText1)
  }

  /**
   * `configure_xml_channels`: append the fragment to its block's text; on
   * the last fragment, resolve the whole text collected so far. The block's
   * entry is never removed, so a later block with the same id continues it.
   */
  function ConfigureXmlChannels(r: Resolver, obj: AppText, parser: Parser): (res: Result<Resolver, Fault>)
    ensures var id := MetadataId(obj.reservedAppText1);
      res.Ok? ==> res.value.pending == r.pending[id := Pending(r, id) + obj.text]
    ensures !IsLastFragment(obj) ==> res.Ok? && res.value.mappings == r.mappings
    ensures IsLastFragment(obj) ==>
      var text := Pending(r, MetadataId(obj.reservedAppText1)) + obj.text;
      && (res.Ok? <==> DocumentMappings(parser, text).Ok?)
      && (res.Ok? ==> res.value.mappings == r.mappings + DocumentMappings(parser, text).value)
  {
    var id := MetadataId(obj.reservedAppText1);
    var collected := r.(pending := r.pending[id := Pending(r, id) + obj.text]);
    if !IsLastFragment(obj) then Ok(collected)
    else
      match DocumentMappings(parser, collected.pending[id])
      case Err(f) => Err(f)
      case Ok(ms) => Ok(collected.(mappings := r.mappings + ms))
  }

  /** `configure_channels`: dispatch on the text's source; other texts change nothing. */
  function ConfigureChannels(r: Resolver, obj: AppText, parser: Parser): (res: Result<Resolver, Fault>)
    ensures obj.source == DbChannelInfo ==>
      res == Ok(r.(mappings := r.mappings + (if DbChannelMapping(obj).Some? then [DbChannelMapping(obj).value] else [])))
    ensures obj.source == MetaData ==> res == ConfigureXmlChannels(r, obj, parser)
    ensures obj.source != DbChannelInfo && obj.source != MetaData ==> res == Ok(r)
  {
    if obj.source == DbChannelInfo then
      match DbChannelMapping(obj)
      case None => assert r.mappings + [] == r.mappings; Ok(r)
      case Some(m) => Ok(r.(mappings := r.mappings + [m]))
    else if obj.source == MetaData then ConfigureXmlChannels(r, obj, parser)
    else Ok(r)
  }

  /** Mappings are only ever appended, and no block's collected text is dropped. */
  lemma ConfigureChannelsAppends(r: Resolver, obj: AppText, parser: Parser)
    requires ConfigureChannels(r, obj, parser).Ok?
    ensures var r' := ConfigureChannels(r, obj, parser).value;
      && r.mappings <= r'.mappings
      && r.pending.Keys <= r'.pending.Keys
      && (forall id :: id in r.pending && id != MetadataId(obj.reservedAppText1) ==> r'.pending[id] == r.pending[id])
      && (forall id :: id in r.pending ==> r.pending[id] <= r'.pending[id])
  {
  }

  /**
   * Two fragments of a fresh block: the first adds nothing; the second
   * resolves the concatenated text.
   */
  lemma TwoFragments(r: Resolver, first: AppText, second: AppText, parser: Parser)
    requires first.source == MetaData && second.source == MetaData
    requires MetadataId(first.reservedAppText1) == MetadataId(second.reservedAppText1)
    requires MetadataId(first.reservedAppText1) !in r.pending
    requires !IsLastFragment(first) && IsLastFragment(second)
    ensures ConfigureChannels(r, first, parser).Ok?
    ensures ConfigureChannels(r, first, parser).value.mappings == r.mappings
    ensures var r1 := ConfigureChannels(r, first, parser).value;
      ConfigureChannels(r1, second, parser)
        == match DocumentMappings(parser, first.text + second.text)
           case Err(f) => Err(f)
           case Ok(ms) => Ok(Resolver(r.pending[MetadataId(first.reservedAppText1) := first.text + second.text],
                                      r.mappings + ms))
  {
    var id := MetadataId(first.reservedAppText1);
    var r1 := ConfigureChannels(r, first, parser).value;
    assert Pending(r, id) == "";
    assert Pending(r1, id) == first.text;
    assert r.pending[id := first.text][id := first.text + second.text] == r.pending[id := first.text + second.text];
  }

  /**
   * A block whose id was used before continues the old text: re-reading a
   * complete block resolves the old text followed by the new one, so a
   * document sent twice is only picked up again if the doubled text parses.
   */
  lemma StaleBlockContinues(r: Resolver, obj: AppText, parser: Parser)
    requires obj.source == MetaData && IsLastFragment(obj)
    requires MetadataId(obj.reservedAppText1) in r.pending
    ensures ConfigureChannels(r, obj, parser).Ok? <==>
            DocumentMappings(parser, r.pending[MetadataId(obj.reservedAppText1)] + obj.text).Ok?
    ensures ConfigureChannels(r, obj, parser).Ok? ==>
            ConfigureChannels(r, obj, parser).value.mappings
              == r.mappings + DocumentMappings(parser, r.pending[MetadataId(obj.reservedAppText1)] + obj.text).value
  {
  }

  /** Feeding the same inline record twice adds its mapping twice. */
  lemma DbChannelTwice(r: Resolver, obj: AppText, parser: Parser)
    requires obj.source == DbChannelInfo && DbChannelMapping(obj).Some?
    ensures var r1 := ConfigureChannels(r, obj, parser).value;
      ConfigureChannels(r1, obj, parser) == Ok(r.(mappings := r.mappings + [DbChannelMapping(obj).value, DbChannelMapping(obj).value]))
  {
    var m := DbChannelMapping(obj).value;
    assert r.mappings + [m] + [m] == r.mappings + [m, m];
  }
}

=== FILE: dispatch.dfy ===
/**
 * The conversion loop of `main` (src/app.cpp:874-1038): read records until
 * the reader stops, convert each bus record to output frames, feed each
 * `APP_TEXT` record to the channel resolver, and skip everything else.
 */
module Dispatch {
  import opened Wrappers
  import opened Bits
  import opened Timestamps
  import opened Frames
  import opened Blf
  import opened Channels
  import Xml
  import CanEncoders
  import EthernetEncoders
  import FlexRayEncoders
  import FlexRayLayout
  import CanFrame
  import LinEncoders

  /** One `infile.read()`: a record, or null (end of data, or an exception the loop catches). */
  datatype ReadResult = Read(obj: BlfObject) | ReadFailure

  /** The resolver's state and the frames written so far. */
  datatype State = State(resolver: Resolver, frames: seq<Frame>)

  const START: State := State(INITIAL, [])

  /**
   * The conditions under which the encoders stay inside the buffers they
   * copy into (otherwise the copy is undefined behaviour).
   */
  predicate WellFormed(o: BlfObject)
  {
    match o
    case CanMessageObject(m) => CanEncoders.FrameFits(m.dlc, m.data)
    case CanMessage2Object(m) => CanEncoders.FrameFits(m.dlc, m.data)
    case CanFdMessageObject(m) => CanEncoders.FrameFits(m.validDataBytes, m.data)
    case CanFdMessage64Object(m) => CanEncoders.FrameFits(m.validDataBytes, m.data)
    case FlexRayDataObject(r) => |r.dataBytes| <= FlexRayEncoders.FRAME_BUFFER - FlexRayLayout.PREFIX_SIZE
    case FlexRaySyncObject(r) => |r.dataBytes| <= FlexRayEncoders.FRAME_BUFFER - FlexRayLayout.PREFIX_SIZE
    case FlexRayCycleObject(r) => |r.dataBytes| <= FlexRayEncoders.FRAME_BUFFER - FlexRayLayout.PREFIX_SIZE
    case FlexRayMessageObject(r) => |r.dataBytes| <= FlexRayEncoders.FRAME_BUFFER - FlexRayLayout.PREFIX_SIZE
    case FrStatusObject(r) => |r.data| >= 2
    case FrStartCycleObject(r) => |r.dataBytes| <= FlexRayEncoders.START_CYCLE_BUFFER - FlexRayLayout.PREFIX_SIZE
    case FrRcvMessageObject(r) => |r.dataBytes| <= FlexRayEncoders.FRAME_BUFFER - FlexRayLayout.PREFIX_SIZE
    case FrRcvMessageExObject(r) => |r.dataBytes| < TWO_16
    case LinMessageObject(m) => |m.data| <= LinEncoders.LIN_DATA_SIZE
    case LinMessage2Object(m) => |m.data| <= LinEncoders.LIN_DATA_SIZE
    case _ => true
  }

  predicate AllWellFormed(results: seq<ReadResult>)
  {
    forall k :: 0 <= k < |results| && results[k].Read? ==> WellFormed(results[k].obj)
  }

  /**
   * The link layer a record's frames are written on, or `None` for the
   * records the loop does not convert: `APP_TEXT` (configuration),
   * `FLEXRAY_STATUS` (deliberately skipped) and any other object type.
   */
  function Route(o: BlfObject): Option<LinkType>
  {
    match o
    case CanMessageObject(_) => Some(LinkCan)
    case CanMessage2Object(_) => Some(LinkCan)
    case CanErrorObject(_) => Some(LinkCan)
    case CanErrorExtObject(_) => Some(LinkCan)
    case CanFdMessageObject(_) => Some(LinkCan)
    case CanFdMessage64Object(_) => Some(LinkCan)
    case CanFdError64Object(_) => Some(LinkCan)
    case EthernetFrameObject(_) => Some(LinkEthernet)
    case EthernetFrameExObject(_) => Some(LinkEthernet)
    case EthernetFrameForwardedObject(_) => Some(LinkEthernet)
    case FlexRayDataObject(_) => Some(LinkFlexRay)
    case FlexRaySyncObject(_) => Some(LinkFlexRay)
    case FlexRayCycleObject(_) => Some(LinkFlexRay)
    case FlexRayMessageObject(_) => Some(LinkFlexRay)
    case FlexRayStatusObject(_) => None
    case FrErrorObject(_) => Some(LinkFlexRay)
    case FrStatusObject(_) => Some(LinkFlexRay)
    case FrStartCycleObject(_) => Some(LinkFlexRay)
    case FrRcvMessageObject(_) => Some(LinkFlexRay)
    case FrRcvMessageExObject(_) => Some(LinkFlexRay)
    case AppTextObject(_) => None
    case LinMessageObject(_) => Some(LinkLin)
    case LinMessage2Object(_) => Some(LinkLin)
    case LinErrorObject(_, _) => Some(LinkLin)
    case OtherObject(_) => None
  }

  /** The object header of a converted record. */
  function HeaderOf(o: BlfObject): ObjectHeader
    requires Route(o).Some?
  {
    match o
    case CanMessageObject(m) => m.header
    case CanMessage2Object(m) => m.header
    case CanErrorObject(h) => h
    case CanErrorExtObject(h) => h
    case CanFdMessageObject(m) => m.header
    case CanFdMessage64Object(m) => m.header
    case CanFdError64Object(h) => h
    case EthernetFrameObject(e) => e.header
    case EthernetFrameExObject(e) => e.header
    case EthernetFrameForwardedObject(e) => e.header
    case FlexRayDataObject(r) => r.header
    case FlexRaySyncObject(r) => r.header
    case FlexRayCycleObject(r) => r.header
    case FlexRayMessageObject(r) => r.header
    case FrErrorObject(r) => r.header
    case FrStatusObject(r) => r.header
    case FrStartCycleObject(r) => r.header
    case FrRcvMessageObject(r) => r.header
    case FrRcvMessageExObject(r) => r.header
    case LinMessageObject(m) => m.header
    case LinMessage2Object(m) => m.header
    case LinErrorObject(_, h) => h
  }

  /** The link layer of an output frame. */
  function FrameLink(f: Frame): LinkType
  {
    match f
    case Packet(_, link, _, _, _) => link
    case LinPacket(_, _, _) => LinkLin
  }

  /**
   * What converting a bus record means: a frame is written exactly when the
   * record's timestamp resolution is known, on the record's link layer and
   * at the record's resolved time; no writer divides by zero.
   */
  predicate Converts(h: ObjectHeader, link: LinkType, dateNs: u64, w: Written)
  {
    && !w.DivisionByZero?
    && (w.Written? <==> h.objectFlags != OtherFlags)
    && (w.Written? ==>
          && FrameLink(w.frame) == link
          && w.frame.ts == Resolve(h.objectFlags, h.objectTimeStamp, dateNs).value)
  }

  /**
   * What a reader of the frame written for record `o` sees, record family by
   * record family, through the independent decoders: the decoded CAN
   * fields, the parsed Ethernet frame, the FlexRay frame view or the LIN
   * frame, together with the channel key and direction flags.
   */
  predicate Carries(o: BlfObject, f: Frame)
    requires WellFormed(o)
  {
    match o
    case CanMessageObject(m) => CanMessageCarried(m, f)
    case CanMessage2Object(m) => CanMessageCarried(m, f)
    case CanErrorObject(h) => CanErrorCarried(h, f)
    case CanErrorExtObject(h) => CanErrorCarried(h, f)
    case CanFdError64Object(h) => CanErrorCarried(h, f)
    case CanFdMessageObject(m) =>
      && f.Packet? && f.channelKey == m.header.channel && f.flags == CanEncoders.CanDirection(m.flags)
      && (m.validDataBytes as int <= CanFrame.MAX_DATA ==>
            CanFrame.Decode(f.payload)
            == Some(CanEncoders.Expected(m.id, HasFlag(m.flags, 7), HasFlag(m.canFdFlags, 2), HasFlag(m.canFdFlags, 1),
                                         m.validDataBytes, m.data)))
    case CanFdMessage64Object(m) =>
      && f.Packet? && f.channelKey == m.header.channel && f.flags == 0
      && (m.validDataBytes as int <= CanFrame.MAX_DATA ==>
            CanFrame.Decode(f.payload)
            == Some(CanEncoders.Expected(m.id, HasFlag(m.flags, 4), HasFlag(m.flags, 14), HasFlag(m.flags, 13),
                                         m.validDataBytes, m.data)))
    case EthernetFrameObject(e) =>
      && f.Packet? && f.channelKey == e.header.channel && f.flags == EthernetEncoders.EthernetDirection(e.dir)
      && EthernetEncoders.ParseEthernet(f.payload, e.tpid != 0)
         == Some(EthernetEncoders.EthernetFields(e.destinationAddress, e.sourceAddress, e.tpid,
                                                 if e.tpid != 0 then e.tci else 0, e.ethType, e.payLoad))
    case EthernetFrameExObject(e) => EthernetExCarried(e, f)
    case EthernetFrameForwardedObject(e) => EthernetExCarried(e, f)
    case FlexRayDataObject(_) => FlexRayFrameCarried(o, f)
    case FlexRaySyncObject(_) => FlexRayFrameCarried(o, f)
    case FlexRayCycleObject(_) => FlexRayFrameCarried(o, f)
    case FlexRayMessageObject(_) => FlexRayFrameCarried(o, f)
    case FlexRayStatusObject(_) => false
    case FrErrorObject(_) => FrEventCarried(o, f)
    case FrStatusObject(r) => FrStatusCarried(r, f)
    case FrStartCycleObject(_) => FrEventCarried(o, f)
    case FrRcvMessageObject(r) => FlexRayCarried(r.header, f, FlexRayEncoders.ReceiveView(r))
    case FrRcvMessageExObject(r) => FlexRayCarried(r.header, f, FlexRayEncoders.ReceiveView(r))
    case AppTextObject(_) => false
    case LinMessageObject(m) => f.LinPacket? && f.channel == m.header.channel && f.lin == LinEncoders.MessageFrame(m)
    case LinMessage2Object(m) => f.LinPacket? && f.channel == m.header.channel && f.lin == LinEncoders.MessageFrame(m)
    case LinErrorObject(kind, h) =>
      f.LinPacket? && f.channel == h.channel && f.lin == LinEncoders.ErrorFrame(LinEncoders.ErrorsFor(kind))
    case OtherObject(_) => false
  }

  /** CAN_MESSAGE and CAN_MESSAGE2: RTR from flag bit 7, direction from flag bit 0, the record's id, length and data. */
  predicate CanMessageCarried(m: CanMessage, f: Frame)
    requires |m.data| <= CanFrame.MAX_DATA
  {
    && f.Packet? && f.channelKey == m.header.channel && f.flags == CanEncoders.CanDirection(m.flags)
    && (m.dlc as int <= CanFrame.MAX_DATA ==>
          CanFrame.Decode(f.payload) == Some(CanEncoders.Expected(m.id, HasFlag(m.flags, 7), false, false, m.dlc, m.data)))
  }

  /** The three CAN error records: the fixed error frame, ERR set and eight zero data bytes, no direction. */
  predicate CanErrorCarried(h: ObjectHeader, f: Frame)
  {
    && f.Packet? && f.channelKey == h.channel && f.flags == 0
    && CanFrame.Decode(f.payload) == Some(CanFrame.Fields(0, false, false, true, false, false, 8, seq(8, _ => 0)))
  }

  /** ETHERNET_FRAME_EX and its forwarded variant: the frame data, then the checksum exactly when flag bit 3 is set. */
  predicate EthernetExCarried(e: EthernetFrameEx, f: Frame)
  {
    && f.Packet? && f.channelKey == ChannelKey(e.hardwareChannel, e.header.channel)
    && f.flags == EthernetEncoders.EthernetDirection(e.dir)
    && |f.payload| >= |e.frameData| && f.payload[..|e.frameData|] == e.frameData
    && (HasFlag(e.flags, 3) <==> |f.payload| == |e.frameData| + 4)
    && (HasFlag(e.flags, 3) ==> EthernetEncoders.ReadLe32(f.payload[|e.frameData|..]) == e.frameChecksum)
  }

  /** The FlexRay frame records of the older family: type 1, no channel mask, no error flags. */
  predicate FlexRayFrameCarried(o: BlfObject, f: Frame)
    requires WellFormed(o)
    requires o.FlexRayDataObject? || o.FlexRaySyncObject? || o.FlexRayCycleObject? || o.FlexRayMessageObject?
  {
    match o
    case FlexRayDataObject(r) =>
      FlexRayCarried(r.header, f,
                     FlexRayEncoders.FrameView(FlexRayLayout.MeasurementHeader(FlexRayLayout.FlexRayFrame, 0), 0,
                                               FlexRayEncoders.Fields(FlexRayLayout.NULL_FRAME_INDICATOR, |r.dataBytes| / 2,
                                                                      0, r.messageId, r.crc),
                                               r.dataBytes))
    case FlexRaySyncObject(r) =>
      FlexRayCarried(r.header, f,
                     FlexRayEncoders.FrameView(FlexRayLayout.MeasurementHeader(FlexRayLayout.FlexRayFrame, 0), 0,
                                               FlexRayEncoders.Fields(FlexRayLayout.NULL_FRAME_INDICATOR | FlexRayLayout.SYNC,
                                                                      |r.dataBytes| / 2, r.cycle, r.messageId, r.crc),
                                               r.dataBytes))
    case FlexRayCycleObject(r) =>
      FlexRayCarried(r.header, f,
                     FlexRayEncoders.FrameView(FlexRayLayout.MeasurementHeader(FlexRayLayout.FlexRayFrame, 0), 0,
                                               FlexRayEncoders.Fields(FlexRayLayout.NULL_FRAME_INDICATOR, |r.dataBytes| / 2,
                                                                      0, 0, 0),
                                               r.dataBytes))
    case FlexRayMessageObject(r) =>
      FlexRayCarried(r.header, f,
                     FlexRayEncoders.FrameView(FlexRayLayout.MeasurementHeader(FlexRayLayout.FlexRayFrame, 0), 0,
                                               FlexRayEncoders.Fields(FlexRayLayout.SetHeaderFlags(r.frameState, 0),
                                                                      |r.dataBytes| / 2, r.cycle, r.frameId, r.headerCrc),
                                               r.dataBytes))
  }

  /** FR_ERROR and FR_STARTCYCLE: the channel bit and the cycle, with the coding-error flag for FR_ERROR. */
  predicate FrEventCarried(o: BlfObject, f: Frame)
    requires WellFormed(o)
    requires o.FrErrorObject? || o.FrStartCycleObject?
  {
    match o
    case FrErrorObject(r) =>
      FlexRayCarried(r.header, f,
                     FlexRayEncoders.FrameView(FlexRayLayout.MeasurementHeader(FlexRayLayout.FlexRayFrame, r.channelMask),
                                               FlexRayEncoders.CODING_ERROR,
                                               FlexRayEncoders.Fields(FlexRayLayout.NULL_FRAME_INDICATOR, 0, r.cycle, 0, 0),
                                               []))
    case FrStartCycleObject(r) =>
      FlexRayCarried(r.header, f,
                     FlexRayEncoders.FrameView(FlexRayLayout.MeasurementHeader(FlexRayLayout.FlexRayFrame, r.channelMask), 0,
                                               FlexRayEncoders.Fields(FlexRayLayout.NULL_FRAME_INDICATOR, |r.dataBytes| / 2,
                                                                      r.cycle, 0, 0),
                                               r.dataBytes))
  }

  /** FR_STATUS: a symbol packet, type 2 with the channel bit, then the symbol length of tags 3 and 5. */
  predicate FrStatusCarried(r: FlexRayVFrStatus, f: Frame)
    requires |r.data| >= 2
  {
    && f.Packet? && f.channelKey == r.header.channel && f.flags == 0 && |f.payload| == 2
    && (f.payload[0] & 0x7F) == 0x02
    && ((f.payload[0] & 0x80) != 0 <==> r.channelMask == 2 || r.channelMask == 3)
    && f.payload[1] as bv32 == (if r.tag == 3 then r.data[1] & 0xFF else if r.tag == 5 then r.data[0] & 0xFF else 0)
  }

  /** A FlexRay packet on the record's channel, no direction, that reads back as `view`. */
  predicate FlexRayCarried(h: ObjectHeader, f: Frame, view: FlexRayEncoders.FrameView)
  {
    f.Packet? && f.channelKey == h.channel && f.flags == 0 && FlexRayEncoders.ReadFrame(f.payload) == Some(view)
  }

  /** The CAN message cases of the `switch`. */
  function EncodeCanMessages(o: BlfObject, dateNs: u64): (w: Written)
    requires WellFormed(o)
    requires o.CanMessageObject? || o.CanMessage2Object? || o.CanFdMessageObject? || o.CanFdMessage64Object?
    ensures Route(o).Some? && Converts(HeaderOf(o), Route(o).value, dateNs, w)
    ensures w.Written? ==> Carries(o, w.frame)
  {
    match o
    case CanMessageObject(m) => CanEncoders.EncodeCanMessage(m, dateNs)
    case CanMessage2Object(m) => CanEncoders.EncodeCanMessage(m, dateNs)
    case CanFdMessageObject(m) => CanEncoders.EncodeCanFdMessage(m, dateNs)
    case CanFdMessage64Object(m) => CanEncoders.EncodeCanFdMessage64(m, dateNs)
  }

  /** The CAN error cases: the three error records share one writer. */
  function EncodeCanErrors(o: BlfObject, dateNs: u64): (w: Written)
    requires o.CanErrorObject? || o.CanErrorExtObject? || o.CanFdError64Object?
    ensures Route(o).Some? && Converts(HeaderOf(o), Route(o).value, dateNs, w)
    ensures w.Written? ==> Carries(o, w.frame)
  {
    CanEncoders.EncodeCanError(o.errorHeader, dateNs)
  }

  /** The Ethernet cases; forwarded frames are written like `ETHERNET_FRAME_EX`. */
  function EncodeEthernet(o: BlfObject, dateNs: u64): (w: Written)
    requires WellFormed(o) && Route(o) == Some(LinkEthernet)
    ensures Route(o).Some? && Converts(HeaderOf(o), Route(o).value, dateNs, w)
    ensures w.Written? ==> Carries(o, w.frame)
  {
    match o
    case EthernetFrameObject(e) => EthernetEncoders.EncodeEthernetFrame(e, dateNs)
    case EthernetFrameExObject(e) => EthernetEncoders.EncodeEthernetFrameEx(e, dateNs)
    case EthernetFrameForwardedObject(e) => EthernetEncoders.EncodeEthernetFrameEx(e, dateNs)
  }

  /** The FLEXRAY_DATA and FLEXRAY_SYNC cases of the older record family. */
  function EncodeFlexRayFrame(o: BlfObject, dateNs: u64): (w: Written)
    requires WellFormed(o)
    requires o.FlexRayDataObject? || o.FlexRaySyncObject?
    ensures Route(o).Some? && Converts(HeaderOf(o), Route(o).value, dateNs, w)
    ensures w.Written? ==> Carries(o, w.frame)
  {
    match o
    case FlexRayDataObject(r) => FlexRayEncoders.EncodeFlexRayData(r, dateNs)
    case FlexRaySyncObject(r) => FlexRayEncoders.EncodeFlexRaySync(r, dateNs)
  }

  /** The FLEXRAY_CYCLE and FLEXRAY_MESSAGE cases (the version 6 records). */
  function EncodeFlexRayV6(o: BlfObject, dateNs: u64): (w: Written)
    requires WellFormed(o)
    requires o.FlexRayCycleObject? || o.FlexRayMessageObject?
    ensures Route(o).Some? && Converts(HeaderOf(o), Route(o).value, dateNs, w)
    ensures w.Written? ==> Carries(o, w.frame)
  {
    match o
    case FlexRayCycleObject(r) => FlexRayEncoders.EncodeFlexRayCycle(r, dateNs)
    case FlexRayMessageObject(r) => FlexRayEncoders.EncodeFlexRayMessage(r, dateNs)
  }

  /** The FlexRay error and start-of-cycle cases of the `FR_*` record family. */
  function EncodeFrEvent(o: BlfObject, dateNs: u64): (w: Written)
    requires WellFormed(o)
    requires o.FrErrorObject? || o.FrStartCycleObject?
    ensures Route(o).Some? && Converts(HeaderOf(o), Route(o).value, dateNs, w)
    ensures w.Written? ==> Carries(o, w.frame)
  {
    match o
    case FrErrorObject(r) => FlexRayEncoders.EncodeFrError(r, dateNs)
    case FrStartCycleObject(r) => FlexRayEncoders.EncodeFrStartCycle(r, dateNs)
  }

  /** The FR_STATUS case: a symbol record. */
  function EncodeFrStatusRecord(o: BlfObject, dateNs: u64): (w: Written)
    requires WellFormed(o) && o.FrStatusObject?
    ensures Route(o).Some? && Converts(HeaderOf(o), Route(o).value, dateNs, w)
    ensures w.Written? ==> Carries(o, w.frame)
  {
    FlexRayEncoders.EncodeFrStatus(o.frStatus, dateNs)
  }

  /** The received-frame cases of the `FR_*` record family. */
  function EncodeFrReceive(o: BlfObject, dateNs: u64): (w: Written)
    requires WellFormed(o)
    requires o.FrRcvMessageObject? || o.FrRcvMessageExObject?
    ensures Route(o).Some? && Converts(HeaderOf(o), Route(o).value, dateNs, w)
    ensures w.Written? ==> Carries(o, w.frame)
  {
    match o
    case FrRcvMessageObject(r) => FlexRayEncoders.EncodeFrReceiveMsg(r, dateNs)
    case FrRcvMessageExObject(r) => FlexRayEncoders.EncodeFrReceiveMsgEx(r, dateNs)
  }

  /**
   * The LIN cases. They use the corrected writers, which skip a record of
   * unknown resolution like every other writer does.
   */
  function EncodeLin(o: BlfObject, dateNs: u64): (w: Written)
    requires WellFormed(o) && Route(o) == Some(LinkLin)
    ensures Route(o).Some? && Converts(HeaderOf(o), Route(o).value, dateNs, w)
    ensures w.Written? ==> Carries(o, w.frame)
  {
    match o
    case LinMessageObject(m) => LinEncoders.WriteLinMessage(m, dateNs)
    case LinMessage2Object(m) => LinEncoders.WriteLinMessage(m, dateNs)
    case LinErrorObject(kind, h) => LinEncoders.WriteLinError(h, LinEncoders.ErrorsFor(kind), dateNs)
  }

  /** The `switch` over the object type, for the records that are not configuration. */
  function Encode(o: BlfObject, dateNs: u64): (w: Option<Written>)
    requires WellFormed(o)
    ensures w.None? <==> Route(o).None?
    ensures w.Some? ==> Converts(HeaderOf(o), Route(o).value, dateNs, w.value)
    ensures w.Some? && w.value.Written? ==> Carries(o, w.value.frame)
  {
    match Route(o)
    case None => None
    case Some(LinkCan) =>
      if o.CanErrorObject? || o.CanErrorExtObject? || o.CanFdError64Object? then Some(EncodeCanErrors(o, dateNs))
      else Some(EncodeCanMessages(o, dateNs))
    case Some(LinkEthernet) => Some(EncodeEthernet(o, dateNs))
    case Some(LinkLin) => Some(EncodeLin(o, dateNs))
    case Some(LinkFlexRay) =>
      if o.FlexRayDataObject? || o.FlexRaySyncObject? then Some(EncodeFlexRayFrame(o, dateNs))
      else if o.FlexRayCycleObject? || o.FlexRayMessageObject? then Some(EncodeFlexRayV6(o, dateNs))
      else if o.FrErrorObject? || o.FrStartCycleObject? then Some(EncodeFrEvent(o, dateNs))
      else if o.FrStatusObject? then Some(EncodeFrStatusRecord(o, dateNs))
      else Some(EncodeFrReceive(o, dateNs))
  }

  /** The frames after a writer call: one more if it wrote one. */
  function Emit(frames: seq<Frame>, w: Option<Written>): seq<Frame>
  {
    if w.Some? && w.value.Written? then frames + [w.value.frame] else frames
  }

  /**
   * Where the loop departs from the program: a LIN record of unknown time
   * format, on which `write_lin_message` as written divides by zero, is
   * skipped by the loop (which calls the corrected writer) and the loop
   * carries on.
   */
  lemma LinUnknownFormatSkipped(st: State, m: LinMessage, dateNs: u64, parser: Xml.Parser)
    requires |m.data| <= LinEncoders.LIN_DATA_SIZE
    requires m.header.objectFlags == OtherFlags
    ensures LinEncoders.WriteLinMessageAsWritten(m, dateNs) == DivisionByZero
    ensures Step(st, LinMessageObject(m), dateNs, parser) == Ok(st)
  {
  }

  /** One iteration of the loop body. */
  function Step(st: State, o: BlfObject, dateNs: u64, parser: Xml.Parser): (r: Result<State, Fault>)
    requires WellFormed(o)
    ensures !o.AppTextObject? ==> r.Ok? && r.value.resolver == st.resolver
    ensures !o.AppTextObject? && Route(o).Some? ==>
      (HeaderOf(o).objectFlags != OtherFlags <==> |r.value.frames| == |st.frames| + 1)
    ensures !o.AppTextObject? && (Route(o).None? || HeaderOf(o).objectFlags == OtherFlags) ==> r.value.frames == st.frames
    ensures o.AppTextObject? ==> (r.Ok? <==> ConfigureChannels(st.resolver, o.appText, parser).Ok?)
    ensures o.AppTextObject? && r.Ok? ==> r.value == State(ConfigureChannels(st.resolver, o.appText, parser).value, st.frames)
    ensures r.Ok? ==> st.frames <= r.value.frames && |r.value.frames| <= |st.frames| + 1
    ensures r.Ok? ==> st.resolver.mappings <= r.value.resolver.mappings
  {
    if o.AppTextObject? then
      match ConfigureChannels(st.resolver, o.appText, parser)
      case Err(f) => Err(f)
      case Ok(resolver) =>
        ConfigureChannelsAppends(st.resolver, o.appText, parser);
        Ok(st.(resolver := resolver))
    else Ok(st.(frames := Emit(st.frames, Encode(o, dateNs))))
  }

  /**
   * The loop from state `st` over the remaining reads: it ends at the end
   * of the data or at the first failed read, and a resolver fault ends the
   * whole conversion.
   */
  function RunFrom(st: State, results: seq<ReadResult>, dateNs: u64, parser: Xml.Parser): (r: Result<State, Fault>)
    requires AllWellFormed(results)
    ensures r.Ok? ==> st.frames <= r.value.frames && st.resolver.mappings <= r.value.resolver.mappings
    ensures r.Ok? ==> |r.value.frames| <= |st.frames| + |results|
    decreases |results|
  {
    if results == [] || results[0].ReadFailure? then Ok(st)
    else
      match Step(st, results[0].obj, dateNs, parser)
      case Err(f) => Err(f)
      case Ok(next) => RunFrom(next, results[1..], dateNs, parser)
  }

  /** One unfolding of the loop over a non-empty tail. */
  lemma RunFromFirst(st: State, results: seq<ReadResult>, dateNs: u64, parser: Xml.Parser)
    requires AllWellFormed(results) && results != []
    ensures AllWellFormed(results[1..])
    ensures results[0].ReadFailure? ==> RunFrom(st, results, dateNs, parser) == Ok(st)
    ensures results[0].Read? ==> WellFormed(results[0].obj)
    ensures results[0].Read? && Step(st, results[0].obj, dateNs, parser).Err? ==>
              RunFrom(st, results, dateNs, parser) == Step(st, results[0].obj, dateNs, parser)
    ensures results[0].Read? && Step(st, results[0].obj, dateNs, parser).Ok? ==>
              RunFrom(st, results, dateNs, parser)
                == RunFrom(Step(st, results[0].obj, dateNs, parser).value, results[1..], dateNs, parser)
  {
    assert forall k :: 0 <= k < |results| - 1 ==> results[1..][k] == results[k + 1];
  }

  /** Nothing after a failed read is processed. */
  lemma {:induction false} StopsAtReadFailure(st: State, before: seq<ReadResult>, after: seq<ReadResult>,
                                               dateNs: u64, parser: Xml.Parser)
    requires AllWellFormed(before + [ReadFailure] + after)
    ensures AllWellFormed(before)
    ensures RunFrom(st, before + [ReadFailure] + after, dateNs, parser) == RunFrom(st, before, dateNs, parser)
    decreases |before|
  {
    var results := before + [ReadFailure] + after;
    assert forall k :: 0 <= k < |before| ==> before[k] == results[k];
    if before != [] && before[0].Read? {
      assert results[1..] == before[1..] + [ReadFailure] + after;
      match Step(st, before[0].obj, dateNs, parser)
      case Err(_) =>
      case Ok(next) => StopsAtReadFailure(next, before[1..], after, dateNs, parser);
    }
  }

  /** Records of unknown resolution and records the loop does not convert add no frame. */
  lemma {:induction false} SkippedRecordsWriteNothing(st: State, results: seq<ReadResult>, dateNs: u64, parser: Xml.Parser)
    requires AllWellFormed(results)
    requires forall k :: 0 <= k < |results| && results[k].Read? ==>
               !results[k].obj.AppTextObject? && (Route(results[k].obj).None? || HeaderOf(results[k].obj).objectFlags == OtherFlags)
    ensures RunFrom(st, results, dateNs, parser) == Ok(st)
  {
    if results != [] && results[0].Read? {
      SkippedRecordsWriteNothing(st, results[1..], dateNs, parser);
    }
  }

  /** `main`'s loop, iterating over the reads in order. */
  method Convert(results: seq<ReadResult>, dateNs: u64, parser: Xml.Parser) returns (r: Result<State, Fault>)
    requires AllWellFormed(results)
    ensures r == RunFrom(START, results, dateNs, parser)
    ensures r.Ok? ==> |r.value.frames| <= |results|
  {
    var st := START;
    var i := 0;
    assert results[0..] == results;
    while i < |results|
      invariant 0 <= i <= |results|
      invariant AllWellFormed(results[i..])
      invariant RunFrom(START, results, dateNs, parser) == RunFrom(st, results[i..], dateNs, parser)
      invariant |st.frames| <= i
    {
      RunFromFirst(st, results[i..], dateNs, parser);
      assert results[i..][0] == results[i];
      assert results[i..][1..] == results[i + 1..];
      if results[i].ReadFailure? {
        return Ok(st);
      }
      var next := Step(st, results[i].obj, dateNs, parser);
      if next.Err? {
        return next;
      }
      st := next.value;
      i := i + 1;
    }
    return Ok(st);
  }

  /** The inline record `A;can0` for CAN channel 1 adds exactly its mapping. */
  lemma InlineRecordStep(st: State, dateNs: u64, parser: Xml.Parser)
    ensures var text := AppText(DbChannelInfo, 0x0001_0100, 6, "A;can0");
      Step(st, AppTextObject(text), dateNs, parser)
        == Ok(st.(resolver := st.resolver.(mappings := st.resolver.mappings + [Mapping(Some(1), Some(LinkCan), Some("can0"))])))
  {
    var text := AppText(DbChannelInfo, 0x0001_0100, 6, "A;can0");
    assert DbChannelId(0x0001_0100) == 1;
    assert DbBusType(0x0001_0100) == 1;
    DbChannelNamed(text, "A", "can0");
  }

  /**
   * The frame of CAN message `msg` on `channel` stamped `dateNs`: it reads
   * back with the message's identifier, RTR bit, length and data.
   */
  predicate CanFrameAt(f: Frame, msg: CanMessage, channel: nat, dateNs: nat)
    requires |msg.data| <= CanFrame.MAX_DATA
  {
    f.Packet? && f.link == LinkCan && f.channelKey == channel && ToNs(f.ts) == dateNs && CanMessageCarried(msg, f)
  }

  /** A CAN message at tick 0 with nanosecond stamps is written once, at the start date. */
  lemma CanMessageAtStart(st: State, msg: CanMessage, dateNs: u64, parser: Xml.Parser)
    requires msg.header.objectFlags == TimeOneNans && msg.header.objectTimeStamp == 0
    requires CanEncoders.FrameFits(msg.dlc, msg.data)
    requires dateNs < TWO_63
    ensures Step(st, CanMessageObject(msg), dateNs, parser).Ok?
    ensures var st' := Step(st, CanMessageObject(msg), dateNs, parser).value;
      && st'.resolver == st.resolver
      && |st'.frames| == |st.frames| + 1
      && st'.frames[..|st.frames|] == st.frames
      && CanFrameAt(st'.frames[|st.frames|], msg, msg.header.channel, dateNs)
  {
    ResolveExact(TimeOneNans, 0, dateNs);
    var w := CanEncoders.EncodeCanMessage(msg, dateNs);
    assert Encode(CanMessageObject(msg), dateNs) == Some(w);
  }

  /** The loop over two records runs both steps in order. */
  lemma RunTwo(st: State, a: BlfObject, b: BlfObject, dateNs: u64, parser: Xml.Parser)
    requires WellFormed(a) && WellFormed(b)
    ensures AllWellFormed([Read(a), Read(b)])
    ensures RunFrom(st, [Read(a), Read(b)], dateNs, parser)
            == match Step(st, a, dateNs, parser)
               case Err(f) => Err(f)
               case Ok(st1) => Step(st1, b, dateNs, parser)
  {
    var results := [Read(a), Read(b)];
    RunFromFirst(st, results, dateNs, parser);
    assert results[1..] == [Read(b)];
    match Step(st, a, dateNs, parser)
    case Err(_) =>
    case Ok(st1) =>
      RunFromFirst(st1, [Read(b)], dateNs, parser);
      assert [Read(b)][1..] == [];
  }

  /**
   * The end-to-end case: an inline record maps CAN channel 1 to `can0`,
   * then a CAN message on channel 1 at tick 0 is written as one CAN frame
   * on channel 1 at the measurement's start date, reading back with the
   * message's identifier and data. `dateNs < 2^63` holds for any start date
   * `Timestamps.StartDateNs` accepts, since it requires the value to fit int64.
   */
  lemma InlineMappingThenMessage(msg: CanMessage, dateNs: u64)
    requires msg.header == ObjectHeader(1, TimeOneNans, 0) && CanEncoders.FrameFits(msg.dlc, msg.data)
    requires dateNs < TWO_63
    ensures AllWellFormed([Read(AppTextObject(AppText(DbChannelInfo, 0x0001_0100, 6, "A;can0"))), Read(CanMessageObject(msg))])
    ensures var r := RunFrom(START, [Read(AppTextObject(AppText(DbChannelInfo, 0x0001_0100, 6, "A;can0"))),
                                     Read(CanMessageObject(msg))], dateNs, map[]);
      && r.Ok?
      && r.value.resolver.mappings == [Mapping(Some(1), Some(LinkCan), Some("can0"))]
      && |r.value.frames| == 1
      && CanFrameAt(r.value.frames[0], msg, 1, dateNs)
  {
    var text := AppText(DbChannelInfo, 0x0001_0100, 6, "A;can0");
    RunTwo(START, AppTextObject(text), CanMessageObject(msg), dateNs, map[]);
    InlineRecordStep(START, dateNs, map[]);
    var st1 := Step(START, AppTextObject(text), dateNs, map[]).value;
    CanMessageAtStart(st1, msg, dateNs, map[]);
  }
}

=== FILE: ethernet_encoders.dfy ===
/**
 * The Ethernet encoders (src/app.cpp:305-378): ETHERNET_FRAME rebuilds the
 * frame from its fields, ETHERNET_FRAME_EX and ETHERNET_FRAME_FORWARDED
 * pass the stored frame on with an optional trailing checksum.
 */
module EthernetEncoders {
  import opened Wrappers
  import opened Bits
  import opened Timestamps
  import opened Frames
  import opened Blf

  /** The direction switch: 0 is inbound, 1 outbound, anything else unknown (0). */
  function EthernetDirection(dir: u16): (d: nat)
    ensures d == DIR_IN <==> dir == 0
    ensures d == DIR_OUT <==> dir == 1
    ensures d == 0 <==> dir > 1
  {
    if dir == 0 then DIR_IN else if dir == 1 then DIR_OUT else 0
  }

  /** A 16-bit value in network byte order. */
  function Be16(x: bv16): (b: seq<byte>)
    ensures |b| == 2
  {
    [(x >> 8) as byte, (x & 0xFF) as byte]
  }

  /** Two bytes in network byte order read back as a 16-bit value. */
  function ReadBe16(b0: byte, b1: byte): bv16
  {
    ((b0 as bv16) << 8) | (b1 as bv16)
  }

  lemma Be16RoundTrip(x: bv16)
    ensures ReadBe16(Be16(x)[0], Be16(x)[1]) == x
  {
  }

  /** The 802.1Q tag inserted when the record's TPID is non-zero. */
  function VlanTag(tpid: bv16, tci: bv16): seq<byte>
  {
    if tpid != 0 then Be16(tpid) + Be16(tci) else []
  }

  /** The frame bytes: destination, source, optional VLAN tag, type, payload. */
  function EthernetBytes(e: EthernetFrame): (p: seq<byte>)
    ensures |p| == 14 + (if e.tpid != 0 then 4 else 0) + |e.payLoad|
  {
    e.destinationAddress + e.sourceAddress + VlanTag(e.tpid, e.tci) + Be16(e.ethType) + e.payLoad
  }

  /** The fields a reader recovers from a frame, told whether a VLAN tag is present. */
  datatype EthernetFields = EthernetFields(destination: seq<byte>, source: seq<byte>,
                                           tpid: bv16, tci: bv16, ethType: bv16, payload: seq<byte>)

  /**
   * Reads a frame back: addresses at 0-11, a VLAN tag at 12-15 when
   * `tagged`, then the type and the payload. Too short a frame is `None`.
   */
  function ParseEthernet(p: seq<byte>, tagged: bool): (r: Option<EthernetFields>)
    ensures r.Some? <==> |p| >= (if tagged then 18 else 14)
  {
    if tagged then
      if |p| < 18 then None
      else Some(EthernetFields(p[..6], p[6..12], ReadBe16(p[12], p[13]), ReadBe16(p[14], p[15]),
                               ReadBe16(p[16], p[17]), p[18..]))
    else
      if |p| < 14 then None
      else Some(EthernetFields(p[..6], p[6..12], 0, 0, ReadBe16(p[12], p[13]), p[14..]))
  }

  /**
   * Reading the written frame with the tag flag the record implies gives
   * back the record's addresses, type and payload, and the VLAN fields when
   * the TPID is non-zero. An untagged frame loses the TCI.
   */
  lemma EthernetRoundTrip(e: EthernetFrame)
    ensures ParseEthernet(EthernetBytes(e), e.tpid != 0)
            == Some(EthernetFields(e.destinationAddress, e.sourceAddress,
                                   e.tpid, if e.tpid != 0 then e.tci else 0, e.ethType, e.payLoad))
  {
    var p := EthernetBytes(e);
    Be16RoundTrip(e.ethType);
    Be16RoundTrip(e.tpid);
    Be16RoundTrip(e.tci);
    assert p[..6] == e.destinationAddress;
    assert p[6..12] == e.sourceAddress;
    if e.tpid != 0 {
      assert p[12..14] == Be16(e.tpid) && p[14..16] == Be16(e.tci) && p[16..18] == Be16(e.ethType);
      assert p[18..] == e.payLoad;
    } else {
      assert p[12..14] == Be16(e.ethType);
      assert p[14..] == e.payLoad;
    }
  }

  /** ETHERNET_FRAME: the rebuilt frame on the record's channel with the mapped direction. */
  function EncodeEthernetFrame(e: EthernetFrame, dateNs: u64): (w: Written)
    ensures w.UnknownResolution? <==> e.header.objectFlags == OtherFlags
    ensures !w.DivisionByZero?
    ensures w.Written? ==> w.frame.Packet? && w.frame.link == LinkEthernet
    ensures w.Written? ==> w.frame.channelKey == e.header.channel
    ensures w.Written? ==> w.frame.ts == Resolve(e.header.objectFlags, e.header.objectTimeStamp, dateNs).value
    ensures w.Written? ==> w.frame.flags == EthernetDirection(e.dir)
    ensures w.Written? ==> |w.frame.payload| == 14 + (if e.tpid != 0 then 4 else 0) + |e.payLoad|
    ensures w.Written? ==> ParseEthernet(w.frame.payload, e.tpid != 0)
                           == Some(EthernetFields(e.destinationAddress, e.sourceAddress, e.tpid,
                                                  if e.tpid != 0 then e.tci else 0, e.ethType, e.payLoad))
  {
    EthernetRoundTrip(e);
    EmitPacket(LinkEthernet, e.header.channel, e.header.objectFlags, e.header.objectTimeStamp, dateNs,
               EthernetDirection(e.dir), EthernetBytes(e))
  }

  /** A 32-bit value as the four bytes of its in-memory (little-endian) representation. */
  function Le32(x: bv32): (b: seq<byte>)
    ensures |b| == 4
  {
    [Lo8(x), Lo8(x >> 8), Lo8(x >> 16), Lo8(x >> 24)]
  }

  /** Four bytes in little-endian order read back as a 32-bit value. */
  function ReadLe32(b: seq<byte>): bv32
    requires |b| == 4
  {
    (b[0] as bv32) | ((b[1] as bv32) << 8) | ((b[2] as bv32) << 16) | ((b[3] as bv32) << 24)
  }

  lemma Le32RoundTrip(x: bv32)
    ensures ReadLe32(Le32(x)) == x
  {
  }

  /** The stored frame, followed by the checksum when flag bit 3 says it is valid. */
  function EthernetExBytes(e: EthernetFrameEx): (p: seq<byte>)
    ensures HasFlag(e.flags, 3) ==> |p| == |e.frameData| + 4
    ensures !HasFlag(e.flags, 3) ==> p == e.frameData
    ensures p[..|e.frameData|] == e.frameData
  {
    e.frameData + (if HasFlag(e.flags, 3) then Le32(e.frameChecksum) else [])
  }

  /**
   * ETHERNET_FRAME_EX and ETHERNET_FRAME_FORWARDED: the frame bytes with
   * the optional checksum, keyed by hardware channel and channel, with the
   * mapped direction.
   */
  function EncodeEthernetFrameEx(e: EthernetFrameEx, dateNs: u64): (w: Written)
    ensures w.UnknownResolution? <==> e.header.objectFlags == OtherFlags
    ensures !w.DivisionByZero?
    ensures w.Written? ==> w.frame.Packet? && w.frame.link == LinkEthernet
    ensures w.Written? ==> w.frame.channelKey == ChannelKey(e.hardwareChannel, e.header.channel)
    ensures w.Written? ==> w.frame.ts == Resolve(e.header.objectFlags, e.header.objectTimeStamp, dateNs).value
    ensures w.Written? ==> w.frame.flags == EthernetDirection(e.dir)
    ensures w.Written? ==> |w.frame.payload| >= |e.frameData| && w.frame.payload[..|e.frameData|] == e.frameData
    ensures w.Written? ==> (HasFlag(e.flags, 3) <==> |w.frame.payload| == |e.frameData| + 4)
    ensures w.Written? && HasFlag(e.flags, 3) ==> ReadLe32(w.frame.payload[|e.frameData|..]) == e.frameChecksum
  {
    var p := EthernetExBytes(e);
    Le32RoundTrip(e.frameChecksum);
    assert HasFlag(e.flags, 3) ==> p[|e.frameData|..] == Le32(e.frameChecksum);
    EmitPacket(LinkEthernet, e.header.channel, e.header.objectFlags, e.header.objectTimeStamp, dateNs,
               EthernetDirection(e.dir), p, e.hardwareChannel)
  }
}

=== FILE: flexray_encoders.dfy ===
/**
 * The FlexRay encoders (src/app.cpp:494-782): each record becomes one
 * FlexRay capture record, either a frame (measurement header, error flags,
 * 5-byte frame header, payload) or a two-byte symbol, written with
 * direction flags 0 on the record's channel.
 */
module FlexRayEncoders {
  import opened Wrappers
  import opened Bits
  import opened Timestamps
  import opened Frames
  import opened Blf
  import opened FlexRayLayout

  /** The size of the fixed buffer most frame encoders fill: prefix plus 254 payload bytes. */
  const FRAME_BUFFER: nat := 261
  /** The size of the FR_STARTCYCLE buffer. */
  const START_CYCLE_BUFFER: nat := 19

  /** A frame record as a reader sees it. */
  datatype FrameView = FrameView(measurement: byte, errorFlags: byte, header: HeaderFields, data: seq<byte>)

  /** Reads a frame record: two bytes, a 5-byte big-endian header, the payload. */
  function ReadFrame(p: seq<byte>): (r: Option<FrameView>)
    ensures r.Some? <==> |p| >= PREFIX_SIZE
  {
    if |p| < PREFIX_SIZE then None
    else Some(FrameView(p[0], p[1], Unpack(Join5(p[2..PREFIX_SIZE])), p[PREFIX_SIZE..]))
  }

  /** The header fields a reader recovers, each cut to its width in the frame header. */
  function Fields(flags: byte, len: nat, cycle: byte, frameId: bv16, crc: bv16): HeaderFields
    requires len < TWO_64
  {
    HeaderFields((flags as bv64) & 0x1F, (len as bv64) & 0x7F, (cycle as bv64) & 0x3F,
                 (frameId as bv64) & 0x7FF, (crc as bv64) & 0x7FF)
  }

  /**
   * `set_header` followed by the 5-byte copy and the payload copy. `len`
   * is the payload length in 16-bit words (`dataBytes.size() / 2`).
   */
  function FrameBytes(measurement: byte, errorFlags: byte, flags: byte, len: nat, cycle: byte,
                      frameId: bv16, crc: bv16, data: seq<byte>): (p: seq<byte>)
    requires len < TWO_64
    ensures |p| == |data| + PREFIX_SIZE
    ensures ReadFrame(p) == Some(FrameView(measurement, errorFlags, Fields(flags, len, cycle, frameId, crc), data))
  {
    var header := PackHeader(flags as bv64, len as bv64, cycle as bv64, frameId as bv64, crc as bv64);
    PackRoundTrip(flags as bv64, len as bv64, cycle as bv64, frameId as bv64, crc as bv64);
    FramePacket(measurement, errorFlags, header, data)
  }

  /** A FlexRay packet stamped with the record header's channel and resolved time, no direction. */
  predicate FlexRayPacketOf(p: Frame, h: ObjectHeader, dateNs: u64)
  {
    h.objectFlags != OtherFlags
    && p.Packet? && p.link == LinkFlexRay && p.channelKey == h.channel
    && p.ts == Resolve(h.objectFlags, h.objectTimeStamp, dateNs).value
    && p.flags == 0
  }

  /** Writes `payload` as one FlexRay packet for record header `h`. */
  function EmitFlexRay(h: ObjectHeader, dateNs: u64, payload: seq<byte>): (w: Written)
    ensures w.UnknownResolution? <==> h.objectFlags == OtherFlags
    ensures !w.DivisionByZero?
    ensures w.Written? ==> FlexRayPacketOf(w.frame, h, dateNs) && w.frame.payload == payload
  {
    EmitPacket(LinkFlexRay, h.channel, h.objectFlags, h.objectTimeStamp, dateNs, 0, payload)
  }

  /**
   * The frame a reader sees for a FlexRay frame record without a channel
   * mask: type 1, no error flags, and the given header fields.
   */
  predicate WritesFrame(w: Written, h: ObjectHeader, dateNs: u64, expected: FrameView)
  {
    w.Written? ==> FlexRayPacketOf(w.frame, h, dateNs) && ReadFrame(w.frame.payload) == Some(expected)
  }

  /** FLEXRAY_DATA: non-null indicator only, no cycle, message id and CRC from the record. */
  function EncodeFlexRayData(r: FlexRayData, dateNs: u64): (w: Written)
    requires |r.dataBytes| <= FRAME_BUFFER - PREFIX_SIZE
    ensures w.UnknownResolution? <==> r.header.objectFlags == OtherFlags
    ensures !w.DivisionByZero?
    ensures WritesFrame(w, r.header, dateNs,
                        FrameView(MeasurementHeader(FlexRayFrame, 0), 0,
                                  Fields(NULL_FRAME_INDICATOR, |r.dataBytes| / 2, 0, r.messageId, r.crc),
                                  r.dataBytes))
  {
    EmitFlexRay(r.header, dateNs,
                FrameBytes(MeasurementHeader(FlexRayFrame, 0), 0, NULL_FRAME_INDICATOR, |r.dataBytes| / 2, 0,
                           r.messageId, r.crc, r.dataBytes))
  }

  /** FLEXRAY_SYNC: non-null and sync indicators, the record's cycle, message id and CRC. */
  function EncodeFlexRaySync(r: FlexRaySync, dateNs: u64): (w: Written)
    requires |r.dataBytes| <= FRAME_BUFFER - PREFIX_SIZE
    ensures w.UnknownResolution? <==> r.header.objectFlags == OtherFlags
    ensures !w.DivisionByZero?
    ensures WritesFrame(w, r.header, dateNs,
                        FrameView(MeasurementHeader(FlexRayFrame, 0), 0,
                                  Fields(NULL_FRAME_INDICATOR | SYNC, |r.dataBytes| / 2, r.cycle, r.messageId, r.crc),
                                  r.dataBytes))
  {
    EmitFlexRay(r.header, dateNs,
                FrameBytes(MeasurementHeader(FlexRayFrame, 0), 0, NULL_FRAME_INDICATOR | SYNC, |r.dataBytes| / 2,
                           r.cycle, r.messageId, r.crc, r.dataBytes))
  }

  /** FLEXRAY_CYCLE: non-null indicator and payload length only. */
  function EncodeFlexRayCycle(r: FlexRayV6StartCycleEvent, dateNs: u64): (w: Written)
    requires |r.dataBytes| <= FRAME_BUFFER - PREFIX_SIZE
    ensures w.UnknownResolution? <==> r.header.objectFlags == OtherFlags
    ensures !w.DivisionByZero?
    ensures WritesFrame(w, r.header, dateNs,
                        FrameView(MeasurementHeader(FlexRayFrame, 0), 0,
                                  Fields(NULL_FRAME_INDICATOR, |r.dataBytes| / 2, 0, 0, 0),
                                  r.dataBytes))
  {
    EmitFlexRay(r.header, dateNs,
                FrameBytes(MeasurementHeader(FlexRayFrame, 0), 0, NULL_FRAME_INDICATOR, |r.dataBytes| / 2,
                           0, 0, 0, r.dataBytes))
  }

  /** FLEXRAY_MESSAGE: header flags from the frame-state bits, cycle, frame id and CRC from the record. */
  function EncodeFlexRayMessage(r: FlexRayV6Message, dateNs: u64): (w: Written)
    requires |r.dataBytes| <= FRAME_BUFFER - PREFIX_SIZE
    ensures w.UnknownResolution? <==> r.header.objectFlags == OtherFlags
    ensures !w.DivisionByZero?
    ensures WritesFrame(w, r.header, dateNs,
                        FrameView(MeasurementHeader(FlexRayFrame, 0), 0,
                                  Fields(SetHeaderFlags(r.frameState, 0), |r.dataBytes| / 2, r.cycle,
                                         r.frameId, r.headerCrc),
                                  r.dataBytes))
  {
    EmitFlexRay(r.header, dateNs,
                FrameBytes(MeasurementHeader(FlexRayFrame, 0), 0, SetHeaderFlags(r.frameState, 0),
                           |r.dataBytes| / 2, r.cycle, r.frameId, r.headerCrc, r.dataBytes))
  }

  /** The CODERR bit of the error-flags byte. */
  const CODING_ERROR: byte := 0x02
  /** The FCRCERR bit of the error-flags byte. */
  const FRAME_CRC_ERROR: byte := 0x10

  /** FR_ERROR: a 7-byte frame with the coding-error bit, the channel, the cycle, no payload. */
  function EncodeFrError(r: FlexRayVFrError, dateNs: u64): (w: Written)
    ensures w.UnknownResolution? <==> r.header.objectFlags == OtherFlags
    ensures !w.DivisionByZero?
    ensures WritesFrame(w, r.header, dateNs,
                        FrameView(MeasurementHeader(FlexRayFrame, r.channelMask), CODING_ERROR,
                                  Fields(NULL_FRAME_INDICATOR, 0, r.cycle, 0, 0), []))
    ensures w.Written? ==> |w.frame.payload| == PREFIX_SIZE
  {
    EmitFlexRay(r.header, dateNs,
                FrameBytes(MeasurementHeader(FlexRayFrame, r.channelMask), CODING_ERROR, NULL_FRAME_INDICATOR,
                           0, r.cycle, 0, 0, []))
  }

  /**
   * The symbol length FR_STATUS reports: the low byte of the second data
   * word for BusDoctor records (tag 3), of the first for VN interfaces
   * (tag 5), zero otherwise.
   */
  function SymbolLength(r: FlexRayVFrStatus): byte
    requires |r.data| >= 2
  {
    if r.tag == 3 then Lo8(r.data[1])
    else if r.tag == 5 then Lo8(r.data[0])
    else 0
  }

  /** FR_STATUS: the two-byte symbol record, type 2 with the channel, then the symbol length. */
  function EncodeFrStatus(r: FlexRayVFrStatus, dateNs: u64): (w: Written)
    requires |r.data| >= 2
    ensures w.UnknownResolution? <==> r.header.objectFlags == OtherFlags
    ensures !w.DivisionByZero?
    ensures w.Written? ==> FlexRayPacketOf(w.frame, r.header, dateNs) && |w.frame.payload| == 2
    ensures w.Written? ==> (w.frame.payload[0] & 0x7F) == 0x02
    ensures w.Written? ==> ((w.frame.payload[0] & 0x80) != 0 <==> r.channelMask == 2 || r.channelMask == 3)
    ensures w.Written? ==> w.frame.payload[1] as bv32 == (if r.tag == 3 then r.data[1] & 0xFF
                                                         else if r.tag == 5 then r.data[0] & 0xFF
                                                         else 0)
  {
    EmitFlexRay(r.header, dateNs, [MeasurementHeader(FlexRaySymbol, r.channelMask), SymbolLength(r)])
  }

  /** FR_STARTCYCLE: the channel, the cycle and the payload in a 19-byte buffer. */
  function EncodeFrStartCycle(r: FlexRayVFrStartCycle, dateNs: u64): (w: Written)
    requires |r.dataBytes| <= START_CYCLE_BUFFER - PREFIX_SIZE
    ensures w.UnknownResolution? <==> r.header.objectFlags == OtherFlags
    ensures !w.DivisionByZero?
    ensures WritesFrame(w, r.header, dateNs,
                        FrameView(MeasurementHeader(FlexRayFrame, r.channelMask), 0,
                                  Fields(NULL_FRAME_INDICATOR, |r.dataBytes| / 2, r.cycle, 0, 0),
                                  r.dataBytes))
  {
    EmitFlexRay(r.header, dateNs,
                FrameBytes(MeasurementHeader(FlexRayFrame, r.channelMask), 0, NULL_FRAME_INDICATOR,
                           |r.dataBytes| / 2, r.cycle, 0, 0, r.dataBytes))
  }

  /** The error-flags byte of a receive-message record: FCRCERR when frame flag 6 is set. */
  function ReceiveErrorFlags(frameFlags: bv32): (e: byte)
    ensures e == FRAME_CRC_ERROR <==> HasFlag(frameFlags, 6)
    ensures e == 0 <==> !HasFlag(frameFlags, 6)
  {
    if HasFlag(frameFlags, 6) then FRAME_CRC_ERROR else 0
  }

  /** The frame view of a receive-message record. */
  function ReceiveView(r: FlexRayVFrReceiveMsg): FrameView
    requires |r.dataBytes| < TWO_64
  {
    FrameView(MeasurementHeader(FlexRayFrame, r.channelMask), ReceiveErrorFlags(r.frameFlags),
              Fields(SetHeaderFlagsRcvMsg(r.frameFlags, 0), |r.dataBytes| / 2, r.cycle, r.frameId,
                     HeaderCrc(r.channelMask, r.headerCrc1, r.headerCrc2)),
              r.dataBytes)
  }

  /** The frame both receive-message encoders build. */
  function ReceiveBytes(r: FlexRayVFrReceiveMsg): (p: seq<byte>)
    requires |r.dataBytes| < TWO_64
    ensures |p| == |r.dataBytes| + PREFIX_SIZE
    ensures ReadFrame(p) == Some(ReceiveView(r))
  {
    FrameBytes(MeasurementHeader(FlexRayFrame, r.channelMask), ReceiveErrorFlags(r.frameFlags),
               SetHeaderFlagsRcvMsg(r.frameFlags, 0), |r.dataBytes| / 2, r.cycle, r.frameId,
               HeaderCrc(r.channelMask, r.headerCrc1, r.headerCrc2), r.dataBytes)
  }

  /**
   * FR_RCVMESSAGE: header flags from the receive flags, the CRC of the
   * channel the frame was seen on, FCRCERR from frame flag 6; 261-byte buffer.
   */
  function EncodeFrReceiveMsg(r: FlexRayVFrReceiveMsg, dateNs: u64): (w: Written)
    requires |r.dataBytes| <= FRAME_BUFFER - PREFIX_SIZE
    ensures w.UnknownResolution? <==> r.header.objectFlags == OtherFlags
    ensures !w.DivisionByZero?
    ensures WritesFrame(w, r.header, dateNs, ReceiveView(r))
  {
    EmitFlexRay(r.header, dateNs, ReceiveBytes(r))
  }

  /**
   * FR_RCVMESSAGE_EX: the same frame built in a growable buffer, so any
   * payload the record's 16-bit data count allows is written in full.
   */
  function EncodeFrReceiveMsgEx(r: FlexRayVFrReceiveMsg, dateNs: u64): (w: Written)
    requires |r.dataBytes| < TWO_16
    ensures w.UnknownResolution? <==> r.header.objectFlags == OtherFlags
    ensures !w.DivisionByZero?
    ensures WritesFrame(w, r.header, dateNs, ReceiveView(r))
  {
    EmitFlexRay(r.header, dateNs, ReceiveBytes(r))
  }

  /**
   * Both receive-message encoders write the same bytes for every record the
   * fixed buffer holds. The source builds them by two different routes (a
   * fixed array and a growable vector); that the two routes give the same
   * bytes is a modelling decision, carried by both encoders sharing
   * `ReceiveBytes`, and this lemma only records it.
   */
  lemma ReceiveEncodersAgree(r: FlexRayVFrReceiveMsg, dateNs: u64)
    requires |r.dataBytes| <= FRAME_BUFFER - PREFIX_SIZE
    ensures EncodeFrReceiveMsg(r, dateNs) == EncodeFrReceiveMsgEx(r, dateNs)
  {
  }

  /**
   * A receive-message record on channel A with frame id 17, cycle 3, both
   * header CRCs 0 and no frame flags (not a null frame, not sync, not
   * startup, no CRC error) yields header flags 0x04 and frame id 17: the
   * frame header bytes are 20 11 00 00 03.
   */
  lemma ReceiveHeaderExample(h: ObjectHeader, dateNs: u64)
    requires h.objectFlags != OtherFlags
    ensures var r := FlexRayVFrReceiveMsg(h, 1, 0, 0, 0, 17, 3, []);
            var w := EncodeFrReceiveMsg(r, dateNs);
            && w.Written?
            && ReadFrame(w.frame.payload).value.header == HeaderFields(0x04, 0, 3, 17, 0)
            && w.frame.payload == [0x01, 0x00, 0x20, 0x11, 0x00, 0x00, 0x03]
  {
    var r := FlexRayVFrReceiveMsg(h, 1, 0, 0, 0, 17, 3, []);
    assert SetHeaderFlagsRcvMsg(0, 0) == 0x04;
    assert !HasFlag(0, 6);
    var hdr := PackHeader(0x04, 0, 3, 17, 0);
    assert hdr == 0x20_1100_0003;
  }
}

=== FILE: flexray_layout.dfy ===
/**
 * The FlexRay capture layout written by the FlexRay encoders
 * (src/app.cpp:380-492): a measurement-header byte, an error-flags byte,
 * the 5-byte frame header of the FlexRay header segment (section 4.2 of the
 * FlexRay Protocol Specification v2.1) and the payload.
 *
 * The frame header is assembled in a 64-bit scratch word: header flags at
 * bit 35, payload length (in 16-bit words) at bit 17, frame id at bit 24,
 * header CRC at bit 6 and cycle count at bit 0. The word is converted to
 * network byte order and its last five bytes are copied, i.e. the
 * big-endian encoding of the low 40 bits.
 */
module FlexRayLayout {
  import opened Bits

  datatype PacketType = FlexRayFrame | FlexRaySymbol

  const FRAME_HEADER_SIZE: nat := 5
  /** Measurement header, error flags and the 5-byte frame header. */
  const PREFIX_SIZE: nat := 7

  /**
   * `set_measurment_header`: the low bits give the packet type (1 frame,
   * 2 symbol); bit 7 marks channel B (mask 2 or 3). Callers that pass no
   * mask use 0, which marks channel A.
   */
  function MeasurementHeader(t: PacketType, channelMask: bv16): (b: byte)
    ensures (b & 0x7F) == (if t == FlexRayFrame then 0x01 else 0x02)
    ensures ((b & 0x80) != 0) <==> (channelMask == 2 || channelMask == 3)
  {
    var tag: byte := if t == FlexRayFrame then 0x01 else 0x02;
    if channelMask == 2 || channelMask == 3 then tag | 0x80 else tag
  }

  /**
   * `set_header_crc`: the header CRC of the channel the frame was seen on.
   * Channel A (mask 1) uses the first CRC, channel B (mask 2 or 3) the
   * second; any other mask leaves the caller's zero in place.
   */
  function HeaderCrc(channelMask: bv16, crc1: bv16, crc2: bv16): (crc: bv16)
    ensures channelMask == 1 ==> crc == crc1
    ensures channelMask == 2 || channelMask == 3 ==> crc == crc2
    ensures channelMask !in {1, 2, 3} ==> crc == 0
  {
    match channelMask
    case 1 => crc1
    case 2 => crc2
    case 3 => crc2
    case _ => 0
  }

  const PREAMBLE: byte := 0x08
  const SYNC: byte := 0x02
  const RESERVED: byte := 0x10
  /** Set when the frame is NOT a null frame: the header bit means "non-null". */
  const NULL_FRAME_INDICATOR: byte := 0x04
  const STARTUP: byte := 0x01

  /** The five header-flag bits; the rest of the byte is never written. */
  const FLAG_BITS: byte := 0x1F

  /**
   * `set_header_flags` for the `frameState` field: bit 0 gives the payload
   * preamble, bit 1 sync, bit 2 reserved, bit 3 clear the null-frame
   * indicator, bit 4 startup. It only ORs into `flags`.
   */
  function SetHeaderFlags(frameState: bv16, flags: byte): (r: byte)
    ensures (r & flags) == flags
    ensures (r & 0xE0) == (flags & 0xE0)
    ensures ((r & PREAMBLE) != 0) <==> ((flags & PREAMBLE) != 0 || HasFlag(frameState as bv32, 0))
    ensures ((r & SYNC) != 0) <==> ((flags & SYNC) != 0 || HasFlag(frameState as bv32, 1))
    ensures ((r & RESERVED) != 0) <==> ((flags & RESERVED) != 0 || HasFlag(frameState as bv32, 2))
    ensures ((r & NULL_FRAME_INDICATOR) != 0) <==> ((flags & NULL_FRAME_INDICATOR) != 0 || !HasFlag(frameState as bv32, 3))
    ensures ((r & STARTUP) != 0) <==> ((flags & STARTUP) != 0 || HasFlag(frameState as bv32, 4))
  {
    var s := frameState as bv32;
    flags
    | (if HasFlag(s, 0) then PREAMBLE else 0)
    | (if HasFlag(s, 1) then SYNC else 0)
    | (if HasFlag(s, 2) then RESERVED else 0)
    | (if !HasFlag(s, 3) then NULL_FRAME_INDICATOR else 0)
    | (if HasFlag(s, 4) then STARTUP else 0)
  }

  /**
   * `set_header_flags_rcv_msg` for the receive-message `frameFlags` field:
   * bit 0 clear gives the null-frame indicator, bit 2 sync, bit 3 startup,
   * bit 4 payload preamble, bit 5 reserved. It only ORs into `flags`.
   */
  function SetHeaderFlagsRcvMsg(frameFlags: bv32, flags: byte): (r: byte)
    ensures (r & flags) == flags
    ensures (r & 0xE0) == (flags & 0xE0)
    ensures ((r & NULL_FRAME_INDICATOR) != 0) <==> ((flags & NULL_FRAME_INDICATOR) != 0 || !HasFlag(frameFlags, 0))
    ensures ((r & SYNC) != 0) <==> ((flags & SYNC) != 0 || HasFlag(frameFlags, 2))
    ensures ((r & STARTUP) != 0) <==> ((flags & STARTUP) != 0 || HasFlag(frameFlags, 3))
    ensures ((r & PREAMBLE) != 0) <==> ((flags & PREAMBLE) != 0 || HasFlag(frameFlags, 4))
    ensures ((r & RESERVED) != 0) <==> ((flags & RESERVED) != 0 || HasFlag(frameFlags, 5))
  {
    flags
    | (if !HasFlag(frameFlags, 0) then NULL_FRAME_INDICATOR else 0)
    | (if HasFlag(frameFlags, 2) then SYNC else 0)
    | (if HasFlag(frameFlags, 3) then STARTUP else 0)
    | (if HasFlag(frameFlags, 4) then PREAMBLE else 0)
    | (if HasFlag(frameFlags, 5) then RESERVED else 0)
  }

  /**
   * `set_header` before the byte-order conversion: the 64-bit scratch word.
   * The arguments are the source's `uint8_t`/`uint16_t` parameters widened
   * by `static_cast<uint64_t>`. Cycle count, frame id and CRC are only
   * OR'd in when non-zero.
   */
  function PackHeader(flags: bv64, payloadLength: bv64, cycle: bv64, frameId: bv64, crc: bv64): bv64
    requires flags <= 0xFF && cycle <= 0xFF && frameId <= 0xFFFF && crc <= 0xFFFF
  {
    ((flags << 35) | ((payloadLength & 0x7F) << 17))
    | CycleTerm(cycle) | FrameIdTerm(frameId) | CrcTerm(crc)
  }

  function CycleTerm(cycle: bv64): bv64
  {
    if cycle != 0 then cycle & 0x3F else 0
  }

  function FrameIdTerm(frameId: bv64): bv64
  {
    if frameId != 0 then (frameId & 0x7FF) << 24 else 0
  }

  function CrcTerm(crc: bv64): bv64
  {
    if crc != 0 then (crc & 0x7FF) << 6 else 0
  }

  /**
   * The five bytes copied from the network-order word, starting three
   * bytes in: the big-endian encoding of bits 39..0.
   */
  function Header5(h: bv64): (b: seq<byte>)
    ensures |b| == FRAME_HEADER_SIZE
  {
    [Lo8Of64(h >> 32), Lo8Of64(h >> 24), Lo8Of64(h >> 16), Lo8Of64(h >> 8), Lo8Of64(h)]
  }

  /** Reads five bytes back as a big-endian 40-bit value. */
  function Join5(b: seq<byte>): bv64
    requires |b| == FRAME_HEADER_SIZE
  {
    ((b[0] as bv64) << 32) | ((b[1] as bv64) << 24) | ((b[2] as bv64) << 16)
    | ((b[3] as bv64) << 8) | (b[4] as bv64)
  }

  /** The logical fields of a FlexRay frame header, each zero-extended. */
  datatype HeaderFields = HeaderFields(flags: bv64, payloadLength: bv64, cycle: bv64,
                                       frameId: bv64, crc: bv64)

  /** Reads the fields of a 40-bit header at the positions `PackHeader` writes. */
  function Unpack(h: bv64): HeaderFields
  {
    HeaderFields((h >> 35) & 0x1F, (h >> 17) & 0x7F, h & 0x3F, (h >> 24) & 0x7FF, (h >> 6) & 0x7FF)
  }

  /** The copied five bytes are exactly the big-endian encoding of the word mod 2^40. */
  lemma Header5RoundTrip(h: bv64)
    ensures Join5(Header5(h)) == h & 0xFF_FFFF_FFFF
  {
  }

  /** The scratch word with every field OR'd in unconditionally. */
  function PackedFields(flags: bv64, payloadLength: bv64, cycle: bv64, frameId: bv64, crc: bv64): bv64
  {
    (flags << 35) | ((payloadLength & 0x7F) << 17) | (cycle & 0x3F)
    | ((frameId & 0x7FF) << 24) | ((crc & 0x7FF) << 6)
  }

  lemma CycleTermIsMask(cycle: bv64)
    ensures CycleTerm(cycle) == cycle & 0x3F
  {
  }

  lemma FrameIdTermIsMask(frameId: bv64)
    ensures FrameIdTerm(frameId) == (frameId & 0x7FF) << 24
  {
  }

  lemma CrcTermIsMask(crc: bv64)
    ensures CrcTerm(crc) == (crc & 0x7FF) << 6
  {
  }

  /** The zero tests of `set_header` change nothing: a zero field adds no bits. */
  lemma PackHeaderUnconditional(flags: bv64, payloadLength: bv64, cycle: bv64, frameId: bv64, crc: bv64)
    requires flags <= 0xFF && cycle <= 0xFF && frameId <= 0xFFFF && crc <= 0xFFFF
    ensures PackHeader(flags, payloadLength, cycle, frameId, crc)
         == PackedFields(flags, payloadLength, cycle, frameId, crc)
  {
    CycleTermIsMask(cycle);
    FrameIdTermIsMask(frameId);
    CrcTermIsMask(crc);
  }

  /** Each field of the 40-bit word reads back at its own width. */
  lemma UnpackPackedFields(flags: bv64, payloadLength: bv64, cycle: bv64, frameId: bv64, crc: bv64)
    requires flags <= 0xFF
    ensures Unpack(PackedFields(flags, payloadLength, cycle, frameId, crc) & 0xFF_FFFF_FFFF)
         == HeaderFields(flags & 0x1F, payloadLength & 0x7F, cycle & 0x3F, frameId & 0x7FF, crc & 0x7FF)
  {
  }

  /**
   * Packing then copying five bytes keeps every field at its width: the
   * five flag bits, seven length bits, six cycle bits and eleven frame-id
   * and CRC bits. Zero cycle, frame id or CRC arguments read back as zero.
   */
  lemma PackRoundTrip(flags: bv64, payloadLength: bv64, cycle: bv64, frameId: bv64, crc: bv64)
    requires flags <= 0xFF && cycle <= 0xFF && frameId <= 0xFFFF && crc <= 0xFFFF
    ensures Unpack(Join5(Header5(PackHeader(flags, payloadLength, cycle, frameId, crc))))
         == HeaderFields(flags & 0x1F, payloadLength & 0x7F, cycle & 0x3F, frameId & 0x7FF, crc & 0x7FF)
  {
    var h := PackHeader(flags, payloadLength, cycle, frameId, crc);
    Header5RoundTrip(h);
    PackHeaderUnconditional(flags, payloadLength, cycle, frameId, crc);
    UnpackPackedFields(flags, payloadLength, cycle, frameId, crc);
  }

  /** A FlexRay frame record: measurement header, error flags, frame header, payload. */
  function FramePacket(measurement: byte, errorFlags: byte, header: bv64, data: seq<byte>): (p: seq<byte>)
    ensures |p| == |data| + PREFIX_SIZE
    ensures p[0] == measurement && p[1] == errorFlags
    ensures Join5(p[2..PREFIX_SIZE]) == header & 0xFF_FFFF_FFFF
    ensures p[PREFIX_SIZE..] == data
  {
    Header5RoundTrip(header);
    [measurement, errorFlags] + Header5(header) + data
  }
}

=== FILE: frames.dfy ===
/**
 * What an encoder hands to the capture writer in place of calling
 * `write_packet` / `write_lin` (src/app.cpp:154-207, 805-835): the channel
 * key, the link type, the resolved timestamp, the direction flags and the
 * payload.
 */
module Frames {
  import opened Bits
  import opened Timestamps

  /** The container's `LINKTYPE_*` constants, kept abstract and distinct. */
  datatype LinkType = LinkCan | LinkLin | LinkFlexRay | LinkEthernet

  /** `DIR_IN` / `DIR_OUT`; 0 means the direction is unknown. */
  const DIR_IN: nat := 1
  const DIR_OUT: nat := 2

  /** The `LIN_ERROR_*` bits of a `lin_frame`, kept abstract and distinct. */
  datatype LinErrors = NoLinError | LinErrorChecksum | LinErrorFraming | LinErrorNoSlave

  /** The fields of a `lin_frame` the encoders set; the rest stay zero. */
  datatype LinFrame = LinFrame(pid: byte, payloadLength: u8, data: seq<byte>, checksum: u8, errors: LinErrors)

  datatype Frame =
    | Packet(channelKey: u32, link: LinkType, ts: Timestamp, flags: nat, payload: seq<byte>)
    | LinPacket(channel: u16, ts: Timestamp, lin: LinFrame)

  /** The result of one encoder call. */
  datatype Written =
    | Written(frame: Frame)
      /** `write_packet` returned -3: the record's time resolution is unknown. */
    | UnknownResolution
      /** The record reached `NANOS_PER_SEC / 0`: undefined behaviour, a crash in practice. */
    | DivisionByZero

  /**
   * The interface key of `write_packet`: `100000 * hw_channel + channel`
   * in `uint32_t`, so it wraps modulo 2^32.
   */
  function ChannelKey(hwChannel: u32, channel: u16): (k: u32)
    ensures hwChannel == 0 ==> k == channel
    ensures hwChannel * 100000 + channel < TWO_32 ==> k == hwChannel * 100000 + channel
  {
    (100000 * hwChannel + channel) % TWO_32
  }

  /**
   * `write_packet` once the payload is built: nothing is written when the
   * resolution is unknown; otherwise one packet with the resolved time.
   */
  function EmitPacket(link: LinkType, channel: u16, flags: ObjectFlags, ticks: u64, dateNs: u64,
                      direction: nat, payload: seq<byte>, hwChannel: u32 := 0): (w: Written)
    ensures w.UnknownResolution? <==> flags == OtherFlags
    ensures !w.DivisionByZero?
    ensures w.Written? ==> w.frame == Packet(ChannelKey(hwChannel, channel), link,
                                             Resolve(flags, ticks, dateNs).value, direction, payload)
  {
    match Resolve(flags, ticks, dateNs)
    case None => UnknownResolution
    case Some(ts) => Written(Packet(ChannelKey(hwChannel, channel), link, ts, direction, payload))
  }
}

=== FILE: lin_encoders.dfy ===
/**
 * The LIN encoders (src/app.cpp:139-152, 805-835): LIN records are not
 * packets but `lin_frame` records handed to the LIN writer together with a
 * frame header from `generate_header`.
 *
 * `generate_header` divides by the record's time resolution before its
 * callers test that resolution for zero, so a record with an unknown
 * time format reaches `NANOS_PER_SEC / 0`. The `AsWritten` members model
 * that order; the other members model the evidently intended guard.
 */
module LinEncoders {
  import opened Wrappers
  import opened Bits
  import opened Timestamps
  import opened Frames
  import opened Blf

  /** The size of `lin_frame`'s data area. */
  const LIN_DATA_SIZE: nat := 8

  /**
   * `generate_header` as written: the resolved timestamp, or `None` when
   * the division by the resolution is a division by zero.
   */
  function GenerateHeader(h: ObjectHeader, dateNs: u64): (r: Option<Timestamp>)
    ensures r.None? <==> Resolution(h.objectFlags) == 0
    ensures r == Resolve(h.objectFlags, h.objectTimeStamp, dateNs)
  {
    var res := Resolution(h.objectFlags);
    if res == 0 then None
    else Some(SplitNs(Mask63(RelativeNs(res, h.objectTimeStamp)) + Mask63(dateNs)))
  }

  /**
   * The frame of a LIN message: its identifier as the protected id, its
   * data zero-padded to the 8-byte area with the byte count as length, its
   * checksum cut to a byte. The record's `dlc` is not read.
   */
  function MessageFrame(m: LinMessage): (f: LinFrame)
    requires |m.data| <= LIN_DATA_SIZE
    ensures f.pid == m.id && f.errors == NoLinError
    ensures f.payloadLength == |m.data|
    ensures |f.data| == LIN_DATA_SIZE && f.data[..f.payloadLength] == m.data
    ensures forall i :: |m.data| <= i < LIN_DATA_SIZE ==> f.data[i] == 0
    ensures f.checksum == m.crc % 256
  {
    LinFrame(m.id, |m.data|, m.data + seq(LIN_DATA_SIZE - |m.data|, _ => 0), m.crc % 256, NoLinError)
  }

  /** The frame of a LIN error record: all zero except the error bits. */
  function ErrorFrame(errors: LinErrors): (f: LinFrame)
    ensures f.errors == errors && f.pid == 0 && f.payloadLength == 0 && f.checksum == 0
    ensures |f.data| == LIN_DATA_SIZE && forall i :: 0 <= i < |f.data| ==> f.data[i] == 0
  {
    LinFrame(0, 0, seq(LIN_DATA_SIZE, _ => 0), 0, errors)
  }

  /**
   * The error bits chosen by the dispatch switch: checksum errors for the
   * CRC records, no-slave for the slave timeout, framing for every other
   * receive, send and sync error.
   */
  function ErrorsFor(kind: LinErrorKind): (e: LinErrors)
    ensures e != NoLinError
    ensures e == LinErrorChecksum <==> kind == LinCrcError || kind == LinCrcError2
    ensures e == LinErrorNoSlave <==> kind == LinSlaveTimeout
    ensures e == LinErrorFraming <==> kind !in {LinCrcError, LinCrcError2, LinSlaveTimeout}
  {
    match kind
    case LinCrcError | LinCrcError2 => LinErrorChecksum
    case LinSlaveTimeout => LinErrorNoSlave
    case _ => LinErrorFraming
  }

  /** `write_lin_message` as written: an unknown time format divides by zero. */
  function WriteLinMessageAsWritten(m: LinMessage, dateNs: u64): (w: Written)
    requires |m.data| <= LIN_DATA_SIZE
    ensures w.DivisionByZero? <==> m.header.objectFlags == OtherFlags
    ensures !w.UnknownResolution?
    ensures w.Written? ==> w.frame == LinPacket(m.header.channel,
                                                Resolve(m.header.objectFlags, m.header.objectTimeStamp, dateNs).value,
                                                MessageFrame(m))
  {
    match GenerateHeader(m.header, dateNs)
    case None => DivisionByZero
    case Some(ts) => Written(LinPacket(m.header.channel, ts, MessageFrame(m)))
  }

  /** `write_lin_error` as written: an unknown time format divides by zero. */
  function WriteLinErrorAsWritten(h: ObjectHeader, errors: LinErrors, dateNs: u64): (w: Written)
    ensures w.DivisionByZero? <==> h.objectFlags == OtherFlags
    ensures !w.UnknownResolution?
    ensures w.Written? ==> w.frame == LinPacket(h.channel, Resolve(h.objectFlags, h.objectTimeStamp, dateNs).value,
                                                ErrorFrame(errors))
  {
    match GenerateHeader(h, dateNs)
    case None => DivisionByZero
    case Some(ts) => Written(LinPacket(h.channel, ts, ErrorFrame(errors)))
  }

  /**
   * The resolution guard of the LIN writers can never fire: whenever the
   * resolution is zero, the division inside `generate_header` came first.
   */
  lemma LinGuardUnreachable(m: LinMessage, dateNs: u64)
    requires |m.data| <= LIN_DATA_SIZE
    requires Resolution(m.header.objectFlags) == 0
    ensures WriteLinMessageAsWritten(m, dateNs) == DivisionByZero
    ensures WriteLinErrorAsWritten(m.header, LinErrorFraming, dateNs) == DivisionByZero
  {
  }

  /** A concrete record that reaches the division: an empty LIN message with unknown time format. */
  lemma LinDivisionByZeroWitness()
    ensures WriteLinMessageAsWritten(LinMessage(ObjectHeader(0, OtherFlags, 0), 0, 0, [], 0), 0) == DivisionByZero
  {
  }

  /**
   * `write_lin_message` with the guard before the division: an unknown
   * time format skips the record like `write_packet` does.
   */
  function WriteLinMessage(m: LinMessage, dateNs: u64): (w: Written)
    requires |m.data| <= LIN_DATA_SIZE
    ensures w.UnknownResolution? <==> m.header.objectFlags == OtherFlags
    ensures !w.DivisionByZero?
    ensures w.Written? ==> w.frame == LinPacket(m.header.channel,
                                                Resolve(m.header.objectFlags, m.header.objectTimeStamp, dateNs).value,
                                                MessageFrame(m))
  {
    match Resolve(m.header.objectFlags, m.header.objectTimeStamp, dateNs)
    case None => UnknownResolution
    case Some(ts) => Written(LinPacket(m.header.channel, ts, MessageFrame(m)))
  }

  /** `write_lin_error` with the guard before the division. */
  function WriteLinError(h: ObjectHeader, errors: LinErrors, dateNs: u64): (w: Written)
    ensures w.UnknownResolution? <==> h.objectFlags == OtherFlags
    ensures !w.DivisionByZero?
    ensures w.Written? ==> w.frame == LinPacket(h.channel, Resolve(h.objectFlags, h.objectTimeStamp, dateNs).value,
                                                ErrorFrame(errors))
  {
    match Resolve(h.objectFlags, h.objectTimeStamp, dateNs)
    case None => UnknownResolution
    case Some(ts) => Written(LinPacket(h.channel, ts, ErrorFrame(errors)))
  }

  /** The corrected writers differ from the written ones only where the original divides by zero. */
  lemma CorrectedAgreesWhenKnown(m: LinMessage, errors: LinErrors, dateNs: u64)
    requires |m.data| <= LIN_DATA_SIZE
    ensures m.header.objectFlags != OtherFlags ==>
              WriteLinMessage(m, dateNs) == WriteLinMessageAsWritten(m, dateNs)
              && WriteLinError(m.header, errors, dateNs) == WriteLinErrorAsWritten(m.header, errors, dateNs)
    ensures m.header.objectFlags == OtherFlags ==>
              WriteLinMessage(m, dateNs) == UnknownResolution
              && WriteLinMessageAsWritten(m, dateNs) == DivisionByZero
  {
  }

  /** The record's `dlc` never reaches the output. */
  lemma DlcIgnored(m: LinMessage, dlc: byte, dateNs: u64)
    requires |m.data| <= LIN_DATA_SIZE
    ensures WriteLinMessage(m.(dlc := dlc), dateNs) == WriteLinMessage(m, dateNs)
  {
  }
}

=== FILE: text.dfy ===
/**
 * The string helpers of the channel resolver: `split` (src/channels.cpp:14-24),
 * which collects the pieces `std::getline` extracts, and `std::stoi`, which
 * parses the hardware channel of an Ethernet port description and, through
 * the same rules, an element's integer attribute.
 */
module Text {
  import opened Wrappers

  /** The index of the first `d` in `s`, or `|s|` when `s` has none. */
  function FirstIndex(s: string, d: char): (i: nat)
    ensures i <= |s|
    ensures forall k :: 0 <= k < i ==> s[k] != d
    ensures i < |s| ==> s[i] == d
  {
    if |s| == 0 then 0
    else if s[0] == d then 0
    else 1 + FirstIndex(s[1..], d)
  }

  /**
   * `split(s, delim)`: each `getline` call extracts the text up to the next
   * delimiter and consumes it; the loop stops when a call extracts nothing
   * at the end of input. So an empty string has no pieces, a trailing
   * delimiter adds no empty piece, and inner and leading empty pieces stay.
   */
  function Split(s: string, d: char): (r: seq<string>)
    ensures forall k :: 0 <= k < |r| ==> d !in r[k]
    ensures r == [] <==> s == []
    decreases |s|
  {
    if s == [] then []
    else
      var i := FirstIndex(s, d);
      if i == |s| then [s] else [s[..i]] + Split(s[i + 1..], d)
  }

  /** The pieces glued back together with one delimiter between neighbours. */
  function Join(ps: seq<string>, d: char): string
  {
    if |ps| == 0 then []
    else if |ps| == 1 then ps[0]
    else ps[0] + [d] + Join(ps[1..], d)
  }

  /** The first delimiter after a delimiter-free prefix is the one following it. */
  lemma {:induction false} FirstIndexAfter(p: string, d: char, rest: string)
    requires d !in p
    ensures FirstIndex(p + [d] + rest, d) == |p|
    ensures FirstIndex(p, d) == |p|
  {
    if p != [] {
      assert (p + [d] + rest)[1..] == p[1..] + [d] + rest;
      FirstIndexAfter(p[1..], d, rest);
    }
  }

  /** Joining a piece in front of at least one more adds one delimiter. */
  lemma JoinCons(head: string, tail: seq<string>, d: char)
    requires tail != []
    ensures Join([head] + tail, d) == head + [d] + Join(tail, d)
  {
    assert ([head] + tail)[1..] == tail;
  }

  /** Splitting then joining gives the text back, up to one trailing delimiter. */
  lemma {:induction false} JoinSplit(s: string, d: char)
    ensures s != [] && s[|s| - 1] == d ==> Join(Split(s, d), d) + [d] == s
    ensures s == [] || s[|s| - 1] != d ==> Join(Split(s, d), d) == s
    decreases |s|, 1
  {
    if s != [] {
      if FirstIndex(s, d) < |s| {
        JoinSplitAt(s, d, FirstIndex(s, d));
      } else {
        assert Split(s, d) == [s];
      }
    }
  }

  /** The step of `JoinSplit`: the text splits at its first delimiter `i`. */
  lemma {:induction false} JoinSplitAt(s: string, d: char, i: nat)
    requires i == FirstIndex(s, d) < |s|
    ensures s[|s| - 1] == d ==> Join(Split(s, d), d) + [d] == s
    ensures s[|s| - 1] != d ==> Join(Split(s, d), d) == s
    decreases |s|, 0
  {
    var head, rest := s[..i], s[i + 1..];
    assert Split(s, d) == [head] + Split(rest, d);
    JoinSplit(rest, d);
    if rest == [] {
      assert Split(s, d) == [head];
      assert head + [d] == s;
    } else {
      JoinCons(head, Split(rest, d), d);
      Reassemble(s, i, d, Join(Split(rest, d), d));
    }
  }

  /** Gluing the text before `s[i]`, `s[i]` and what the rest joins back to gives `s` again. */
  lemma Reassemble(s: string, i: nat, d: char, joined: string)
    requires i + 1 < |s| && s[i] == d
    requires s[|s| - 1] == d ==> joined + [d] == s[i + 1..]
    requires s[|s| - 1] != d ==> joined == s[i + 1..]
    ensures s[|s| - 1] == d ==> s[..i] + [d] + joined + [d] == s
    ensures s[|s| - 1] != d ==> s[..i] + [d] + joined == s
  {
    assert s == s[..i] + [d] + s[i + 1..];
  }

  /**
   * Joining then splitting gives the pieces back when no piece holds the
   * delimiter and the last piece is not empty (an empty last piece would be
   * a trailing delimiter, which `getline` drops).
   */
  lemma {:induction false} SplitJoin(ps: seq<string>, d: char)
    requires forall k :: 0 <= k < |ps| ==> d !in ps[k]
    requires ps == [] || ps[|ps| - 1] != []
    ensures Split(Join(ps, d), d) == ps
  {
    if |ps| == 1 {
      FirstIndexAfter(ps[0], d, []);
    } else if |ps| > 1 {
      var rest := Join(ps[1..], d);
      assert [ps[0]] + ps[1..] == ps;
      JoinCons(ps[0], ps[1..], d);
      SplitAfterPiece(ps[0], d, rest);
      SplitJoin(ps[1..], d);
    }
  }

  /** A delimiter-free piece followed by the delimiter splits off as the first piece. */
  lemma SplitAfterPiece(p: string, d: char, rest: string)
    requires d !in p
    ensures Split(p + [d] + rest, d) == [p] + Split(rest, d)
  {
    var s := p + [d] + rest;
    FirstIndexAfter(p, d, rest);
    assert s[..|p|] == p;
    assert s[|p| + 1..] == rest;
  }

  /** One step of `Split` on a non-empty text. */
  lemma SplitStep(s: string, d: char)
    requires s != []
    ensures FirstIndex(s, d) == |s| ==> Split(s, d) == [s]
    ensures FirstIndex(s, d) < |s| ==> Split(s, d) == [s[..FirstIndex(s, d)]] + Split(s[FirstIndex(s, d) + 1..], d)
  {
  }

  /** With two pieces or more, the pieces after the first are those of the text after the first delimiter. */
  lemma SplitTail(s: string, d: char)
    requires |Split(s, d)| >= 2
    ensures FirstIndex(s, d) < |s|
    ensures s[FirstIndex(s, d) + 1..] != []
    ensures Split(s, d)[1..] == Split(s[FirstIndex(s, d) + 1..], d)
  {
    SplitStep(s, d);
  }

  /** The first piece of a non-empty text runs up to its first delimiter. */
  lemma SplitHead(t: string, d: char)
    requires t != []
    ensures Split(t, d) != [] && Split(t, d)[0] == t[..FirstIndex(t, d)]
  {
    SplitStep(t, d);
    assert t[..|t|] == t;
  }

  /** Splitting yields at least two pieces exactly when a delimiter comes before the last character. */
  lemma {:induction false} SplitHasTwoPieces(s: string, d: char)
    ensures |Split(s, d)| >= 2 <==> exists i :: 0 <= i < |s| - 1 && s[i] == d
  {
    if s != [] {
      var i := FirstIndex(s, d);
      if i == |s| {
        assert Split(s, d) == [s];
      } else if i == |s| - 1 {
        assert Split(s, d) == [s[..i]];
        assert s[i + 1..] == [];
      } else {
        assert s[i + 1..] != [];
        assert |Split(s, d)| >= 2;
      }
    }
  }

  /** The `getline` edge cases. */
  lemma SplitExamples()
    ensures Split("", ';') == []
    ensures Split("a;", ';') == ["a"]
    ensures Split(";a", ';') == ["", "a"]
    ensures Split("A;eth0", ';') == ["A", "eth0"]
  {
    assert FirstIndex("a;", ';') == 1;
    assert ("a;")[2..] == [];
    assert ("a;")[..1] == "a";
    assert FirstIndex(";a", ';') == 0;
    assert FirstIndex("a", ';') == 1;
    assert (";a")[1..] == "a";
    assert FirstIndex("A;eth0", ';') == 1;
    assert FirstIndex("eth0", ';') == 4;
    assert ("A;eth0")[2..] == "eth0";
    assert ("A;eth0")[..1] == "A";
    assert Split("eth0", ';') == ["eth0"];
  }

  /** The white-space characters `strtol` skips: space, \t, \n, \v, \f, \r. */
  predicate IsSpace(c: char)
  {
    c == ' ' || c == '\t' || c == '\n' || c == '\r' || c as int == 11 || c as int == 12
  }

  predicate IsDigit(c: char)
  {
    '0' <= c <= '9'
  }

  function DigitValue(c: char): nat
    requires IsDigit(c)
  {
    c as int - '0' as int
  }

  /** `s` without its leading white space. */
  function SkipSpace(s: string): (t: string)
    ensures |t| <= |s| && t == s[|s| - |t|..]
    ensures t == [] || !IsSpace(t[0])
  {
    if s != [] && IsSpace(s[0]) then SkipSpace(s[1..]) else s
  }

  /** The number of leading decimal digits of `s`. */
  function LeadingDigits(s: string): (n: nat)
    ensures n <= |s|
    ensures forall k :: 0 <= k < n ==> IsDigit(s[k])
    ensures n < |s| ==> !IsDigit(s[n])
  {
    if s != [] && IsDigit(s[0]) then 1 + LeadingDigits(s[1..]) else 0
  }

  /** The value of a string of decimal digits, most significant first. */
  function DigitsValue(s: string): nat
    requires forall k :: 0 <= k < |s| ==> IsDigit(s[k])
  {
    if s == [] then 0 else 10 * DigitsValue(s[..|s| - 1]) + DigitValue(s[|s| - 1])
  }

  const INT_MIN: int := -0x8000_0000
  const INT_MAX: int := 0x7FFF_FFFF

  predicate IsInt32(v: int)
  {
    INT_MIN <= v <= INT_MAX
  }

  /** The exceptions `std::stoi` throws. */
  datatype StoiError = InvalidArgument | OutOfRange

  /**
   * `std::stoi(s)`: leading white space, an optional sign, then as many
   * decimal digits as follow; anything after them is ignored. No digits is
   * `invalid_argument`; a value outside `int` is `out_of_range`.
   */
  function Stoi(s: string): (r: Result<int, StoiError>)
    ensures r.Ok? ==> IsInt32(r.value)
  {
    var t := SkipSpace(s);
    var neg := t != [] && t[0] == '-';
    match Magnitude(if t != [] && (t[0] == '-' || t[0] == '+') then t[1..] else t)
    case None => Err(InvalidArgument)
    case Some(k) =>
      var v: int := if neg then -(k as int) else k as int;
      if IsInt32(v) then Ok(v) else Err(OutOfRange)
  }

  /** The value of the leading digits of `u`, or `None` when `u` does not start with one. */
  function Magnitude(u: string): (m: Option<nat>)
    ensures m.None? <==> u == [] || !IsDigit(u[0])
  {
    var n := LeadingDigits(u);
    if n == 0 then None else Some(DigitsValue(u[..n]))
  }

  function DigitChar(k: nat): (c: char)
    requires k < 10
    ensures IsDigit(c) && DigitValue(c) == k
  {
    ('0' as int + k) as char
  }

  /** The decimal numeral of `n`, without leading zeros. */
  function NatDigits(n: nat): (s: string)
    ensures s != [] && forall k :: 0 <= k < |s| ==> IsDigit(s[k])
  {
    if n < 10 then [DigitChar(n)] else NatDigits(n / 10) + [DigitChar(n % 10)]
  }

  /** `std::to_string` of an integer. */
  function Decimal(v: int): string
  {
    if v < 0 then "-" + NatDigits(-v) else NatDigits(v)
  }

  lemma {:induction false} NatDigitsValue(n: nat)
    ensures DigitsValue(NatDigits(n)) == n
  {
    if n >= 10 {
      NatDigitsValue(n / 10);
      var s := NatDigits(n);
      assert s[..|s| - 1] == NatDigits(n / 10);
    }
  }

  /** The digits of a numeral followed by a non-digit are exactly the numeral. */
  lemma {:induction false} LeadingDigitsOfNumeral(digits: string, suffix: string)
    requires forall k :: 0 <= k < |digits| ==> IsDigit(digits[k])
    requires suffix == [] || !IsDigit(suffix[0])
    ensures LeadingDigits(digits + suffix) == |digits|
    ensures (digits + suffix)[..|digits|] == digits
  {
    if digits != [] {
      assert (digits + suffix)[1..] == digits[1..] + suffix;
      LeadingDigitsOfNumeral(digits[1..], suffix);
    }
  }

  /**
   * `stoi` reads back what `to_string` writes: the numeral of any `int`,
   * followed by anything that does not start with a digit.
   */
  lemma StoiDecimal(v: int, suffix: string)
    requires IsInt32(v)
    requires suffix == [] || !IsDigit(suffix[0])
    ensures Stoi(Decimal(v) + suffix) == Ok(v)
  {
    if v < 0 {
      StoiNegativeDecimal(v, suffix);
    } else {
      var u := NatDigits(v) + suffix;
      MagnitudeOfNumeral(v, suffix);
      StoiUnsigned(u);
    }
  }

  lemma StoiNegativeDecimal(v: int, suffix: string)
    requires INT_MIN <= v < 0
    requires suffix == [] || !IsDigit(suffix[0])
    ensures Stoi(Decimal(v) + suffix) == Ok(v)
  {
    var u := NatDigits(-v) + suffix;
    MagnitudeOfNumeral(-v, suffix);
    NegativeDecimal(v, suffix);
    StoiNegative(Decimal(v) + suffix, u, -v);
  }

  lemma NegativeDecimal(v: int, suffix: string)
    requires v < 0
    ensures Decimal(v) + suffix == "-" + (NatDigits(-v) + suffix)
  {
  }

  /** A sign `-` followed by a numeral of magnitude at most 2^31 is read as its negation. */
  lemma StoiNegative(s: string, u: string, k: nat)
    requires s == "-" + u && Magnitude(u) == Some(k) && k <= -INT_MIN
    ensures Stoi(s) == Ok(-(k as int))
  {
    StoiSigned(s, u);
  }

  /** A text starting with `-` is read as the negated magnitude of what follows. */
  lemma StoiSigned(s: string, u: string)
    requires s == "-" + u
    ensures Stoi(s) ==
      match Magnitude(u)
      case None => Err(InvalidArgument)
      case Some(k) => if IsInt32(-(k as int)) then Ok(-(k as int)) else Err(OutOfRange)
  {
    assert s[0] == '-' && !IsSpace(s[0]);
    assert SkipSpace(s) == s;
    assert s[1..] == u;
  }

  /** A text starting with a digit is read as its magnitude. */
  lemma StoiUnsigned(u: string)
    requires u != [] && IsDigit(u[0])
    ensures Stoi(u) == (var k := Magnitude(u).value; if IsInt32(k) then Ok(k) else Err(OutOfRange))
  {
    assert !IsSpace(u[0]);
    assert SkipSpace(u) == u;
  }

  /** The magnitude of a numeral followed by a non-digit is its value. */
  lemma MagnitudeOfNumeral(k: nat, suffix: string)
    requires suffix == [] || !IsDigit(suffix[0])
    ensures Magnitude(NatDigits(k) + suffix) == Some(k)
  {
    NatDigitsValue(k);
    LeadingDigitsOfNumeral(NatDigits(k), suffix);
  }

  /** A numeral outside `int` is `out_of_range`. */
  lemma StoiOutOfRange(v: int)
    requires !IsInt32(v)
    ensures Stoi(Decimal(v)) == Err(OutOfRange)
  {
    var k: nat := if v < 0 then -v else v;
    MagnitudeOfNumeral(k, []);
    assert NatDigits(k) + [] == NatDigits(k);
    if v < 0 {
      StoiSigned(Decimal(v), NatDigits(k));
    } else {
      StoiUnsigned(NatDigits(k));
    }
  }


  /** Leading white space is skipped up to the first other character. */
  lemma {:induction false} SkipBlanks(blanks: string, rest: string)
    requires forall k :: 0 <= k < |blanks| ==> IsSpace(blanks[k])
    requires rest == [] || !IsSpace(rest[0])
    ensures SkipSpace(blanks + rest) == rest
  {
    if blanks != [] {
      assert (blanks + rest)[1..] == blanks[1..] + rest;
      SkipBlanks(blanks[1..], rest);
    }
  }

  /**
   * Text whose first non-blank character is neither a digit nor a sign
   * followed by a digit is `invalid_argument`; so is blank text.
   */
  lemma StoiNoDigits(blanks: string, rest: string)
    requires forall k :: 0 <= k < |blanks| ==> IsSpace(blanks[k])
    requires rest == [] || (!IsSpace(rest[0]) && !IsDigit(rest[0]))
    requires rest != [] && (rest[0] == '-' || rest[0] == '+') ==> |rest| == 1 || !IsDigit(rest[1])
    ensures Stoi(blanks + rest) == Err(InvalidArgument)
  {
    SkipBlanks(blanks, rest);
  }
}

=== FILE: timestamps.dfy ===
/**
 * The timestamp normaliser (src/app.cpp:121-152, 173-183, 784-803): a
 * record's tick count at its declared resolution, plus the measurement
 * start date, becomes an absolute nanosecond count split into seconds and
 * nanoseconds. All arithmetic is on `uint64_t`: the product wraps modulo
 * 2^64 and both terms are masked to 63 bits before they are added.
 */
module Timestamps {
  import opened Wrappers
  import opened Bits

  const NANOS_PER_SEC: nat := 1_000_000_000
  /** `TIMESTAMP_MASK` keeps the low 63 bits. */
  const TIMESTAMP_MASK: nat := 0x7FFF_FFFF_FFFF_FFFF

  /** The resolution bits of a record's `objectFlags`. */
  datatype ObjectFlags = TimeTenMics | TimeOneNans | OtherFlags

  /** A resolved `tv_sec`/`tv_nsec` pair. */
  datatype Timestamp = Timestamp(sec: nat, nsec: nat)

  /** The nanosecond count a timestamp denotes. */
  function ToNs(t: Timestamp): nat
  {
    t.sec * NANOS_PER_SEC + t.nsec
  }

  /**
   * `calculate_ts_res`: ticks per second, 100000 for ten-microsecond
   * records, 10^9 for nanosecond records and 0 for anything else.
   */
  function Resolution(f: ObjectFlags): (res: nat)
    ensures res == 0 <==> f == OtherFlags
    ensures f == TimeTenMics ==> res == 100_000
    ensures f == TimeOneNans ==> res == NANOS_PER_SEC
    ensures res != 0 ==> NANOS_PER_SEC % res == 0
  {
    match f
    case TimeTenMics => 100_000
    case TimeOneNans => NANOS_PER_SEC
    case OtherFlags => 0
  }

  /** `(NANOS_PER_SEC / resolution) * ticks` in `uint64_t`, so wrapping mod 2^64. */
  function RelativeNs(res: nat, ticks: u64): u64
    requires res != 0
  {
    ((NANOS_PER_SEC / res) * ticks) % TWO_64
  }

  /** `x & TIMESTAMP_MASK` for a 64-bit `x`. */
  function Mask63(x: u64): (r: nat)
    ensures r < TWO_63
    ensures x < TWO_63 ==> r == x
  {
    x % TWO_63
  }

  /** Splits a nanosecond count into `ts / 10^9` and `ts % 10^9`. */
  function SplitNs(ns: nat): (t: Timestamp)
    ensures t.nsec < NANOS_PER_SEC
    ensures ToNs(t) == ns
  {
    Timestamp(ns / NANOS_PER_SEC, ns % NANOS_PER_SEC)
  }

  /**
   * The timestamp computed by `write_packet` (and by `generate_header` when
   * the resolution is known). `None` is the early `return -3` for an
   * unknown resolution, taken before anything is written. Otherwise the two
   * masked terms add up without overflowing 64 bits and the split is exact.
   */
  function Resolve(flags: ObjectFlags, ticks: u64, dateNs: u64): (r: Option<Timestamp>)
    ensures r.None? <==> flags == OtherFlags
    ensures r.Some? ==> r.value.nsec < NANOS_PER_SEC
    ensures r.Some? ==> ToNs(r.value) < TWO_64
    ensures r.Some? ==> ToNs(r.value) == Mask63(RelativeNs(Resolution(flags), ticks)) + Mask63(dateNs)
  {
    var res := Resolution(flags);
    if res == 0 then None
    else Some(SplitNs(Mask63(RelativeNs(res, ticks)) + Mask63(dateNs)))
  }

  /** Nanoseconds per tick of a known resolution. */
  function Scale(flags: ObjectFlags): nat
    requires flags != OtherFlags
  {
    if flags == TimeTenMics then 10_000 else 1
  }

  /**
   * Without wrap-around (product and start date below 2^63) the resolved
   * time is exactly the start date plus the ticks in nanoseconds.
   */
  lemma ResolveExact(flags: ObjectFlags, ticks: u64, dateNs: u64)
    requires flags != OtherFlags
    requires ticks * Scale(flags) < TWO_63 && dateNs < TWO_63
    ensures Resolve(flags, ticks, dateNs).Some?
    ensures ToNs(Resolve(flags, ticks, dateNs).value) == ticks * Scale(flags) + dateNs
  {
    assert NANOS_PER_SEC / Resolution(flags) == Scale(flags);
  }

  /** Under the same bounds, later ticks never resolve to an earlier time. */
  lemma ResolveMonotone(flags: ObjectFlags, ticks1: u64, ticks2: u64, dateNs: u64)
    requires flags != OtherFlags
    requires ticks1 <= ticks2
    requires ticks2 * Scale(flags) < TWO_63 && dateNs < TWO_63
    ensures ToNs(Resolve(flags, ticks1, dateNs).value) <= ToNs(Resolve(flags, ticks2, dateNs).value)
  {
    ResolveExact(flags, ticks2, dateNs);
    assert ticks1 * Scale(flags) <= ticks2 * Scale(flags);
    ResolveExact(flags, ticks1, dateNs);
  }

  /** A signed 64-bit `time_t` value. */
  predicate IsInt64(x: int)
  {
    -TWO_63 <= x < TWO_63
  }

  /**
   * The arithmetic tail of `calculate_startdate`: `(t * 1000 + ms) * 10^6`
   * in `time_t`, returned as `uint64_t`. The epoch seconds `t` are the
   * result of `mktime` and are taken as an input. Signed overflow is
   * undefined, so the product must fit in 64 bits; a negative result
   * (a `mktime` failure returns -1) wraps to a value near 2^64.
   */
  function StartDateNs(epochSeconds: int, milliseconds: u16): (r: u64)
    requires IsInt64(epochSeconds)
    requires IsInt64((epochSeconds * 1000 + milliseconds) * 1_000_000)
    ensures epochSeconds >= 0 ==> r == epochSeconds * NANOS_PER_SEC + milliseconds * 1_000_000
    ensures epochSeconds * 1000 + milliseconds < 0 ==>
              r == (epochSeconds * 1000 + milliseconds) * 1_000_000 + TWO_64
  {
    ((epochSeconds * 1000 + milliseconds) * 1_000_000) % TWO_64
  }

  /** A start date with milliseconds below 1000 splits back into its second and milliseconds. */
  lemma StartDateSplit(epochSeconds: int, milliseconds: u16)
    requires 0 <= epochSeconds && milliseconds < 1000
    requires (epochSeconds * 1000 + milliseconds) * 1_000_000 < TWO_63
    ensures StartDateNs(epochSeconds, milliseconds) / NANOS_PER_SEC == epochSeconds
    ensures StartDateNs(epochSeconds, milliseconds) % NANOS_PER_SEC == milliseconds * 1_000_000
  {
    DivModUnique(StartDateNs(epochSeconds, milliseconds), epochSeconds, milliseconds * 1_000_000);
  }

  /** Division by 10^9 recovers a quotient and remainder that are in range. */
  lemma DivModUnique(n: nat, q: nat, r: nat)
    requires r < NANOS_PER_SEC && n == q * NANOS_PER_SEC + r
    ensures n / NANOS_PER_SEC == q && n % NANOS_PER_SEC == r
  {
  }

  /**
   * A record with zero ticks resolves to the measurement start itself:
   * the start second and its milliseconds as nanoseconds.
   */
  lemma ZeroTicksAtStartDate(flags: ObjectFlags, epochSeconds: int, milliseconds: u16)
    requires flags != OtherFlags
    requires 0 <= epochSeconds && milliseconds < 1000
    requires (epochSeconds * 1000 + milliseconds) * 1_000_000 < TWO_63
    ensures Resolve(flags, 0, StartDateNs(epochSeconds, milliseconds))
         == Some(Timestamp(epochSeconds, milliseconds as int * 1_000_000))
  {
    var d := StartDateNs(epochSeconds, milliseconds);
    ResolveExact(flags, 0, d);
    var t := Resolve(flags, 0, d).value;
    DivModUnique(d, t.sec, t.nsec);
  }
}

=== FILE: wrappers.dfy ===
/** Failure-compatible helper datatypes used across the model. */
module Wrappers {

  /** A value that may be absent (a null pointer, an empty std::optional). */
  datatype Option<+T> = None | Some(value: T)

  /** A value or the reason it could not be produced (a thrown exception). */
  datatype Result<+T, +E> = Ok(value: T) | Err(error: E)
}

=== FILE: xml.dfy ===
/**
 * The part of the tinyxml2 document model the channel resolver reads:
 * elements with a name, attributes, optional text and child elements.
 * Parsing itself is not modelled: a `Parser` is the table of texts that
 * parse, each with the document it yields; any other text is an XML error.
 */
module Xml {
  import opened Wrappers
  import opened Text

  datatype Element = Element(name: string, attributes: map<string, string>, text: Option<string>,
                             children: seq<Element>)

  datatype Document = Document(roots: seq<Element>)

  type Parser = map<string, Document>

  /** `XMLDocument::Parse`: the document, or `None` for text that is not well-formed. */
  function Parse(parser: Parser, text: string): (d: Option<Document>)
    ensures d.Some? <==> text in parser
    ensures d.Some? ==> d.value == parser[text]
  {
    if text in parser then Some(parser[text]) else None
  }

  /** `Attribute(name)`: the attribute's value, or null. */
  function Attribute(e: Element, name: string): (v: Option<string>)
    ensures v.Some? <==> name in e.attributes
    ensures v.Some? ==> v.value == e.attributes[name]
  {
    if name in e.attributes then Some(e.attributes[name]) else None
  }

  /** `Attribute(name) ? Attribute(name) : ""`. */
  function AttributeOrEmpty(e: Element, name: string): (v: string)
    ensures name in e.attributes ==> v == e.attributes[name]
    ensures name !in e.attributes ==> v == ""
  {
    match Attribute(e, name)
    case Some(v) => v
    case None => ""
  }

  /** `Attribute(name, value)` is non-null: the attribute exists and equals `value`. */
  predicate AttributeIs(e: Element, name: string, value: string)
  {
    Attribute(e, name) == Some(value)
  }

  /**
   * `IntAttribute(name)`: the attribute read as a decimal `int`, or the
   * default 0 when it is missing or does not read as one.
   */
  function IntAttribute(e: Element, name: string): (v: int)
    ensures name !in e.attributes ==> v == 0
    ensures name in e.attributes && Stoi(e.attributes[name]).Ok? ==> v == Stoi(e.attributes[name]).value
    ensures name in e.attributes && Stoi(e.attributes[name]).Err? ==> v == 0
  {
    match Attribute(e, name)
    case None => 0
    case Some(s) => if Stoi(s).Ok? then Stoi(s).value else 0
  }

  /**
   * The elements a `FirstChildElement(name)` / `NextSiblingElement(name)`
   * loop visits: those named `name`, in document order.
   */
  function ChildrenNamed(es: seq<Element>, name: string): (r: seq<Element>)
    ensures forall k :: 0 <= k < |r| ==> r[k].name == name && r[k] in es
    ensures forall e :: e in es && e.name == name ==> e in r
    ensures |r| <= |es|
  {
    if es == [] then []
    else (if es[0].name == name then [es[0]] else []) + ChildrenNamed(es[1..], name)
  }

  /** `FirstChildElement(name)`: the first element named `name`, or null. */
  function FirstNamed(es: seq<Element>, name: string): (r: Option<Element>)
    ensures r.None? <==> forall e :: e in es ==> e.name != name
    ensures r.Some? ==> r.value in es && r.value.name == name
    ensures r.Some? ==> exists i :: 0 <= i < |es| && es[i] == r.value && forall j :: 0 <= j < i ==> es[j].name != name
  {
    if es == [] then None
    else if es[0].name == name then Some(es[0])
    else
      var r := FirstNamed(es[1..], name);
      assert r.Some? ==> exists i :: 0 <= i < |es| && es[i] == r.value && forall j :: 0 <= j < i ==> es[j].name != name by {
        if r.Some? {
          var i :| 0 <= i < |es[1..]| && es[1..][i] == r.value && forall j :: 0 <= j < i ==> es[1..][j].name != name;
          assert es[i + 1] == r.value;
          assert forall j :: 0 <= j < i + 1 ==> es[j].name != name by {
            forall j | 0 <= j < i + 1 ensures es[j].name != name {
              if j > 0 { assert es[j] == es[1..][j - 1]; }
            }
          }
        }
      }
      r
  }

  /**
   * The sibling loop visits the named elements of a list of children in
   * order: those of the first part, then those of the second.
   */
  lemma {:induction false} ChildrenNamedAppend(a: seq<Element>, b: seq<Element>, name: string)
    ensures ChildrenNamed(a + b, name) == ChildrenNamed(a, name) + ChildrenNamed(b, name)
  {
    if a != [] {
      assert (a + b)[0] == a[0];
      assert (a + b)[1..] == a[1..] + b;
      ChildrenNamedAppend(a[1..], b, name);
    } else {
      assert a + b == b;
    }
  }

  /** A single child is visited exactly when it has the name. */
  lemma ChildrenNamedOne(e: Element, name: string)
    ensures ChildrenNamed([e], name) == if e.name == name then [e] else []
  {
    assert [e][1..] == [];
  }

  /** The first element named `name` is where the sibling loop starts. */
  lemma {:induction false} FirstNamedStartsLoop(es: seq<Element>, name: string)
    ensures FirstNamed(es, name) == if ChildrenNamed(es, name) == [] then None else Some(ChildrenNamed(es, name)[0])
  {
    if es != [] && es[0].name != name {
      FirstNamedStartsLoop(es[1..], name);
    }
  }
}
